=== FILE: README.md ===
# Edu Dham university directory — a Dafny model

Edu Dham is a university directory. Students browse and search university
listings, open a university's page and apply to it. Administrators manage
universities, categories, managers and the homepage. A manager edits their
own university. The program is a React frontend over a FastAPI/MongoDB
backend (`backend/server.py`).

This project models the decision logic of both halves as pure Dafny
functions over immutable datatypes, and proves properties of them.

Server side:
- the university update endpoint: who may update, dropping `null` fields, the partial `$set`;
- self-registration and its role escalation guard;
- password reset by one-time code (generation, storage, ordered verification checks);
- the listing query built from the query parameters;
- the filter-option vocabulary;
- the spreadsheet bulk upload, row by row.

Client side:
- the home page's live search, filters, "active filters" flag and minimum-fee label;
- the detail page's course grouping;
- the extended-details editor (courses, tags, gallery, contact, category picker) and its save payload;
- the category multi-select and the dropdowns' open/close behaviour;
- the homepage editor (image list edits, rotating preview, slide interval);
- the admin console's university and manager forms;
- the manager console's load/edit/cancel cycle;
- the login session, route guards and landing routes, branding cache, reset-password page and "Apply" dialog.

Each module follows one source component:

| module | file | source |
|---|---|---|
| Outcomes | outcomes.dfy | optional values, HTTP errors, `detail \|\| fallback` |
| Text, Lists | text.dfy, lists.dfy | trim, lower-case, substring, split/join; filter, map, subsequences, insertion-ordered sets |
| Entities, FormPayload | entities.dfy, form_payload.dfy | records, legacy category reading, the university edit form and its payload |
| UniversityUpdate, Accounts, OtpReset | university_update.dfy, accounts.dfy, otp_reset.dfy | `server.py` auth and update endpoints |
| UniversityQuery, FilterOptions, BulkUpload | university_query.dfy, filter_options.dfy, bulk_upload.dfy | `server.py` listing, options and bulk upload |
| ListingSearch | listing_search.dfy | `HomePage.js` |
| DetailPage | detail_page.dfy | `UniversityDetailPage.js` |
| DetailsEditor | details_editor.dfy | `UniversityDetailsEditor.js` |
| Popover, MultiSelect | popover.dfy, multi_select.dfy | `CategoryMultiSelect.js` and the course category picker |
| HomepageEditor | homepage_editor.dfy | `HomepageEditor.js` |
| AdminDashboard, ManagerDashboard | admin_dashboard.dfy, manager_dashboard.dfy | the two consoles |
| AuthSession, Routing | auth_session.dfy, routing.dfy | `AuthContext.js`, `App.js`, `LoginPage.js`, the home page's dashboard link |
| Branding, ResetPassword, ApplyModal | branding.dfy, reset_password.dfy, apply_modal.dfy | the components of the same names |

Some things become parameters:
- every API call: its reply is an `ApiReply` (the data, or a failure with an optional `detail`);
- number parsing and printing: `parse`, `show`;
- token decoding;
- the clock, in whole seconds;
- the random draw behind a code;
- password hashes and fresh identifiers.

A page's state is a datatype, and each event handler is a function from state to state.

## Model

| member | source | states |
|---|---|---|
| Outcomes.MessageOf | frontend/src/context/AuthContext.js:44-47 | the server's non-empty `detail` wins, otherwise the page's own fallback text |
| Text.Trim | frontend/src/components/UniversityDetailsEditor.js:328 | the input with only leading and trailing whitespace removed: a slice of it with whitespace alone before and after, starting and ending with a non-whitespace character, or empty |
| Text.TrimBlank | frontend/src/components/UniversityDetailsEditor.js:446 | a string trims to empty exactly when it is all whitespace (the "blank row" test) |
| Text.TrimIdempotent | backend/server.py:433 | trimming a trimmed value changes nothing |
| Text.ContainsAt | frontend/src/pages/HomePage.js:109 | `includes` holds exactly when the needle occurs at some position |
| Text.Lower | frontend/src/pages/HomePage.js:106 | same length, each character lower-cased on its own |
| Text.Split | backend/server.py:726 | at least one piece, none holding the separator |
| Text.SplitJoin | backend/server.py:726 | joining the pieces of `split(',')` with commas gives the cell back |
| Text.JoinSplit | backend/server.py:726 | splitting comma-free pieces joined by commas gives the pieces back |
| Text.TrimmedNonBlank | backend/server.py:726 | `[c.strip() for c in xs if c.strip()]` keeps the non-empty trims of the entries in their order, each as often as it occurs, and nothing else; each is trimmed and non-blank |
| Text.TrimmedNonBlankOfPlain | backend/server.py:739 | entries already trimmed and non-blank all survive, in order |
| Entities.ParseFloatOrZero | frontend/src/pages/AdminDashboard.js:612 | an unparsable number (NaN) becomes 0, a parsed one is kept |
| Entities.FormCategories | frontend/src/pages/AdminDashboard.js:641-643 | the form takes the category list when it is an array, else the legacy value as a one-element list, else nothing |
| Entities.CategoryChips | frontend/src/pages/AdminDashboard.js:929-934 | a row shows the list when non-empty, else the legacy value |
| Entities.ChipsDifferFromForm | frontend/src/pages/AdminDashboard.js:929-934 | what a row shows and what its edit form loads differ exactly for an empty list beside a legacy value |
| Entities.FormOf | frontend/src/pages/AdminDashboard.js:635-650 | the edit form copies the row's fields, with the categories read as above |
| FormPayload.PayloadOf | frontend/src/pages/AdminDashboard.js:609-613 | form fields travel as typed; placement through `parseFloat`; rating falls back to 0 in the admin console and not in the manager console |
| FormPayload.ChangesOf | backend/server.py:802-804 | a form payload is never an empty update; a NaN number is dropped as an absent field |
| FormPayload.UnchangedSaveIsNoOp | frontend/src/pages/AdminDashboard.js:606-650 | saving a loaded form untouched leaves a university with a category list unchanged |
| FormPayload.LegacyCategoryMigrates | frontend/src/pages/AdminDashboard.js:641-643 | the first save of a legacy-only university writes the legacy value as its category list |
| FormPayload.UnparsableRating | frontend/src/pages/ManagerDashboard.js:180-184 | an unparsable rating is stored as 0 by the admin console and left unchanged by the manager console |
| UniversityUpdate.Apply | backend/server.py:802-809 | the sent fields replace the stored ones; every field not sent keeps its value; id and legacy category are untouched |
| UniversityUpdate.ApplyIdempotent | backend/server.py:806-809 | applying the same `$set` twice equals applying it once |
| UniversityUpdate.ApplyNothing | backend/server.py:802-804 | an update with no fields would change nothing |
| UniversityUpdate.IndexOf | backend/server.py:806-809 | finds the first record with the id, or reports that none has it |
| UniversityUpdate.UpdateUniversity | backend/server.py:790-815 | the 403 own-university check, then the 403 role check, then 400 "No data", then 404 when no record has the id; otherwise that record is updated and returned |
| UniversityUpdate.UpdateAuthorised | backend/server.py:796-804 | a successful update came from an admin or that university's own manager, and carried a field |
| UniversityUpdate.UpdateTouchesOne | backend/server.py:806-815 | a success keeps the store's length and every other record; reading back by id returns the answered record |
| Accounts.SafeRole | backend/server.py:303 | the stored role is admin or manager only when that was requested, else student |
| Accounts.Register | backend/server.py:286-330 | 403 for a privileged role without an admin token (missing, invalid or non-admin), then 400 for a taken email, else the account is appended |
| Accounts.NoSelfEscalation | backend/server.py:291-303 | without an admin token every registration creates a student |
| Accounts.AdminGrantsRole | backend/server.py:291-303 | an admin token lets a requested admin or manager role through |
| Accounts.RegisterKeepsEmailsUnique | backend/server.py:305-307 | registration keeps email addresses unique |
| OtpReset.GenerateOtp | backend/server.py:251-252 | a code is six decimal digits denoting the draw modulo one million |
| OtpReset.EveryCodePossible | backend/server.py:251-252 | every six-digit string can be generated |
| OtpReset.Digits | backend/server.py:252 | exactly `k` characters, each a decimal digit |
| OtpReset.ValueOfDigits | backend/server.py:251-252 | a number below 10^k, written in `k` digits, reads back as itself |
| OtpReset.DigitsOfValue | backend/server.py:251-252 | a digit string, read as a number and written back in as many digits, is itself |
| OtpReset.FirstFor | backend/server.py:375 | `find_one` by email: the first record for the email (no earlier record has it), or none exactly when no record has it |
| OtpReset.DeleteFor | backend/server.py:391 | `delete_many` by email keeps exactly the other emails' records |
| OtpReset.StoreAfterRequest | backend/server.py:364-365 | after `delete_many` and `insert_one` the email's only record is the new one; other emails' records are kept in order |
| OtpReset.RequestOtp | backend/server.py:351-371 | 404 exactly for an unknown email; otherwise the email's only record is the new code, expiring 600 s later, and other emails' records are unchanged |
| OtpReset.SetPassword | backend/server.py:386-389 | each account keeps its value or, when it has the email, takes the new hash; no match is no change |
| OtpReset.SetPasswordHits | backend/server.py:386-389 | the first account with the email takes the hash and no other account changes |
| OtpReset.VerifyOtp | backend/server.py:373-393 | 404 without a code, then 400 expired, then 400 invalid; otherwise the password is set and the email's codes deleted |
| OtpReset.FoundAfterRequest | backend/server.py:364-375 | the record a request stores is the one verification finds |
| OtpReset.RequestThenVerify | backend/server.py:351-393 | the returned code resets the password up to its expiry and leaves no code behind |
| OtpReset.ExpiredAfterLifetime | backend/server.py:379-380 | after ten minutes any code is refused as expired |
| OtpReset.WrongCodeRefused | backend/server.py:382-383 | before expiry any other code is refused as invalid |
| OtpReset.OneTimeUse | backend/server.py:391 | after a success a second verification finds no code |
| UniversityQuery.GetUniversities | backend/server.py:495-543 | as intended: at most 1000 results, an order-preserving subsequence, each satisfying search AND category AND the other clauses; nothing matching is lost below the cap |
| UniversityQuery.CourseNames | backend/server.py:515 | the `courses.course_name` values, one per course, in order |
| UniversityQuery.CourseCategories | backend/server.py:516 | the `courses.category` values, one per course, in order |
| UniversityQuery.GetUniversitiesAsWritten | backend/server.py:495-543 | as written: at most 1000 results, an order-preserving subsequence, each satisfying the merged `$or` and the other clauses; nothing matching is lost below the cap |
| UniversityQuery.AgreeUnlessBoth | backend/server.py:509-535 | without both a search and a category, the written and intended queries agree |
| UniversityQuery.AsWrittenIsDisjunction | backend/server.py:530-535 | with both given, the written query is search OR category |
| UniversityQuery.SearchOrCategory | backend/server.py:530-535 | a university matching the search but not the category passes the written query and fails the intended one |
| FilterOptions.Insert | backend/server.py:433 | inserting into a strictly sorted list keeps it sorted and adds exactly the new element |
| FilterOptions.SortedSet | backend/server.py:433 | `sorted(set(xs))` is strictly sorted with exactly the elements of `xs` |
| FilterOptions.SortedListingUnique | backend/server.py:446 | two strictly sorted lists with the same elements are equal |
| FilterOptions.LocationValues | backend/server.py:433 | the trimmed non-blank locations |
| FilterOptions.UniversityCategoryValues | backend/server.py:440-445 | a university contributes the trimmed non-blank list entries and legacy value |
| FilterOptions.CategoryValues | backend/server.py:439-445 | the category values of all universities |
| FilterOptions.FilterOptionsOf | backend/server.py:429-447 | both lists strictly sorted; locations exactly the trimmed non-blank locations of the first 1000 universities; categories exactly the stored names plus those values |
| FilterOptions.LocationsTrimmed | backend/server.py:433 | every offered location is non-blank and its own trim |
| FilterOptions.StoredNamesVerbatim | backend/server.py:435-438 | stored category names are offered as stored |
| BulkUpload.GetStr | backend/server.py:716-719 | a missing key reads "", an empty cell reads "None" |
| BulkUpload.Headers | backend/server.py:695 | one header per cell: the lower-cased trim of a truthy cell, else "" |
| BulkUpload.RowMapSpec | backend/server.py:709 | `dict(zip(headers, row))` has exactly the headers that have a cell as keys; a header takes the cell under its last occurrence |
| BulkUpload.GetStrOr | backend/server.py:718 | a missing or falsy cell reads "" (never "None"); a text cell reads as itself |
| BulkUpload.GetFloat | backend/server.py:720-723 | a falsy or missing value reads 0.0; a number is taken as is; non-empty text is converted by `float` |
| BulkUpload.CommaList | backend/server.py:725-726 | every piece is trimmed, non-blank and comma-free |
| BulkUpload.CommaListRoundTrip | backend/server.py:725-726 | names written comma-separated are read back unchanged |
| BulkUpload.CoursesFrom | backend/server.py:727-735 | one default course per name: empty description, duration "N/A", fee 0, category "Uncategorized" |
| BulkUpload.ContactOf | backend/server.py:742-751 | only non-empty email, phone and website values appear, each the trimmed cell value |
| BulkUpload.PutNonEmpty | backend/server.py:746-751 | a non-empty value is stored under its key; an empty one leaves the details unchanged |
| BulkUpload.Contact | backend/server.py:742-751 | keys only among email, phone and website; each present exactly when its value is non-empty, and then holding that value |
| BulkUpload.RequiredText | backend/server.py:717-719 | an empty cell reads "None" as written and "" as intended |
| BulkUpload.ReadTexts | backend/server.py:716-719 | name, state, location and description are the trims of their cells as read |
| BulkUpload.TextCellRead | backend/server.py:717-719 | a text cell reads as itself either way; an empty cell reads "None" as written |
| BulkUpload.BlankReadsEmpty | backend/server.py:717-719 | as intended, an empty cell trims to "" |
| BulkUpload.Finish | backend/server.py:753-770 | a row is created exactly when name, location and description are non-blank, else "Missing required fields"; the record carries the row's texts, numbers, tags, courses and contact |
| BulkUpload.ParseRow | backend/server.py:712-773 | skipped exactly for a blank name; a placement, then rating, that does not convert is that row's error; otherwise the row finishes as above |
| BulkUpload.ParseWith | backend/server.py:712-773 | skipped exactly for a blank name; the row's error names the row; placement is converted before rating; otherwise the row finishes |
| BulkUpload.CreatedRowComplete | backend/server.py:753-755 | a created row has a non-blank name, location and description |
| BulkUpload.RowOutcomes | backend/server.py:708-709 | one outcome per data row, numbered from 2 |
| BulkUpload.CreatedRecords | backend/server.py:757-769 | the created rows' records in row order, each as often as a row created it, and nothing else |
| BulkUpload.Errors | backend/server.py:753-773 | exactly the failed rows' errors |
| BulkUpload.RowAccounting | backend/server.py:708-773 | created + errors + skipped = rows |
| BulkUpload.ErrorRowsAscending | backend/server.py:708 | error row numbers lie within the sheet and strictly ascend |
| BulkUpload.MissingFrom | backend/server.py:697-698 | the required columns the header lacks |
| BulkUpload.ReportOf | backend/server.py:775-781 | the response's names, records, errors and counts |
| BulkUpload.Names | backend/server.py:770 | the created names, one per record, in order |
| BulkUpload.BulkUploadWith | backend/server.py:675-781 | 403 for non-admins; 400 for other file types; 400 "Could not read Excel file…" for an unreadable workbook; missing columns (exactly those absent) when the header lacks one, else a completed upload that reports the rows' outcomes |
| BulkUpload.UploadAccounting | backend/server.py:705-781 | every data row of a completed upload is counted once |
| BulkUpload.EmptyLocationAccepted | backend/server.py:717 | as written, an empty location cell creates a university located at "None" |
| BulkUpload.EmptyLocationTexts | backend/server.py:716-719 | as written, an empty location cell reads "None" beside a non-blank name and description |
| BulkUpload.EmptyLocationRejected | backend/server.py:753-754 | as intended, the same row is a "Missing required fields" error |
| BulkUpload.IntendedRejectsEmptyRequired | backend/server.py:717-719 | as intended, an empty location or description cell never creates a university |
| ListingSearch.MatchesQuery | frontend/src/pages/HomePage.js:106-120 | the live search: name, location, tags, description, then the courses' names, descriptions and categories, each lower-cased and searched for the lower-cased, untrimmed query |
| ListingSearch.AnyTagMatchesIff | frontend/src/pages/HomePage.js:111 | `tags.some(...)` is "some tag contains the query" |
| ListingSearch.AnyCourseMatchesIff | frontend/src/pages/HomePage.js:113-119 | the course clause is "some course name, description or category contains the query" |
| ListingSearch.MatchesQueryIffSomeField | frontend/src/pages/HomePage.js:106-120 | the live search matches exactly when some searched text contains the query, ignoring case |
| ListingSearch.TextStepIsFilter | frontend/src/pages/HomePage.js:105-121 | the text step is a filter, skipped for a blank query |
| ListingSearch.LocationStepIsFilter | frontend/src/pages/HomePage.js:124-128 | the location step is a filter, skipped for "" and "all" |
| ListingSearch.CategoryStepIsFilter | frontend/src/pages/HomePage.js:131-139 | the category step is a filter, skipped for "" and "all" |
| ListingSearch.Filtered | frontend/src/pages/HomePage.js:101-142 | the memo is one filter by the conjunction of the three steps: an order-preserving subsequence holding exactly the passing universities |
| ListingSearch.UntrimmedQueryExample | frontend/src/pages/HomePage.js:105-109 | the guard trims but the match does not: " mba" passes the guard yet misses a university named "MBA" |
| ListingSearch.MbaCollegeMisses | frontend/src/pages/HomePage.js:105-109 | the example university does not match the query " mba" |
| ListingSearch.HasActiveFilters | frontend/src/pages/HomePage.js:144 | a filter other than "", "all" and "0" is set, or the trimmed query is non-blank |
| ListingSearch.ClearAllFilters | frontend/src/pages/HomePage.js:146-149 | after clearing nothing is active |
| ListingSearch.InactiveShowsAll | frontend/src/pages/HomePage.js:144 | with no active filter (and no "0" value) the whole list is shown |
| ListingSearch.MinPositiveFee | frontend/src/pages/HomePage.js:180-182 | the least strictly positive fee, absent exactly when no fee is positive |
| ListingSearch.MinFee | frontend/src/pages/HomePage.js:177-185 | "N/A" exactly when no fee is positive, else the least positive fee |
| ListingSearch.MinFeeExample | frontend/src/pages/HomePage.js:177-185 | fees 0, 150000 and 90000 give the 90000 label |
| ListingSearch.CleanFilters | frontend/src/pages/HomePage.js:154-162 | exactly the truthy filters, plus `search` for a non-empty query, with their values |
| ListingSearch.CleanFiltersRoundTrip | frontend/src/pages/HomePage.js:154-162 | the parameters sent read back as the filters and query they came from |
| DetailPage.GroupKey | frontend/src/pages/UniversityDetailPage.js:221 | a course's group is its category, or "General" when empty |
| DetailPage.Grouped | frontend/src/pages/UniversityDetailPage.js:220-225 | the accumulator's keys are exactly its insertion order, without repeats |
| DetailPage.Keys | frontend/src/pages/UniversityDetailPage.js:219-225 | the distinct group keys in order of first appearance |
| DetailPage.Entries | frontend/src/pages/UniversityDetailPage.js:219 | one (category, courses) pair per key, in key order |
| DetailPage.GroupedSpec | frontend/src/pages/UniversityDetailPage.js:219-225 | the reduction equals its reference: keys in first-appearance order, each group the courses with that key in original order |
| DetailPage.ExactlyOneGroup | frontend/src/pages/UniversityDetailPage.js:220-225 | every course appears under its own key and no other |
| DetailPage.GroupKeepsOrder | frontend/src/pages/UniversityDetailPage.js:220-225 | each group is a subsequence of the course list |
| DetailPage.GroupSizesSum | frontend/src/pages/UniversityDetailPage.js:220-225 | the group sizes add up to the number of courses |
| DetailPage.CourseFeeLabel | frontend/src/pages/UniversityDetailPage.js:254 | a lakh amount exactly for a positive fee, else "N/A" |
| DetailPage.DurationLabel | frontend/src/pages/UniversityDetailPage.js:248 | the duration, or "N/A" when empty |
| DetailPage.PopularCourses | frontend/src/pages/UniversityDetailPage.js:173 | the first two courses, or all of them when fewer |
| DetailPage.GalleryHighlights | frontend/src/pages/UniversityDetailPage.js:192 | the first three photos, or all of them when fewer |
| DetailsEditor.AddCourse | frontend/src/components/UniversityDetailsEditor.js:126-128 | exactly one blank row appended |
| Lists.RemoveAt | frontend/src/components/UniversityDetailsEditor.js:130-132 | `removeCourse` (and `removeTag` at line 334 and `removePhoto` at lines 261-263, which use the same rule): only entry `i` goes, the others keep their order; an index outside the list changes nothing |
| DetailsEditor.UpdateCourse | frontend/src/components/UniversityDetailsEditor.js:134-138 | row `i` changes in the named field only; other rows untouched |
| DetailsEditor.AddTag | frontend/src/components/UniversityDetailsEditor.js:326-332 | a blank input changes nothing; a known tag only clears the box; a new tag is appended trimmed and the box cleared |
| DetailsEditor.AddTagKeepsDistinct | frontend/src/components/UniversityDetailsEditor.js:326-332 | tags stay duplicate-free and never blank |
| DetailsEditor.UpdateContact | frontend/src/components/UniversityDetailsEditor.js:374 | one key set, every other kept |
| DetailsEditor.AddPhotos | frontend/src/components/UniversityDetailsEditor.js:253-255 | the gallery is extended by the uploaded URLs, in order |
| DetailsEditor.PickerStep | frontend/src/components/UniversityDetailsEditor.js:50-113 | trigger toggles, outside press closes; "Select a category..." reports "", a name reports itself, both close |
| DetailsEditor.StoredCategories | frontend/src/components/UniversityDetailsEditor.js:436-440 | the trimmed non-blank course categories |
| DetailsEditor.DraftCategories | frontend/src/components/UniversityDetailsEditor.js:448 | exactly the non-empty trimmed categories of the rows |
| DetailsEditor.MapClean | frontend/src/components/UniversityDetailsEditor.js:447-458 | one cleaned course per row, in order |
| DetailsEditor.CleanCourses | frontend/src/components/UniversityDetailsEditor.js:445-459 | never more courses than rows; CleanCoursesSpec states which |
| DetailsEditor.CleanCoursesMatch | frontend/src/components/UniversityDetailsEditor.js:445-459 | the cleaned courses are the kept rows, each cleaned |
| DetailsEditor.Survivors | frontend/src/components/UniversityDetailsEditor.js:432-444 | the set's entries minus the old course categories, duplicate-free, in the order of first insertion |
| Lists.Dedup | frontend/src/components/UniversityDetailsEditor.js:432-433 | `new Set(s)`: each element once, nothing else, as a subsequence in the order of first occurrence |
| Lists.AddAll | frontend/src/components/UniversityDetailsEditor.js:447-451 | repeated `set.add`: the set, then the added elements it lacked, deduplicated in order of first occurrence |
| DetailsEditor.MergeCategories | frontend/src/components/UniversityDetailsEditor.js:432-451 | duplicate-free; the survivors first, then the current course categories not among them in order of first appearance |
| DetailsEditor.CleanCoursesSpec | frontend/src/components/UniversityDetailsEditor.js:445-460 | stored courses are the non-blank rows, cleaned, in order; their number is the count of non-blank rows |
| DetailsEditor.CategoriesOfClean | frontend/src/components/UniversityDetailsEditor.js:448 | the stored courses' categories are exactly the rows' trimmed non-blank categories, in order |
| DetailsEditor.PayloadTagsSpec | frontend/src/components/UniversityDetailsEditor.js:431-469 | tags and categories: old course categories dropped unless re-added, every kept row's category present, unrelated entries kept; the surviving entries first in their order, then the new categories in the order the kept rows first name them |
| DetailsEditor.BuildPayload | frontend/src/components/UniversityDetailsEditor.js:462-468 | gallery and contact details travel unchanged; PayloadTagsSpec and PayloadCoursesSpec state the rest |
| DetailsEditor.PayloadCoursesSpec | frontend/src/components/UniversityDetailsEditor.js:445-460 | the payload's courses are the non-blank rows, trimmed, in order |
| DetailsEditor.ZeroFeeRowDropped | frontend/src/components/UniversityDetailsEditor.js:446 | a whitespace-only row with the number 0 as fee is dropped |
| DetailsEditor.TypedZeroKept | frontend/src/components/UniversityDetailsEditor.js:446 | the typed text "0" keeps its row |
| DetailsEditor.RecategorisedCourse | frontend/src/components/UniversityDetailsEditor.js:431-469 | re-categorising the only course replaces the old category by the new one in the tags, after the unrelated tag |
| Popover.OpenAfter | frontend/src/components/CategoryMultiSelect.js:24-51 | an outside press closes, an inside press keeps, the trigger toggles |
| Popover.TriggerTwice | frontend/src/components/CategoryMultiSelect.js:51 | two trigger clicks restore the state |
| MultiSelect.Toggle | frontend/src/components/CategoryMultiSelect.js:34-40 | a picked option is removed (all occurrences, rest kept in order); another is appended |
| MultiSelect.ToggleTwice | frontend/src/components/CategoryMultiSelect.js:34-40 | toggling an unpicked option twice restores the selection |
| MultiSelect.ToggleKeepsDistinct | frontend/src/components/CategoryMultiSelect.js:34-40 | a duplicate-free selection stays duplicate-free |
| MultiSelect.Step | frontend/src/components/CategoryMultiSelect.js:24-164 | presses move only the open flag; option, chip, "Select all" and "Clear all" change only the selection |
| MultiSelect.RemoveChipIsToggle | frontend/src/components/CategoryMultiSelect.js:42-45 | removing a chip equals toggling its picked option |
| MultiSelect.SelectAllDiscards | frontend/src/components/CategoryMultiSelect.js:149 | after "Select all" exactly the options are picked |
| HomepageEditor.LoadedConfig | frontend/src/components/HomepageEditor.js:233-242 | a failed fetch keeps the current configuration; an empty reply gives the defaults; a complete reply is taken as is; the image list comes from the reply when sent |
| HomepageEditor.ReloadOutcome | frontend/src/components/HomepageEditor.js:233-242 | a failed reload changes nothing; a successful one shows the sent images, or the default images when none are sent; the preview index and URL box are kept |
| HomepageEditor.UpdateImage | frontend/src/components/HomepageEditor.js:256-260 | entry `i` replaced, nothing else moves |
| HomepageEditor.RemoveImage | frontend/src/components/HomepageEditor.js:262-266 | entry `i` removed; the preview index clamped to the new last index |
| HomepageEditor.MoveImage | frontend/src/components/HomepageEditor.js:268-274 | a swap with the neighbour when it exists, else no change; always a permutation |
| HomepageEditor.MoveBack | frontend/src/components/HomepageEditor.js:268-274 | moving and moving back restores the list |
| HomepageEditor.AddUrl | frontend/src/components/HomepageEditor.js:276-281 | a non-blank input is appended trimmed and the box cleared; otherwise nothing changes |
| HomepageEditor.Tick | frontend/src/components/HomepageEditor.js:225-231 | the next slide, wrapping to the first |
| HomepageEditor.TicksCycle | frontend/src/components/HomepageEditor.js:225-231 | from a valid slide, any number `k` of ticks advances the slide by `k` modulo the number of images, over any number of rounds |
| HomepageEditor.TickN | frontend/src/components/HomepageEditor.js:225-231 | ticks keep the images and the URL box; after one tick or more the preview is in range |
| HomepageEditor.CurrentPreview | frontend/src/components/HomepageEditor.js:292 | the current image, else the first; none exactly for an empty list |
| HomepageEditor.ApplyKeepsPreviewInRange | frontend/src/components/HomepageEditor.js:225-342 | every edit but a successful load keeps the preview index in range, and every edit keeps it at least -1; a dot click shows that slide; only removal, replacement and a successful load lose images |
| HomepageEditor.Apply | frontend/src/components/HomepageEditor.js:225-342 | only typing and adding touch the URL box; only a dot click, a tick and a removal move the preview; typing, dot clicks and ticks keep the images; a move permutes them; adding appends the trimmed URL or changes nothing |
| HomepageEditor.LoadLeavesPreviewPast | frontend/src/components/HomepageEditor.js:214-242 | a load during the rotation over the four default images can leave the index past a shorter list; the preview then shows the first image |
| HomepageEditor.PreviewShowsImage | frontend/src/components/HomepageEditor.js:292 | with images, the preview always shows one |
| HomepageEditor.SlideIntervalMs | frontend/src/components/HomepageEditor.js:424 | never below 2000 ms; the typed seconds times 1000 exactly from 2 s up |
| HomepageEditor.SlideIntervalRoundTrip | frontend/src/components/HomepageEditor.js:423-424 | re-entering the displayed seconds stores the same interval |
| AdminDashboard.SubmitRequest | frontend/src/pages/AdminDashboard.js:606-632 | an update of the edited university, or a creation with empty gallery, courses, tags and contact; the rating always present |
| AdminDashboard.AskDelete | frontend/src/pages/AdminDashboard.js:653-655 | the confirmation opens for that row |
| AdminDashboard.ConfirmDelete | frontend/src/pages/AdminDashboard.js:657-667 | closes and deletes the captured id |
| AdminDashboard.CancelDelete | frontend/src/pages/AdminDashboard.js:693 | closes without deleting |
| AdminDashboard.ConfirmDeletesLastAsked | frontend/src/pages/AdminDashboard.js:653-667 | confirming deletes the row last asked for |
| AdminDashboard.AskAll | frontend/src/pages/AdminDashboard.js:653-655 | asking about several rows leaves the dialog open on the last one |
| AdminDashboard.CancelDeletesNothing | frontend/src/pages/AdminDashboard.js:693 | after cancelling, a confirm deletes nothing |
| AdminDashboard.ToggleDetails | frontend/src/pages/AdminDashboard.js:968 | expands the row exactly when it was not the expanded one, else collapses |
| AdminDashboard.ToggleDetailsTwice | frontend/src/pages/AdminDashboard.js:968 | toggling a row twice restores the state |
| AdminDashboard.ResetForm | frontend/src/pages/AdminDashboard.js:600-604 | blank, hidden, editing nothing |
| AdminDashboard.HandleEdit | frontend/src/pages/AdminDashboard.js:635-650 | the row's form, shown, editing that row |
| AdminDashboard.ResetForgetsEdit | frontend/src/pages/AdminDashboard.js:600-650 | a reset after an edit leaves no trace of it |
| AdminDashboard.SaveTargets | frontend/src/pages/AdminDashboard.js:600-632 | a save after a reset creates; a save right after "Edit" updates that row with its loaded values |
| AdminDashboard.AfterSave | frontend/src/pages/AdminDashboard.js:628-632 | success resets the form; failure keeps everything |
| AdminDashboard.Managers | frontend/src/pages/AdminDashboard.js:1168 | exactly the managers, in the order received |
| AdminDashboard.EditManagerForm | frontend/src/pages/AdminDashboard.js:1206-1209 | the manager's fields with an empty password |
| AdminDashboard.UserSubmit | frontend/src/pages/AdminDashboard.js:1185-1196 | an update carries the password exactly when one was typed; a creation sends the form |
| AdminDashboard.UnchangedManagerSave | frontend/src/pages/AdminDashboard.js:1185-1209 | saving an untouched manager form never sends a password |
| ManagerDashboard.View | frontend/src/pages/ManagerDashboard.js:215-232 | spinner exactly while loading; "No university assigned" exactly when loaded without one |
| ManagerDashboard.MountAsWritten | frontend/src/pages/ManagerDashboard.js:134-143 | as written, only an assigned manager starts a fetch; nothing else changes |
| ManagerDashboard.Mount | frontend/src/pages/ManagerDashboard.js:134-143 | as intended, an unassigned manager stops loading at once |
| ManagerDashboard.OnReply | frontend/src/pages/ManagerDashboard.js:145-166 | a reply ends loading; success loads the university and its form; failure keeps them |
| ManagerDashboard.Cancel | frontend/src/pages/ManagerDashboard.js:417-431 | the form is rebuilt from the loaded university and edit mode ends |
| ManagerDashboard.Step | frontend/src/pages/ManagerDashboard.js:134-431 | only the reply to the fetch changes `loading`, the fetch flag or the loaded university |
| ManagerDashboard.Run | frontend/src/pages/ManagerDashboard.js:134-431 | the page after a run of events, applied first to last |
| ManagerDashboard.SpinnerForever | frontend/src/pages/ManagerDashboard.js:134-143 | as written, an unassigned manager sees the spinner after any events |
| ManagerDashboard.SpinnerStays | frontend/src/pages/ManagerDashboard.js:134-166 | loading with no fetch in flight stays so after any events |
| ManagerDashboard.NoUniversityStays | frontend/src/pages/ManagerDashboard.js:223-232 | loaded with no university and no fetch in flight stays so after any events |
| ManagerDashboard.NoAssignmentShown | frontend/src/pages/ManagerDashboard.js:223-232 | as intended, the same manager sees "No university assigned" after any events |
| ManagerDashboard.ReplyDecidesScreen | frontend/src/pages/ManagerDashboard.js:145-166 | with an assignment the reply decides: dashboard or "No university assigned" |
| ManagerDashboard.CancelRestores | frontend/src/pages/ManagerDashboard.js:417-431 | whatever was typed, "Cancel" restores the loaded university's form |
| ManagerDashboard.ChipsVersusForm | frontend/src/pages/ManagerDashboard.js:448-453 | chips and restored form differ exactly for an empty list beside a legacy value |
| ManagerDashboard.SaveRequest | frontend/src/pages/ManagerDashboard.js:177-184 | the own university's id; both numbers parsed without fallback |
| ManagerDashboard.PendingCount | frontend/src/pages/ManagerDashboard.js:540 | the number of pending applications |
| ManagerDashboard.PendingCountAppend | frontend/src/pages/ManagerDashboard.js:540 | one more application raises the counter exactly when it is pending |
| AuthSession.Start | frontend/src/context/AuthContext.js:10-11 | the token is read from storage; loading, no user |
| AuthSession.Logout | frontend/src/context/AuthContext.js:51-55 | storage and memory forget token and user |
| AuthSession.OnToken | frontend/src/context/AuthContext.js:13-30 | a decodable token sets the user, an undecodable one logs out, no token changes nothing; loading always ends |
| AuthSession.Login | frontend/src/context/AuthContext.js:32-49 | success stores token and user; failure changes nothing and reports the detail or "Login failed" |
| AuthSession.TransitionsKeepConsistent | frontend/src/context/AuthContext.js:10-55 | storage and memory hold the same token, and a user only beside a token, after every transition |
| AuthSession.CorruptTokenClearedAtStart | frontend/src/context/AuthContext.js:24-27 | an undecodable stored token is cleared at start-up |
| AuthSession.ValidTokenRestored | frontend/src/context/AuthContext.js:13-23 | a decodable stored token restores its user |
| AuthSession.LoginThenReload | frontend/src/context/AuthContext.js:32-49 | after login the effect keeps the user, and a reload restores it |
| AuthSession.LogoutSignsOut | frontend/src/context/AuthContext.js:51-55 | after logout no user and no token remain, also after a reload |
| Routing.Guard | frontend/src/App.js:18-38 | spinner exactly while loading; login without a user; home for a disallowed role; the page exactly otherwise |
| Routing.Visit | frontend/src/App.js:18-66 | public routes always render; the consoles show a spinner exactly while loading and the login page exactly without a user; a redirect goes to "/" or "/login"; a console renders only for its own role |
| Routing.UnderAdmin | frontend/src/App.js:51-52 | the route `/admin/*`: `/admin` itself or any path below it, ignoring case |
| Routing.UnderManager | frontend/src/App.js:59-60 | the route `/manager/*`: `/manager` itself or any path below it, ignoring case |
| Routing.ConsoleMatchIgnoresCase | frontend/src/App.js:51-60 | a path and its lower case fall under the same console |
| Routing.SubtreesApart | frontend/src/App.js:51-60 | no path falls under both consoles |
| Routing.ConsolesByRole | frontend/src/App.js:51-65 | anywhere under /admin, in any case, only administrators see the page, and under /manager only managers; any other signed-in user is sent home |
| Routing.StudentOffUsersPage | frontend/src/App.js:51-58 | a student opening the users page of the administrator console, in any spelling of its case, is sent home |
| Routing.LandingFor | frontend/src/pages/LoginPage.js:42-48 | admin to /admin, manager to /manager, anyone else to / |
| Routing.LandingIsAllowed | frontend/src/pages/LoginPage.js:21-31 | every user lands on a page the guard lets them see |
| Routing.SubmitStarted | frontend/src/pages/LoginPage.js:35 | the button becomes busy |
| Routing.SubmitEnded | frontend/src/pages/LoginPage.js:37-52 | success navigates to the landing route, failure shows the message; loading ends |
| Routing.AlreadySignedIn | frontend/src/pages/LoginPage.js:21-31 | a signed-in user is redirected to their landing route |
| Routing.SameLandingBothWays | frontend/src/pages/LoginPage.js:21-52 | logging in and opening the page signed in lead to the same place |
| Routing.DashboardLink | frontend/src/pages/HomePage.js:210-216 | the admin console for admins, the manager console for anyone else |
| Routing.DashboardLinkOutcome | frontend/src/pages/HomePage.js:210-216 | the link works for admins and managers; other users are sent home by the guard |
| Branding.Initial | frontend/src/context/BrandingContext.js:12-18 | the cached brand when readable, else the defaults |
| Branding.BrandOf | frontend/src/context/BrandingContext.js:24-27 | a non-empty site name; the configured one when non-empty, else "Edu Dham"; the logo or "" |
| Branding.Refresh | frontend/src/context/BrandingContext.js:20-33 | a configuration replaces brand and cache; a failure or empty answer keeps both |
| Branding.ReloadShowsRefreshed | frontend/src/context/BrandingContext.js:12-29 | the next visit starts with what the last refresh fetched |
| Branding.RefreshIdempotent | frontend/src/context/BrandingContext.js:20-33 | refreshing twice with the same answer changes nothing more |
| Branding.FirstVisitOffline | frontend/src/context/BrandingContext.js:17-32 | a failed refresh on a first visit shows the defaults |
| ResetPassword.OnRequestReply | frontend/src/pages/ResetPasswordPage.js:20-34 | success moves to the code form with the master address; failure shows the detail or "Failed to send OTP"; loading ends |
| ResetPassword.OnVerifyReply | frontend/src/pages/ResetPasswordPage.js:36-49 | success heads to the login page; failure shows the detail or "Failed to reset password"; loading ends |
| ResetPassword.StagesInOrder | frontend/src/pages/ResetPasswordPage.js:13-49 | from the first form with no verification in flight, the code form is reached only after a code was sent, and the login page only after a code was sent and accepted |
| ResetPassword.StagesInOrderFromStart | frontend/src/pages/ResetPasswordPage.js:13-49 | from the initial page, the code form needs a sent code and the login page a sent and accepted one |
| ResetPassword.Step | frontend/src/pages/ResetPasswordPage.js:13-143 | requests are only ever added, one at a time, by a submit that starts loading; only replies and "Change Email" move between forms; "Change Email" keeps the address |
| ResetPassword.Run | frontend/src/pages/ResetPasswordPage.js:13-143 | the page after a run of events, applied first to last |
| ResetPassword.AfterSentAccepted | frontend/src/pages/ResetPasswordPage.js:36-49 | the move to the login page needs an accepted code |
| ResetPassword.RepliesEndLoading | frontend/src/pages/ResetPasswordPage.js:31-47 | both replies leave the page idle |
| ResetPassword.VerifyReplyAnyStage | frontend/src/pages/ResetPasswordPage.js:36-49 | a reply to a verification in flight is handled whatever form is shown: loading ends, the form stays, and success heads to the login page |
| ResetPassword.ChangeEmailKeepsAddress | frontend/src/pages/ResetPasswordPage.js:137-143 | "Change Email" returns to the first form with the address, code and new password kept, and sends nothing |
| ResetPassword.ClipOtp | frontend/src/pages/ResetPasswordPage.js:108-117 | the code field holds at most six characters: a prefix of what was typed, all of it when it fits |
| ResetPassword.OnSubmitRequest | frontend/src/pages/ResetPasswordPage.js:20-25 | with a filled-in address and nothing in flight, `requestOTP(email)` is sent and loading starts; otherwise nothing happens |
| ResetPassword.OnSubmitCode | frontend/src/pages/ResetPasswordPage.js:36-41 | with code and password filled in and nothing in flight, `verifyOTP(email, otp, newPassword)` is sent with the values as they stand; otherwise nothing happens |
| ResetPassword.VerifySendsTyped | frontend/src/pages/ResetPasswordPage.js:36-41 | typing a code and a password and submitting sends the address with what was typed |
| ResetPassword.RequestsComplete | frontend/src/pages/ResetPasswordPage.js:80-131 | no request leaves with a blank required field or a code over six characters |
| ApplyModal.HandleChange | frontend/src/components/ApplyModal.js:46-48 | the named field takes the value, the others keep theirs |
| ApplyModal.FormByFields | frontend/src/components/ApplyModal.js:11-17 | a form is determined by its five fields |
| ApplyModal.FilledByFields | frontend/src/components/ApplyModal.js:62-123 | the form passes the browser's check exactly when each of the five `required` fields is non-empty |
| ApplyModal.LastWriteWins | frontend/src/components/ApplyModal.js:46-48 | two writes to a field keep the last |
| ApplyModal.ChangesCommute | frontend/src/components/ApplyModal.js:46-48 | writes to different fields commute |
| ApplyModal.Submit | frontend/src/components/ApplyModal.js:20-29 | a request leaves exactly when the dialog has a university, all five required fields are filled in and none is in flight, carrying the form with the university's id and name, and loading starts; otherwise nothing changes |
| ApplyModal.Finished | frontend/src/components/ApplyModal.js:31-43 | success clears and closes; failure keeps the form and shows the detail or fallback; loading ends |
| ApplyModal.RetryResendsSameRequest | frontend/src/components/ApplyModal.js:20-43 | a retry after a failure sends the same request |
| ApplyModal.SuccessStartsOver | frontend/src/components/ApplyModal.js:31-38 | after a success every field is blank, so an immediate submit sends nothing |
| ApplyModal.Step | frontend/src/components/ApplyModal.js:20-130 | only a submit from an idle dialog with a university sends a request, always with every field filled in, and loading starts; without a university nothing changes |
| ApplyModal.Run | frontend/src/components/ApplyModal.js:20-130 | the dialog after a run of events, with the requests sent in order |
| ApplyModal.RequestsFilledOneAtATime | frontend/src/components/ApplyModal.js:20-130 | no request leaves with a blank field, without a university or for another university, and requests go one at a time: never more than the replies plus one from an idle start |
| ApplyModal.NoUniversityNoRequest | frontend/src/components/ApplyModal.js:50 | with no university the dialog renders nothing: after any run of events it is unchanged and has sent no request |

## Left out

- Network, database and storage I/O: each call's outcome is a parameter. A `localStorage` write that fails is not modelled, nor is the JSON encoding of the cached brand.
- Workbook decoding, Python `str(float)` and `float(str)`, and JavaScript `parseFloat`: these are the `show` and `parse` parameters. The text of a conversion exception is reduced to the name of the field that failed.
- Password hashing, JWT signing and decoding, and the login endpoint's credential check: hashes and decoded tokens arrive as values.
- Timers: the 1.5 s delay before the move to the login page, and the periods of the rotation timers. The rotation itself is modelled as ticks.
- Randomness: the code generator's draw is a parameter.
- Lower-casing and whitespace are ASCII only. There is no Unicode case folding, and no Unicode whitespace in `trim`/`strip`. The separators U+001C to U+001F, which Python's `str.strip` also removes, are not treated as whitespace.
- MongoDB `$regex`: modelled as a case-insensitive substring test. Regular-expression metacharacters in a parameter are not modelled.
- UniversityQuery.GetUniversities: leaves out the `min_fee`/`max_fee` average over `fee_structure` (server.py:545-558), because universities in this model carry no fee structure.
- `university_categories` stored as `null`: the server's `u.get('university_categories', [])` would fail on it. The model reads a missing list as empty.
- Key order in `Object.entries`: integer-like category names would be listed first by JavaScript. The model keeps insertion order for every key.
- The browser's `type="email"` check on the reset page's address field and on the apply dialog's email field: a submission is held back only for a blank required field.
- Toasts, scrolling, rendering and styling. Only the state that decides what is shown is modelled. An error toast is the `error`/`toast` field.
- HomepageEditor.SlideIntervalMs: leaves out a NaN input, where `Math.max(2000, NaN)` stores NaN, because numbers here are reals.
- The admin console's categories tab, applications tab, Excel export, the university create endpoint's validation, photo upload checks, and the category CRUD endpoints: they hold no logic beyond the calls.
- The applications fetch in the manager console (ManagerDashboard.js:168-175): only the pending counter over a received list is modelled.
- `ConfirmDialog.js` and `api.js`: they hold no decisions of their own. Their effects appear as the dialog state and the reply parameters.
- HomepageEditor `handleSave` and the homepage-config endpoints: a plain save of the configuration, with no logic to model.

## Findings

| source | as written | input that shows it | evidently intended | confidence | as-written member | corrected member |
|---|---|---|---|---|---|---|
| backend/server.py:717-719 | `str(row_data.get('location', '')).strip()` turns an empty cell (`None`) into the text "None" | a row with name "A", an empty location cell, description "B", placement 80 | the row is rejected as "Missing required fields", as for an absent column | high, not executed | BulkUpload.EmptyLocationAccepted | BulkUpload.EmptyLocationRejected |
| backend/server.py:530-535 | the category alternatives are appended to the search `$or`, so search and category combine by OR | search "tech", category "Medical", a university "Tech Institute" listed under "Engineering" | each given filter narrows the result (AND) | medium, not executed | UniversityQuery.SearchOrCategory | UniversityQuery.GetUniversities |
| frontend/src/pages/ManagerDashboard.js:134-143 | `loading` is cleared only in `fetchUniversity`, which runs only when the manager has a `university_id` | a manager account created without a university | the "No university assigned" screen, which the page already has | high, not executed | ManagerDashboard.SpinnerForever | ManagerDashboard.NoAssignmentShown |

=== FILE: accounts.dfy ===
/** User accounts on the server and self-registration: who may create an
    administrator or manager account, and the role every other registration
    is stored with. Password hashing, identifiers and tokens are produced
    outside the model and arrive as parameters. */
module Accounts {
  import opened Outcomes

  /** A stored user. */
  datatype UserAccount = UserAccount(
    id: string,
    email: string,
    passwordHash: string,
    name: string,
    role: string,
    universityId: Option<string>)

  /** The bearer credentials sent with a registration: none, a token that does
      not decode (bad signature or expired), or a decoded token whose payload
      may or may not carry a `role`. */
  datatype Credentials = NoCredentials | InvalidToken | Token(role: Option<string>)

  /** The registration request; `role` defaults to "student" but may be sent
      as `null`. */
  datatype NewUser = NewUser(
    email: string,
    password: string,
    name: string,
    role: Option<string>,
    universityId: Option<string>)

  /** The roles only an administrator may hand out. */
  predicate Privileged(role: Option<string>) {
    role == Some("admin") || role == Some("manager")
  }

  predicate IsAdminToken(c: Credentials) {
    c.Token? && c.role == Some("admin")
  }

  /** The role a registration is stored with. */
  function SafeRole(role: Option<string>): (r: string)
    ensures r == "admin" || r == "manager" || r == "student"
    ensures Privileged(role) <==> r != "student"
    ensures Privileged(role) ==> Some(r) == role
  {
    if Privileged(role) then role.value else "student"
  }

  predicate HasEmail(users: seq<UserAccount>, email: string) {
    exists i :: 0 <= i < |users| && users[i].email == email
  }

  /** No two accounts share an email address. */
  predicate EmailsUnique(users: seq<UserAccount>) {
    forall i, j :: 0 <= i < j < |users| ==> users[i].email != users[j].email
  }

  const OnlyAdmins := HttpError(403, "Only admins can create admin or manager accounts")
  const EmailTaken := HttpError(400, "Email already registered")

  /** `register`: the role check comes first, then the email check, then the
      new account is appended. `id` and `passwordHash` are the fresh
      identifier and the hash of the password. */
  function Register(creds: Credentials, req: NewUser, users: seq<UserAccount>,
                    id: string, passwordHash: string): (r: Result<(seq<UserAccount>, UserAccount)>)
    ensures Privileged(req.role) && !IsAdminToken(creds) ==> r == Err(OnlyAdmins)
    ensures (!Privileged(req.role) || IsAdminToken(creds)) && HasEmail(users, req.email) ==> r == Err(EmailTaken)
    ensures r.Ok? <==> (!Privileged(req.role) || IsAdminToken(creds)) && !HasEmail(users, req.email)
    ensures r.Ok? ==> r.value.0 == users + [r.value.1]
    ensures r.Ok? ==> r.value.1 == UserAccount(id, req.email, passwordHash, req.name, SafeRole(req.role), req.universityId)
  {
    if Privileged(req.role) && !IsAdminToken(creds) then Err(OnlyAdmins)
    else if HasEmail(users, req.email) then Err(EmailTaken)
    else
      var account := UserAccount(id, req.email, passwordHash, req.name, SafeRole(req.role), req.universityId);
      Ok((users + [account], account))
  }

  /** Without an administrator's token a registration can only ever create a
      student, whatever role it asks for. */
  lemma NoSelfEscalation(creds: Credentials, req: NewUser, users: seq<UserAccount>, id: string, passwordHash: string)
    requires !IsAdminToken(creds)
    requires Register(creds, req, users, id, passwordHash).Ok?
    ensures Register(creds, req, users, id, passwordHash).value.1.role == "student"
  {
  }

  /** An administrator's token lets the requested privileged role through
      unchanged. */
  lemma AdminGrantsRole(req: NewUser, users: seq<UserAccount>, id: string, passwordHash: string, tokenRole: Option<string>)
    requires tokenRole == Some("admin") && Privileged(req.role) && !HasEmail(users, req.email)
    ensures Register(Token(tokenRole), req, users, id, passwordHash).Ok?
    ensures Some(Register(Token(tokenRole), req, users, id, passwordHash).value.1.role) == req.role
  {
  }

  /** Registration keeps email addresses unique. */
  lemma RegisterKeepsEmailsUnique(creds: Credentials, req: NewUser, users: seq<UserAccount>, id: string, passwordHash: string)
    requires EmailsUnique(users)
    requires Register(creds, req, users, id, passwordHash).Ok?
    ensures EmailsUnique(Register(creds, req, users, id, passwordHash).value.0)
  {
    var after := Register(creds, req, users, id, passwordHash).value.0;
    forall i, j | 0 <= i < j < |after| ensures after[i].email != after[j].email {
      if j == |users| {
        assert after[i] == users[i];
        assert after[j].email == req.email;
      } else {
        assert after[i] == users[i] && after[j] == users[j];
      }
    }
  }
}

=== FILE: admin_dashboard.dfy ===
/** The administrator console: the universities tab (edit form, save request,
    delete confirmation, expanded details row) and the users tab (the
    manager list and the manager save request). */
module AdminDashboard {
  import opened Outcomes
  import opened Lists
  import opened Entities
  import opened FormPayload

  /** The request a university save sends. */
  datatype UniversityRequest =
    | UpdateRequest(id: string, payload: SavePayload)
    | CreateRequest(payload: SavePayload, gallery: seq<string>, courses: seq<Course>,
                    tags: seq<string>, contact: map<string, string>)

  /** `handleSubmit`: an update of the university being edited, or a creation
      with empty gallery, courses, tags and contact. */
  function SubmitRequest(editing: Option<University>, form: UniversityForm,
                         parse: string -> Option<real>): (r: UniversityRequest)
    ensures r.payload == PayloadOf(form, ZeroFallback, parse)
    ensures r.payload.rating.Some?
    ensures r.UpdateRequest? <==> editing.Some?
    ensures r.UpdateRequest? ==> r.id == editing.value.id
    ensures r.CreateRequest? ==> r.gallery == [] && r.courses == [] && r.tags == [] && r.contact == map[]
  {
    var payload := PayloadOf(form, ZeroFallback, parse);
    match editing
    case Some(u) => UpdateRequest(u.id, payload)
    case None => CreateRequest(payload, [], [], [], map[])
  }

  /** The delete confirmation: whether it is shown, and the captured id. */
  datatype Confirm = Confirm(open: bool, id: Option<string>)

  const Closed := Confirm(false, None)

  /** "Delete" on a row opens the confirmation for that row. */
  function AskDelete(c: Confirm, id: string): (r: Confirm)
    ensures r.open && r.id == Some(id)
  {
    Confirm(true, Some(id))
  }

  /** "Confirm": closes the dialog and deletes the captured id. */
  function ConfirmDelete(c: Confirm): (r: (Confirm, Option<string>))
    ensures r.0 == Closed && r.1 == c.id
  {
    (Closed, c.id)
  }

  /** "Cancel": closes the dialog; nothing is deleted. */
  function CancelDelete(c: Confirm): (r: Confirm)
    ensures r == Closed
  {
    Closed
  }

  /** Confirming deletes exactly the row last asked for, however many rows
      were asked for before it. */
  lemma ConfirmDeletesLastAsked(c: Confirm, ids: seq<string>)
    requires ids != []
    ensures ConfirmDelete(AskAll(c, ids)) == (Closed, Some(ids[|ids| - 1]))
  {
  }

  function AskAll(c: Confirm, ids: seq<string>): (r: Confirm)
    ensures ids == [] ==> r == c
    ensures ids != [] ==> r == Confirm(true, Some(ids[|ids| - 1]))
  {
    if ids == [] then c else AskDelete(AskAll(c, ids[..|ids| - 1]), ids[|ids| - 1])
  }

  /** Cancelling leaves nothing to delete: a confirm after it deletes nothing. */
  lemma CancelDeletesNothing(c: Confirm, id: string)
    ensures ConfirmDelete(CancelDelete(AskDelete(c, id))).1 == None
  {
  }

  /** "Details" on a row: collapse it when it is the expanded one, else expand
      it (and only it). */
  function ToggleDetails(expanded: Option<string>, id: string): (r: Option<string>)
    ensures r == Some(id) <==> expanded != Some(id)
    ensures r != Some(id) ==> r == None
  {
    if expanded == Some(id) then None else Some(id)
  }

  /** Toggling the same row twice restores a collapsed table, or the row's
      expanded state. */
  lemma ToggleDetailsTwice(expanded: Option<string>, id: string)
    requires expanded == None || expanded == Some(id)
    ensures ToggleDetails(ToggleDetails(expanded, id), id) == expanded
  {
  }

  /** The universities tab. */
  datatype UniversitiesTab = UniversitiesTab(
    form: UniversityForm,
    showForm: bool,
    editing: Option<University>,
    confirm: Confirm,
    expanded: Option<string>)

  /** `resetForm`: the blank form, hidden, editing nothing. */
  function ResetForm(t: UniversitiesTab): (r: UniversitiesTab)
    ensures r.form == EmptyForm && !r.showForm && r.editing.None?
    ensures r.confirm == t.confirm && r.expanded == t.expanded
  {
    t.(form := EmptyForm, showForm := false, editing := None)
  }

  /** `handleEdit`: the form loaded from the row, shown, editing that row. */
  function HandleEdit(t: UniversitiesTab, u: University): (r: UniversitiesTab)
    ensures r.form == FormOf(u) && r.showForm && r.editing == Some(u)
    ensures r.confirm == t.confirm && r.expanded == t.expanded
  {
    t.(form := FormOf(u), showForm := true, editing := Some(u))
  }

  /** Resetting after an edit leaves no trace of the edit. */
  lemma ResetForgetsEdit(t: UniversitiesTab, u: University)
    ensures ResetForm(HandleEdit(t, u)) == ResetForm(t)
  {
  }

  /** A save after a reset is a creation; a save right after "Edit" updates
      that row with the values it was loaded with. */
  lemma SaveTargets(t: UniversitiesTab, u: University, parse: string -> Option<real>)
    ensures SubmitRequest(ResetForm(t).editing, ResetForm(t).form, parse).CreateRequest?
    ensures var e := HandleEdit(t, u);
            SubmitRequest(e.editing, e.form, parse) == UpdateRequest(u.id, PayloadOf(FormOf(u), ZeroFallback, parse))
  {
  }

  /** `handleSubmit` after the request: a success resets the form, a failure
      keeps everything for another try. */
  function AfterSave(t: UniversitiesTab, reply: ApiReply<()>): (r: UniversitiesTab)
    ensures reply.Delivered? ==> r == ResetForm(t)
    ensures reply.Rejected? ==> r == t
  {
    if reply.Delivered? then ResetForm(t) else t
  }

  /** A user as the users endpoint lists it. */
  datatype UserView = UserView(id: string, email: string, name: string, role: string,
                               universityId: Option<string>)

  predicate IsManager(u: UserView) {
    u.role == "manager"
  }

  function IsManagerPred(): UserView -> bool {
    (u: UserView) => IsManager(u)
  }

  /** The users tab lists the managers only, in the order received. */
  function Managers(users: seq<UserView>): (r: seq<UserView>)
    ensures forall u :: u in r <==> u in users && u.role == "manager"
    ensures IsSubseq(r, users)
  {
    FilterIsSubseq(users, IsManagerPred());
    Filter(users, IsManagerPred())
  }

  /** The manager form. */
  datatype ManagerForm = ManagerForm(name: string, email: string, password: string, role: string,
                                     universityId: string)

  const BlankManagerForm := ManagerForm("", "", "", "manager", "")

  /** "Edit" on a manager: the password field starts empty. */
  function EditManagerForm(u: UserView): (f: ManagerForm)
    ensures f.password == [] && f.role == "manager"
    ensures f.name == u.name && f.email == u.email && f.universityId == u.universityId.GetOr("")
  {
    ManagerForm(u.name, u.email, "", "manager", u.universityId.GetOr(""))
  }

  /** The body of a manager update. */
  datatype UserUpdate = UserUpdate(name: string, email: string, universityId: string, password: Option<string>)

  datatype UserRequest = UpdateUser(id: string, update: UserUpdate) | CreateUser(form: ManagerForm)

  /** The users tab's `handleSubmit`: an update carries the password only when
      one was typed; a creation sends the whole form. */
  function UserSubmit(editing: Option<UserView>, f: ManagerForm): (r: UserRequest)
    ensures r.UpdateUser? <==> editing.Some?
    ensures r.UpdateUser? ==> r.id == editing.value.id
    ensures r.UpdateUser? ==> (r.update.password.Some? <==> f.password != [])
    ensures r.UpdateUser? && f.password != [] ==> r.update.password == Some(f.password)
    ensures r.UpdateUser? ==>
              r.update.name == f.name && r.update.email == f.email && r.update.universityId == f.universityId
    ensures r.CreateUser? ==> r.form == f
  {
    match editing
    case Some(u) =>
      UpdateUser(u.id, UserUpdate(f.name, f.email, f.universityId,
                                  if f.password != [] then Some(f.password) else None))
    case None => CreateUser(f)
  }

  /** Saving a manager without touching the form sends their own name, email
      and university back and never a password, so the password is kept. */
  lemma UnchangedManagerSave(u: UserView)
    ensures UserSubmit(Some(u), EditManagerForm(u)) ==
            UpdateUser(u.id, UserUpdate(u.name, u.email, u.universityId.GetOr(""), None))
  {
  }
}

=== FILE: apply_modal.dfy ===
/** The "Apply" dialog on a university's page: five text fields, the request
    that carries them with the university's id and name, and what a success
    or a failure does to the form. */
module ApplyModal {
  import opened Outcomes

  datatype ApplyForm = ApplyForm(name: string, email: string, phone: string, courseInterest: string, shortNote: string)

  const BlankApply := ApplyForm("", "", "", "", "")

  datatype Field = Name | Email | Phone | CourseInterest | ShortNote

  function Get(f: ApplyForm, field: Field): string {
    match field
    case Name => f.name
    case Email => f.email
    case Phone => f.phone
    case CourseInterest => f.courseInterest
    case ShortNote => f.shortNote
  }

  /** `handleChange`: the named field takes the value, the others keep theirs. */
  function HandleChange(f: ApplyForm, field: Field, value: string): (r: ApplyForm)
    ensures Get(r, field) == value
    ensures forall other: Field :: other != field ==> Get(r, other) == Get(f, other)
  {
    match field
    case Name => f.(name := value)
    case Email => f.(email := value)
    case Phone => f.(phone := value)
    case CourseInterest => f.(courseInterest := value)
    case ShortNote => f.(shortNote := value)
  }

  /** A form is determined by its five fields. */
  lemma FormByFields(f: ApplyForm, g: ApplyForm)
    requires forall field: Field :: Get(f, field) == Get(g, field)
    ensures f == g
  {
    assert Get(f, Name) == Get(g, Name) && Get(f, Email) == Get(g, Email) && Get(f, Phone) == Get(g, Phone);
    assert Get(f, CourseInterest) == Get(g, CourseInterest) && Get(f, ShortNote) == Get(g, ShortNote);
  }

  /** Typing twice into the same field keeps the last value only. */
  lemma LastWriteWins(f: ApplyForm, field: Field, a: string, b: string)
    ensures HandleChange(HandleChange(f, field, a), field, b) == HandleChange(f, field, b)
  {
    var x := HandleChange(HandleChange(f, field, a), field, b);
    var y := HandleChange(f, field, b);
    forall other: Field ensures Get(x, other) == Get(y, other) {
    }
    FormByFields(x, y);
  }

  /** Changes to two different fields commute. */
  lemma ChangesCommute(f: ApplyForm, f1: Field, a: string, f2: Field, b: string)
    requires f1 != f2
    ensures HandleChange(HandleChange(f, f1, a), f2, b) == HandleChange(HandleChange(f, f2, b), f1, a)
  {
    var x := HandleChange(HandleChange(f, f1, a), f2, b);
    var y := HandleChange(HandleChange(f, f2, b), f1, a);
    forall other: Field ensures Get(x, other) == Get(y, other) {
    }
    FormByFields(x, y);
  }

  /** The body of the application request. */
  datatype ApplicationRequest = ApplicationRequest(form: ApplyForm, universityId: string, universityName: string)

  /** The dialog: the form, whether it is open, the request in flight and
      the last error shown. */
  datatype Dialog = Dialog(form: ApplyForm, open: bool, loading: bool, error: Option<string>)

  /** Every field holds something: the browser's check for the five
      `required` fields. */
  predicate Filled(f: ApplyForm) {
    forall field: Field :: Get(f, field) != ""
  }

  lemma FilledByFields(f: ApplyForm)
    ensures Filled(f) <==>
              f.name != "" && f.email != "" && f.phone != "" && f.courseInterest != "" && f.shortNote != ""
  {
    assert Get(f, Name) == f.name && Get(f, Email) == f.email && Get(f, Phone) == f.phone;
    assert Get(f, CourseInterest) == f.courseInterest && Get(f, ShortNote) == f.shortNote;
  }

  /** The university the dialog was opened for. */
  datatype UniversityRef = UniversityRef(id: string, name: string)

  /** `handleSubmit` starts: the form's fields travel with the university's
      id and name. Without a university the dialog renders nothing, so no
      form exists to submit; the browser holds the form back while a field
      is blank, and the button is disabled while a request is in flight. */
  function Submit(d: Dialog, university: Option<UniversityRef>): (r: (Dialog, Option<ApplicationRequest>))
    ensures r.1.Some? <==> university.Some? && Filled(d.form) && !d.loading
    ensures r.1.None? ==> r.0 == d
    ensures r.1.Some? ==> r.0 == d.(loading := true)
    ensures r.1.Some? ==>
              r.1.value.form == d.form && r.1.value.universityId == university.value.id
              && r.1.value.universityName == university.value.name
  {
    FilledByFields(d.form);
    if university.Some? && !d.loading && d.form.name != "" && d.form.email != "" && d.form.phone != ""
       && d.form.courseInterest != "" && d.form.shortNote != "" then
      (d.(loading := true), Some(ApplicationRequest(d.form, university.value.id, university.value.name)))
    else
      (d, None)
  }

  /** `handleSubmit` ends: a success clears the form and closes the dialog; a
      failure keeps the form and shows the server's message or the fallback;
      `loading` is cleared either way. */
  function Finished(d: Dialog, reply: ApiReply<()>): (r: Dialog)
    ensures !r.loading
    ensures reply.Delivered? ==> r.form == BlankApply && !r.open && r.error == d.error
    ensures reply.Rejected? ==>
              r.form == d.form && r.open == d.open && r.error == Some(MessageOf(reply.detail, "Failed to submit application"))
  {
    match reply
    case Delivered(_) => d.(form := BlankApply, open := false, loading := false)
    case Rejected(detail) => d.(loading := false, error := Some(MessageOf(detail, "Failed to submit application")))
  }

  /** A failed submission can be sent again unchanged: the retry carries the
      same request. */
  lemma RetryResendsSameRequest(d: Dialog, university: Option<UniversityRef>, detail: Option<string>)
    ensures var (sent, req) := Submit(d, university);
            req.Some? ==> Submit(Finished(sent, Rejected(detail)), university).1 == req
  {
  }

  /** After a success the form is blank, so reopening the dialog shows
      empty fields and an immediate submit sends nothing. */
  lemma SuccessStartsOver(d: Dialog, university: Option<UniversityRef>)
    ensures var (sent, _) := Submit(d, university);
            var after := Finished(sent, Delivered(()));
            (forall field: Field :: Get(after.form, field) == "") && Submit(after, university).1.None?
  {
    var after := Finished(Submit(d, university).0, Delivered(()));
    assert Get(after.form, Name) == "";
  }

  /** What the user and the server do to the dialog. */
  datatype Event = Change(field: Field, value: string) | SubmitForm | Reply(reply: ApiReply<()>)

  /** One event on the dialog for `university`, with the request it sends,
      if any. A reply answers the request in flight. Without a university
      nothing is rendered, so no event reaches the dialog. */
  function Step(d: Dialog, university: Option<UniversityRef>, e: Event): (r: (Dialog, Option<ApplicationRequest>))
    ensures r.1.Some? ==> e.SubmitForm? && university.Some? && !d.loading && r.0.loading && Filled(r.1.value.form)
    ensures university.None? ==> r == (d, None)
  {
    if university.None? then (d, None)
    else
      match e
      case Change(field, value) => (d.(form := HandleChange(d.form, field, value)), None)
      case SubmitForm => Submit(d, university)
      case Reply(reply) => if d.loading then (Finished(d, reply), None) else (d, None)
  }

  /** The dialog after a run of events and the requests sent, in order. */
  function Run(d: Dialog, university: Option<UniversityRef>, es: seq<Event>): (Dialog, seq<ApplicationRequest>)
    decreases |es|
  {
    if es == [] then (d, [])
    else
      var (d1, req) := Step(d, university, es[0]);
      var (d2, rest) := Run(d1, university, es[1..]);
      (d2, (if req.Some? then [req.value] else []) + rest)
  }

  /** The number of server replies in a run. */
  function Replies(es: seq<Event>): nat {
    if es == [] then 0 else (if es[0].Reply? then 1 else 0) + Replies(es[1..])
  }

  /** No request leaves with a blank field or without the dialog's
      university, and requests go one at a time: every request after the
      first needs a reply in between, so the count sent never exceeds the
      replies plus one for an idle start. */
  lemma {:induction false} RequestsFilledOneAtATime(d: Dialog, university: Option<UniversityRef>, es: seq<Event>)
    ensures var (last, sent) := Run(d, university, es);
            (forall req :: req in sent ==>
               Filled(req.form) && university.Some?
               && req.universityId == university.value.id && req.universityName == university.value.name)
            && |sent| + (if last.loading then 0 else 1) <= Replies(es) + (if d.loading then 0 else 1)
    decreases |es|
  {
    if es != [] {
      var (d1, req) := Step(d, university, es[0]);
      RequestsFilledOneAtATime(d1, university, es[1..]);
      var (d2, rest) := Run(d1, university, es[1..]);
      var sent := (if req.Some? then [req.value] else []) + rest;
      assert Run(d, university, es) == (d2, sent);
      forall r | r in sent
        ensures Filled(r.form) && university.Some?
                && r.universityId == university.value.id && r.universityName == university.value.name
      {
        if r !in rest {
          assert req.Some? && r == req.value;
        }
      }
    }
  }

  /** Without a university the dialog is not rendered: whatever happens, it
      stays as it is and sends nothing. */
  lemma {:induction false} NoUniversityNoRequest(d: Dialog, es: seq<Event>)
    ensures Run(d, None, es).0 == d && Run(d, None, es).1 == []
    decreases |es|
  {
    if es != [] {
      assert Step(d, None, es[0]) == (d, None);
      NoUniversityNoRequest(d, es[1..]);
    }
  }
}

=== FILE: auth_session.dfy ===
/** The browser's login session: the token kept in local storage, the token
    in memory, the signed-in user and the start-up `loading` flag. Decoding a
    token's payload (`atob` and `JSON.parse`) is a parameter that may fail. */
module AuthSession {
  import opened Outcomes

  /** The signed-in user as the pages see it. */
  datatype SessionUser = SessionUser(id: string, email: string, role: string, universityId: Option<string>)

  datatype Session = Session(
    stored: Option<string>,
    token: Option<string>,
    user: Option<SessionUser>,
    loading: bool)

  /** `if (token)`: an empty string counts as no token. */
  predicate HasToken(t: Option<string>) {
    t.Some? && t.value != []
  }

  /** The provider's first render: the token is read from storage. */
  function Start(stored: Option<string>): (s: Session)
    ensures s.token == s.stored == stored && s.user.None? && s.loading
  {
    Session(stored, stored, None, true)
  }

  /** `logout`: storage and memory forget the token and the user. */
  function Logout(s: Session): (r: Session)
    ensures r.stored.None? && r.token.None? && r.user.None? && r.loading == s.loading
  {
    s.(stored := None, token := None, user := None)
  }

  /** The effect that runs whenever the token changes: a token whose payload
      decodes sets the user from it, one that does not logs out; `loading` is
      then cleared in every case. */
  function OnToken(s: Session, decode: string -> Option<SessionUser>): (r: Session)
    ensures !r.loading
    ensures HasToken(s.token) && decode(s.token.value).Some? ==>
              r == s.(user := decode(s.token.value), loading := false)
    ensures HasToken(s.token) && decode(s.token.value).None? ==> r == Logout(s).(loading := false)
    ensures !HasToken(s.token) ==> r == s.(loading := false)
  {
    var after :=
      if HasToken(s.token) then
        match decode(s.token.value)
        case Some(u) => s.(user := Some(u))
        case None => Logout(s)
      else s;
    after.(loading := false)
  }

  /** What `login` returns to the login page. */
  datatype LoginResult = LoginSuccess(user: SessionUser) | LoginFailure(message: string)

  /** `login`: a success stores the new token and user; a failure changes
      nothing and reports the server's message or "Login failed". */
  function Login(s: Session, reply: ApiReply<(string, SessionUser)>): (r: (Session, LoginResult))
    ensures reply.Delivered? ==>
              r.0 == s.(stored := Some(reply.data.0), token := Some(reply.data.0), user := Some(reply.data.1))
              && r.1 == LoginSuccess(reply.data.1)
    ensures reply.Rejected? ==> r.0 == s && r.1 == LoginFailure(MessageOf(reply.detail, "Login failed"))
  {
    match reply
    case Delivered((t, u)) => (s.(stored := Some(t), token := Some(t), user := Some(u)), LoginSuccess(u))
    case Rejected(detail) => (s, LoginFailure(MessageOf(detail, "Login failed")))
  }

  /** The session invariant: storage and memory hold the same token, and a
      user is only ever signed in alongside a token. */
  predicate Consistent(s: Session) {
    s.stored == s.token && (s.user.Some? ==> s.token.Some?)
  }

  /** Every transition keeps the session consistent. */
  lemma TransitionsKeepConsistent(s: Session, stored: Option<string>, decode: string -> Option<SessionUser>,
                                  reply: ApiReply<(string, SessionUser)>)
    requires Consistent(s)
    ensures Consistent(Start(stored))
    ensures Consistent(OnToken(s, decode))
    ensures Consistent(Logout(s))
    ensures Consistent(Login(s, reply).0)
  {
  }

  /** A stored token that does not decode is cleared on start-up: the page
      ends signed out, with storage empty and loading over. */
  lemma CorruptTokenClearedAtStart(stored: string, decode: string -> Option<SessionUser>)
    requires stored != [] && decode(stored).None?
    ensures OnToken(Start(Some(stored)), decode) == Session(None, None, None, false)
  {
  }

  /** A session restored at start-up from a stored token that decodes is the
      user that token names. */
  lemma ValidTokenRestored(stored: string, decode: string -> Option<SessionUser>)
    requires stored != [] && decode(stored).Some?
    ensures OnToken(Start(Some(stored)), decode) == Session(Some(stored), Some(stored), decode(stored), false)
  {
  }

  /** After a successful login the token effect re-runs on the new token:
      when its payload names the same user, the session keeps that user; a
      reload of the page then restores the same user from storage. */
  lemma LoginThenReload(s: Session, t: string, u: SessionUser, decode: string -> Option<SessionUser>)
    requires t != [] && decode(t) == Some(u)
    ensures var after := OnToken(Login(s, Delivered((t, u))).0, decode);
            after.user == Some(u) && after.stored == Some(t)
            && OnToken(Start(after.stored), decode).user == Some(u)
  {
  }

  /** Logging out and re-running the effect leaves no user and no token. */
  lemma LogoutSignsOut(s: Session, decode: string -> Option<SessionUser>)
    ensures var r := OnToken(Logout(s), decode);
            r.user.None? && r.stored.None? && !r.loading
            && OnToken(Start(r.stored), decode).user.None?
  {
  }
}

=== FILE: branding.dfy ===
/** The site's name and logo shared by every page: started from the copy
    cached in local storage (or the defaults), then refreshed from the
    homepage configuration and cached again. JSON encoding of the cached copy
    is not modelled: the cache holds the value itself, or something that does
    not parse. */
module Branding {
  import opened Outcomes

  datatype Brand = Brand(siteName: string, logoUrl: string)

  const DefaultBrand := Brand("Edu Dham", "")

  /** The `edudham_branding` entry: missing or empty, unparsable, or a stored value. */
  datatype Cache = Missing | Unreadable | Cached(brand: Brand)

  /** The initial state: the cached value when there is a readable one, else
      the defaults. */
  function Initial(c: Cache): (b: Brand)
    ensures c.Cached? ==> b == c.brand
    ensures !c.Cached? ==> b == DefaultBrand
  {
    match c
    case Cached(b) => b
    case _ => DefaultBrand
  }

  /** The two fields of the homepage configuration that matter here, each
      possibly missing. */
  datatype Config = Config(siteName: Option<string>, logoUrl: Option<string>)

  /** `site_name || 'Edu Dham'`, `logo_url || ''`. */
  function BrandOf(cfg: Config): (b: Brand)
    ensures b.siteName != []
    ensures cfg.siteName.Some? && cfg.siteName.value != [] ==> b.siteName == cfg.siteName.value
    ensures !(cfg.siteName.Some? && cfg.siteName.value != []) ==> b.siteName == DefaultBrand.siteName
    ensures b.logoUrl == cfg.logoUrl.GetOr("")
  {
    Brand(if cfg.siteName.Some? && cfg.siteName.value != [] then cfg.siteName.value else "Edu Dham",
          cfg.logoUrl.GetOr(""))
  }

  /** The fetch on mount: a configuration replaces the brand and the cache; a
      failure (or an empty answer) keeps both. */
  function Refresh(b: Brand, c: Cache, reply: ApiReply<Option<Config>>): (r: (Brand, Cache))
    ensures reply.Delivered? && reply.data.Some? ==> r == (BrandOf(reply.data.value), Cached(BrandOf(reply.data.value)))
    ensures !(reply.Delivered? && reply.data.Some?) ==> r == (b, c)
  {
    match reply
    case Delivered(Some(cfg)) => (BrandOf(cfg), Cached(BrandOf(cfg)))
    case _ => (b, c)
  }

  /** The next visit starts with what the last refresh fetched: the cache
      round-trips the brand. */
  lemma ReloadShowsRefreshed(b: Brand, c: Cache, cfg: Config)
    ensures var (now, cache) := Refresh(b, c, Delivered(Some(cfg)));
            Initial(cache) == now
  {
  }

  /** A refresh of a refresh with the same answer changes nothing more. */
  lemma RefreshIdempotent(b: Brand, c: Cache, reply: ApiReply<Option<Config>>)
    ensures var (b1, c1) := Refresh(b, c, reply);
            Refresh(b1, c1, reply) == (b1, c1)
  {
  }

  /** A failed refresh on a first visit shows the defaults. */
  lemma FirstVisitOffline(detail: Option<string>)
    ensures Refresh(Initial(Missing), Missing, Rejected(detail)).0 == DefaultBrand
  {
  }
}

=== FILE: bulk_upload.dfy ===
/** Bulk creation of universities from a spreadsheet: the upload checks, the
    header row, and the parsing of every data row into a university or a
    "Row n: ..." error. Workbook decoding, Python's `str` of a number and
    `float` of a string are parameters (`show`, `parse`). */
module BulkUpload {
  import opened Outcomes
  import opened Text
  import opened Lists
  import opened Entities

  /** A cell value as the sheet yields it: an empty cell is Python's `None`. */
  datatype Cell = Blank | Text(s: string) | Number(x: real)

  /** Python truthiness of a cell value. */
  predicate Truthy(c: Cell) {
    match c
    case Blank => false
    case Text(s) => s != []
    case Number(x) => x != 0.0
  }

  /** `str(value)`: `None` becomes the text "None". */
  function Str(c: Cell, show: real -> string): string {
    match c
    case Blank => "None"
    case Text(s) => s
    case Number(x) => show(x)
  }

  /** A header cell: `str(v).strip().lower()` when truthy, else "". */
  function HeaderName(c: Cell, show: real -> string): string {
    if Truthy(c) then Lower(Trim(Str(c, show))) else ""
  }

  function Headers(row: seq<Cell>, show: real -> string): (r: seq<string>)
    ensures |r| == |row| && forall i :: 0 <= i < |row| ==> r[i] == HeaderName(row[i], show)
  {
    seq(|row|, i requires 0 <= i < |row| => HeaderName(row[i], show))
  }

  const Required: set<string> := {"name", "location", "description", "placement_percentage"}

  /** `dict(zip(headers, row))`: pairs up to the shorter length, a later
      duplicate header overriding an earlier one. */
  function RowMap(headers: seq<string>, row: seq<Cell>): (r: map<string, Cell>)
    ensures headers != [] && row != [] ==> headers[0] in r
    decreases |headers|
  {
    if headers == [] || row == [] then map[]
    else map[headers[0] := row[0]] + RowMap(headers[1..], row[1..])
  }

  /** The keys of a row are the headers that have a cell; a header's value
      is the cell under its last occurrence. */
  lemma {:induction false} RowMapSpec(headers: seq<string>, row: seq<Cell>)
    ensures forall k :: k in RowMap(headers, row) <==> exists i :: 0 <= i < |headers| && i < |row| && headers[i] == k
    ensures forall i :: 0 <= i < |headers| && i < |row| && headers[i] !in headers[i + 1..] ==>
              RowMap(headers, row)[headers[i]] == row[i]
    decreases |headers|
  {
    if headers != [] && row != [] {
      var h, c := headers[1..], row[1..];
      var rest := RowMap(h, c);
      RowMapSpec(h, c);
      var r := RowMap(headers, row);
      assert r == map[headers[0] := row[0]] + rest;
      forall k ensures k in r <==> exists i :: 0 <= i < |headers| && i < |row| && headers[i] == k {
        if k in rest {
          var j :| 0 <= j < |h| && j < |c| && h[j] == k;
          assert headers[j + 1] == k;
        }
        if exists i :: 0 <= i < |headers| && i < |row| && headers[i] == k {
          var i :| 0 <= i < |headers| && i < |row| && headers[i] == k;
          if i > 0 {
            assert h[i - 1] == k;
          }
        }
      }
      forall i | 0 <= i < |headers| && i < |row| && headers[i] !in headers[i + 1..]
        ensures r[headers[i]] == row[i]
      {
        if i == 0 {
          forall j | 0 <= j < |h| && j < |c| ensures h[j] != headers[0] {
            assert h[j] in headers[1..];
          }
        } else {
          assert h[i - 1] == headers[i];
          assert h[i..] == headers[i + 1..];
        }
      }
    }
  }

  /** `str(row_data.get(k, ''))`. */
  function GetStr(m: map<string, Cell>, k: string, show: real -> string): (r: string)
    ensures k !in m ==> r == []
    ensures k in m && m[k] == Blank ==> r == "None"
  {
    if k in m then Str(m[k], show) else ""
  }

  /** `str(row_data.get(k, '') or '')`: every falsy value reads as "". */
  function GetStrOr(m: map<string, Cell>, k: string, show: real -> string): (r: string)
    ensures !(k in m && Truthy(m[k])) ==> r == []
    ensures k in m && m[k].Text? && m[k].s != [] ==> r == m[k].s
  {
    if k in m && Truthy(m[k]) then Str(m[k], show) else ""
  }

  /** `float(raw) if raw else 0.0` with `raw = row_data.get(k, 0)`; `None`
      stands for the `ValueError` of a text that is not a number. */
  function GetFloat(m: map<string, Cell>, k: string, parse: string -> Option<real>): (r: Option<real>)
    ensures !(k in m && Truthy(m[k])) ==> r == Some(0.0)
    ensures k in m && m[k].Number? ==> r == Some(m[k].x)
    ensures k in m && m[k].Text? && m[k].s != [] ==> r == parse(m[k].s)
  {
    if k in m && Truthy(m[k]) then
      match m[k]
      case Text(s) => parse(s)
      case Number(x) => Some(x)
      case Blank => Some(0.0)
    else Some(0.0)
  }

  /** A comma-separated cell: the trimmed, non-blank pieces, in order. */
  function CommaList(s: string): (r: seq<string>)
    ensures forall k :: 0 <= k < |r| ==> Plain(r[k]) && ',' !in r[k]
  {
    var r := TrimmedNonBlank(Split(s, ','));
    assert forall k :: 0 <= k < |r| ==> ',' !in r[k] by {
      var pieces := Split(s, ',');
      forall k | 0 <= k < |r| ensures ',' !in r[k] {
        assert r[k] in r;
        var i :| 0 <= i < |pieces| && Map(pieces, Trim)[i] == r[k];
        TrimIsSlice(pieces[i]);
      }
    }
    r
  }

  /** The trim of a string is one of its slices, so it holds no character the
      string does not. */
  lemma TrimIsSlice(s: string)
    ensures forall ch :: ch in Trim(s) ==> ch in s
  {
    var t := TrimStart(s);
    var r := TrimEnd(t);
    SliceMembers(t, 0, |r|);
    SliceMembers(s, |s| - |t|, |s|);
  }

  lemma SliceMembers(s: string, a: int, b: int)
    requires 0 <= a <= b <= |s|
    ensures forall ch :: ch in s[a..b] ==> ch in s
  {
    forall ch | ch in s[a..b] ensures ch in s {
      var i :| 0 <= i < b - a && s[a..b][i] == ch;
      assert s[a + i] == ch;
    }
  }

  /** Writing names separated by commas and reading the cell back gives the
      names, when each is trimmed, non-blank and comma-free. */
  lemma CommaListRoundTrip(names: seq<string>)
    requires |names| >= 1
    requires forall k :: 0 <= k < |names| ==> Plain(names[k]) && ',' !in names[k]
    ensures CommaList(Join(names, ',')) == names
  {
    JoinSplit(names, ',');
    TrimmedNonBlankOfPlain(names);
  }

  /** A course created from a name in the `courses` cell. */
  function DefaultCourse(name: string): Course {
    Course(name, "", "N/A", 0.0, "Uncategorized")
  }

  function CoursesFrom(names: seq<string>): (r: seq<Course>)
    ensures |r| == |names|
    ensures forall k :: 0 <= k < |r| ==> r[k] == Course(names[k], "", "N/A", 0.0, "Uncategorized")
  {
    seq(|names|, k requires 0 <= k < |names| => DefaultCourse(names[k]))
  }

  /** `if v: contact[k] = v`. */
  function PutNonEmpty(c: map<string, string>, k: string, v: string): (r: map<string, string>)
    ensures v != [] ==> r == c[k := v]
    ensures v == [] ==> r == c
    ensures r.Keys == if v != [] then c.Keys + {k} else c.Keys
  {
    if v != [] then c[k := v] else c
  }

  lemma ContactKeysDiffer()
    ensures "email" != "phone" && "email" != "website" && "phone" != "website"
  {
    assert "email"[0] != "phone"[0] && "email"[0] != "website"[0] && "phone"[0] != "website"[0];
  }

  /** The contact map: only the non-empty email, phone and website values. */
  function ContactOf(m: map<string, Cell>, show: real -> string): (r: map<string, string>)
    ensures r.Keys <= {"email", "phone", "website"}
    ensures "email" in r <==> Trim(GetStrOr(m, "email", show)) != []
    ensures "phone" in r <==> Trim(GetStrOr(m, "phone", show)) != []
    ensures "website" in r <==> Trim(GetStrOr(m, "website", show)) != []
    ensures "email" in r ==> r["email"] == Trim(GetStrOr(m, "email", show))
    ensures "phone" in r ==> r["phone"] == Trim(GetStrOr(m, "phone", show))
    ensures "website" in r ==> r["website"] == Trim(GetStrOr(m, "website", show))
  {
    Contact(Trim(GetStrOr(m, "email", show)), Trim(GetStrOr(m, "phone", show)), Trim(GetStrOr(m, "website", show)))
  }

  function Contact(email: string, phone: string, website: string): (r: map<string, string>)
    ensures r.Keys <= {"email", "phone", "website"}
    ensures "email" in r <==> email != []
    ensures "phone" in r <==> phone != []
    ensures "website" in r <==> website != []
    ensures "email" in r ==> r["email"] == email
    ensures "phone" in r ==> r["phone"] == phone
    ensures "website" in r ==> r["website"] == website
  {
    ContactKeysDiffer();
    PutNonEmpty(PutNonEmpty(PutNonEmpty(map[], "email", email), "phone", phone), "website", website)
  }

  /** The university a row creates. */
  datatype Record = Record(
    name: string,
    location: string,
    state: string,
    description: string,
    placement: real,
    rating: real,
    courses: seq<Course>,
    tags: seq<string>,
    contact: map<string, string>)

  /** A row's error entry, "Row n: ...": a required field missing, or a number
      that did not convert (the exception text is not modelled). */
  datatype RowError = MissingRequired(row: int) | NotANumber(row: int, field: string)

  datatype RowOutcome = Skipped | Created(record: Record) | Failed(error: RowError)

  /** How location and description read an empty cell: as the text "None"
      (the code as written) or as "" (as intended). */
  datatype Reading = AsWritten | Intended

  function RequiredText(m: map<string, Cell>, k: string, reading: Reading, show: real -> string): (r: string)
    ensures reading == Intended && k in m && m[k] == Blank ==> r == []
    ensures reading == AsWritten && k in m && m[k] == Blank ==> r == "None"
    ensures !(k in m && m[k] == Blank) ==> r == GetStr(m, k, show)
  {
    if reading == Intended && k in m && m[k] == Blank then "" else GetStr(m, k, show)
  }

  /** The name check that skips a row silently. */
  predicate BlankName(m: map<string, Cell>, show: real -> string) {
    !("name" in m && Truthy(m["name"])) || Trim(GetStr(m, "name", show)) == []
  }

  /** The four text fields of a row, trimmed. */
  datatype Texts = Texts(name: string, location: string, state: string, description: string)

  function ReadTexts(m: map<string, Cell>, reading: Reading, show: real -> string): (r: Texts)
    ensures r.name == Trim(GetStr(m, "name", show))
    ensures r.state == Trim(GetStrOr(m, "state", show))
    ensures r.location == Trim(RequiredText(m, "location", reading, show))
    ensures r.description == Trim(RequiredText(m, "description", reading, show))
  {
    Texts(Trim(GetStr(m, "name", show)), Trim(RequiredText(m, "location", reading, show)),
          Trim(GetStrOr(m, "state", show)), Trim(RequiredText(m, "description", reading, show)))
  }

  /** The last step of a row whose numbers converted: a university, or the
      missing-field error. */
  function Finish(m: map<string, Cell>, n: int, t: Texts, placement: real, rating: real,
                  show: real -> string): (r: RowOutcome)
    ensures r.Created? || r == Failed(MissingRequired(n))
    ensures r.Failed? ==> r.error.row == n
    ensures r.Created? <==> t.name != [] && t.location != [] && t.description != []
    ensures r.Created? ==>
              r.record.name == t.name && r.record.location == t.location && r.record.description == t.description
    ensures r.Created? ==> r.record.tags == CommaList(GetStrOr(m, "tags", show))
    ensures r.Created? ==> r.record.courses == CoursesFrom(CommaList(GetStrOr(m, "courses", show)))
    ensures r.Created? ==> r.record.placement == placement && r.record.rating == rating
    ensures r.Created? ==> r.record.state == t.state && r.record.contact == ContactOf(m, show)
  {
    if t.name == [] || t.location == [] || t.description == [] then Failed(MissingRequired(n))
    else
      Created(Record(t.name, t.location, t.state, t.description, placement, rating,
                     CoursesFrom(CommaList(GetStrOr(m, "courses", show))),
                     CommaList(GetStrOr(m, "tags", show)), ContactOf(m, show)))
  }

  /** One data row, sheet row number `n`. The fields are read in source order:
      placement and rating conversions come before the required-field check. */
  function ParseRow(m: map<string, Cell>, n: int, reading: Reading,
                    show: real -> string, parse: string -> Option<real>): (r: RowOutcome)
    ensures r.Skipped? <==> BlankName(m, show)
    ensures r.Failed? ==> r.error.row == n
    ensures !BlankName(m, show) && GetFloat(m, "placement_percentage", parse).None? ==>
              r == Failed(NotANumber(n, "placement_percentage"))
    ensures (!BlankName(m, show) && GetFloat(m, "placement_percentage", parse).Some?
              && GetFloat(m, "rating", parse).None?) ==> r == Failed(NotANumber(n, "rating"))
    ensures (!BlankName(m, show) && GetFloat(m, "placement_percentage", parse).Some?
              && GetFloat(m, "rating", parse).Some?) ==>
              r == Finish(m, n, ReadTexts(m, reading, show), GetFloat(m, "placement_percentage", parse).value,
                          GetFloat(m, "rating", parse).value, show)
  {
    ParseWith(m, n, BlankName(m, show), GetFloat(m, "placement_percentage", parse), GetFloat(m, "rating", parse),
              ReadTexts(m, reading, show), show)
  }

  /** The row's decision once its name check and conversions are known. */
  function ParseWith(m: map<string, Cell>, n: int, blank: bool, placement: Option<real>, rating: Option<real>,
                     t: Texts, show: real -> string): (r: RowOutcome)
    ensures r.Skipped? <==> blank
    ensures r.Failed? ==> r.error.row == n
    ensures !blank && placement.None? ==> r == Failed(NotANumber(n, "placement_percentage"))
    ensures !blank && placement.Some? && rating.None? ==> r == Failed(NotANumber(n, "rating"))
    ensures !blank && placement.Some? && rating.Some? ==> r == Finish(m, n, t, placement.value, rating.value, show)
  {
    if blank then Skipped
    else if placement.None? then Failed(NotANumber(n, "placement_percentage"))
    else if rating.None? then Failed(NotANumber(n, "rating"))
    else Finish(m, n, t, placement.value, rating.value, show)
  }

  /** A created row has a non-blank name, location and description. */
  lemma CreatedRowComplete(m: map<string, Cell>, n: int, reading: Reading,
                           show: real -> string, parse: string -> Option<real>)
    requires ParseRow(m, n, reading, show, parse).Created?
    ensures var rec := ParseRow(m, n, reading, show, parse).record;
            rec.name != [] && rec.location != [] && rec.description != []
            && rec.location == Trim(RequiredText(m, "location", reading, show))
            && (forall k :: 0 <= k < |rec.tags| ==> Plain(rec.tags[k]))
            && (forall k :: 0 <= k < |rec.courses| ==>
                  Plain(rec.courses[k].courseName) && rec.courses[k].category == "Uncategorized"
                  && rec.courses[k].duration == "N/A")
  {
  }

  /** The outcomes of the data rows, numbered from `first`. */
  function RowOutcomes(headers: seq<string>, rows: seq<seq<Cell>>, first: int, reading: Reading,
                       show: real -> string, parse: string -> Option<real>): (r: seq<RowOutcome>)
    ensures |r| == |rows|
    ensures forall i :: 0 <= i < |rows| ==> (r[i].Failed? ==> r[i].error.row == first + i)
  {
    seq(|rows|, i requires 0 <= i < |rows| => ParseRow(RowMap(headers, rows[i]), first + i, reading, show, parse))
  }

  function Creation(x: Record): RowOutcome {
    Created(x)
  }

  /** The records of the created rows: in row order, each as often as a row
      created it. */
  function CreatedRecords(os: seq<RowOutcome>): (r: seq<Record>)
    ensures forall x :: x in r <==> Created(x) in os
    ensures IsSubseq(Map(r, Creation), os)
    ensures forall x :: multiset(r)[x] == multiset(os)[Created(x)]
  {
    if os == [] then []
    else
      var rest := CreatedRecords(os[1..]);
      var head := if os[0].Created? then [os[0].record] else [];
      CreatedStep(os, head, rest);
      head + rest
  }

  lemma CreatedStep(os: seq<RowOutcome>, head: seq<Record>, rest: seq<Record>)
    requires os != [] && head == (if os[0].Created? then [os[0].record] else [])
    requires forall x :: x in rest <==> Created(x) in os[1..]
    requires IsSubseq(Map(rest, Creation), os[1..])
    requires forall x :: multiset(rest)[x] == multiset(os[1..])[Created(x)]
    ensures forall x :: x in head + rest <==> Created(x) in os
    ensures IsSubseq(Map(head + rest, Creation), os)
    ensures forall x :: multiset(head + rest)[x] == multiset(os)[Created(x)]
  {
    assert forall o :: o in os <==> o == os[0] || o in os[1..] by {
      assert os == [os[0]] + os[1..];
    }
    CreatedStepOrder(os, head, rest);
    CreatedStepCount(os, head, rest);
  }

  lemma CreatedStepOrder(os: seq<RowOutcome>, head: seq<Record>, rest: seq<Record>)
    requires os != [] && head == (if os[0].Created? then [os[0].record] else [])
    requires IsSubseq(Map(rest, Creation), os[1..])
    ensures IsSubseq(Map(head + rest, Creation), os)
  {
    var m := Map(head + rest, Creation);
    if os[0].Created? {
      assert m[0] == os[0];
      assert m[1..] == Map(rest, Creation);
    } else {
      assert m == Map(rest, Creation);
    }
  }

  lemma CreatedStepCount(os: seq<RowOutcome>, head: seq<Record>, rest: seq<Record>)
    requires os != [] && head == (if os[0].Created? then [os[0].record] else [])
    requires forall x :: multiset(rest)[x] == multiset(os[1..])[Created(x)]
    ensures forall x :: multiset(head + rest)[x] == multiset(os)[Created(x)]
  {
    assert multiset(head + rest) == multiset(head) + multiset(rest);
    assert multiset(os) == multiset([os[0]]) + multiset(os[1..]) by {
      assert os == [os[0]] + os[1..];
    }
  }

  function Errors(os: seq<RowOutcome>): (r: seq<RowError>)
    ensures forall e :: e in r <==> Failed(e) in os
  {
    if os == [] then []
    else
      assert forall o :: o in os <==> o == os[0] || o in os[1..];
      (if os[0].Failed? then [os[0].error] else []) + Errors(os[1..])
  }

  function SkippedCount(os: seq<RowOutcome>): nat {
    if os == [] then 0 else (if os[0].Skipped? then 1 else 0) + SkippedCount(os[1..])
  }

  /** Every row is skipped, creates one university, or adds one error. */
  lemma {:induction false} RowAccounting(os: seq<RowOutcome>)
    ensures |CreatedRecords(os)| + |Errors(os)| + SkippedCount(os) == |os|
  {
    if os != [] {
      RowAccounting(os[1..]);
    }
  }

  /** Error entries follow sheet order, with the row numbers of the sheet
      (the first data row is row `first`). */
  lemma {:induction false} ErrorRowsAscending(os: seq<RowOutcome>, first: int)
    requires forall i :: 0 <= i < |os| ==> (os[i].Failed? ==> os[i].error.row == first + i)
    ensures forall i :: 0 <= i < |Errors(os)| ==> first <= Errors(os)[i].row < first + |os|
    ensures forall i :: 0 <= i < |Errors(os)| - 1 ==> Errors(os)[i].row < Errors(os)[i + 1].row
  {
    ErrorRowsInRange(os, first);
    if os != [] {
      var tail := os[1..];
      forall i | 0 <= i < |tail| ensures tail[i].Failed? ==> tail[i].error.row == first + 1 + i {
        assert tail[i] == os[i + 1];
      }
      ErrorRowsAscending(tail, first + 1);
      if os[0].Failed? {
        assert Errors(os) == [os[0].error] + Errors(tail);
        ConsAscending(os[0].error, Errors(tail));
      } else {
        assert Errors(os) == Errors(tail);
      }
    }
  }

  lemma ConsAscending(e: RowError, rest: seq<RowError>)
    requires forall i :: 0 <= i < |rest| ==> e.row < rest[i].row
    requires forall i :: 0 <= i < |rest| - 1 ==> rest[i].row < rest[i + 1].row
    ensures forall i :: 0 <= i < |rest| ==> ([e] + rest)[i].row < ([e] + rest)[i + 1].row
  {
    var es := [e] + rest;
    forall i | 0 <= i < |rest| ensures es[i].row < es[i + 1].row {
      assert es[i + 1] == rest[i];
      if i > 0 {
        assert es[i] == rest[i - 1];
      }
    }
  }

  /** Every error names a row of the sheet. */
  lemma ErrorRowsInRange(os: seq<RowOutcome>, first: int)
    requires forall i :: 0 <= i < |os| ==> (os[i].Failed? ==> os[i].error.row == first + i)
    ensures forall i :: 0 <= i < |Errors(os)| ==> first <= Errors(os)[i].row < first + |os|
  {
    forall i | 0 <= i < |Errors(os)| ensures first <= Errors(os)[i].row < first + |os| {
      var e := Errors(os)[i];
      assert e in Errors(os);
      var j :| 0 <= j < |os| && os[j] == Failed(e);
    }
  }

  /** The response of a completed upload. */
  datatype Report = Report(created: seq<string>, records: seq<Record>, errors: seq<RowError>,
                           createdCount: nat, errorCount: nat)

  datatype Upload =
    | Refused(error: HttpError)            // role, file type or unreadable workbook
    | MissingColumns(missing: set<string>) // 400 "Missing required columns: ..."
    | Completed(report: Report)

  predicate EndsWith(s: string, suffix: string) {
    |suffix| <= |s| && s[|s| - |suffix|..] == suffix
  }

  function Names(rs: seq<Record>): (r: seq<string>)
    ensures |r| == |rs| && forall i :: 0 <= i < |rs| ==> r[i] == rs[i].name
  {
    seq(|rs|, i requires 0 <= i < |rs| => rs[i].name)
  }

  /** `bulk_upload_universities`. `sheet` is the active sheet's rows, `None`
      when the workbook cannot be read; an empty sheet has one empty header. */
  function BulkUploadWith(role: string, filename: string, sheet: Option<seq<seq<Cell>>>, reading: Reading,
                          show: real -> string, parse: string -> Option<real>): (r: Upload)
    ensures role != "admin" ==> r == Refused(HttpError(403, "Admin only"))
    ensures role == "admin" && !EndsWith(filename, ".xlsx") && !EndsWith(filename, ".xls") ==>
              r.Refused? && r.error.status == 400
    ensures role == "admin" && (EndsWith(filename, ".xlsx") || EndsWith(filename, ".xls")) && sheet.None? ==>
              r == Refused(HttpError(400, "Could not read Excel file. Please use the provided template."))
    ensures role == "admin" && (EndsWith(filename, ".xlsx") || EndsWith(filename, ".xls")) && sheet.Some? ==>
              if MissingFrom(Headers(HeaderRow(sheet.value), show)) == {} then r.Completed?
              else r == MissingColumns(MissingFrom(Headers(HeaderRow(sheet.value), show)))
    ensures r.Completed? ==> sheet.Some? && forall h :: h in Required ==> h in Headers(HeaderRow(sheet.value), show)
    ensures r.MissingColumns? ==> r.missing != {} && r.missing <= Required && sheet.Some?
    ensures r.MissingColumns? ==>
              forall h :: h in Required ==> (h in r.missing <==> h !in Headers(HeaderRow(sheet.value), show))
    ensures r.Completed? ==>
              r.report == ReportOf(RowOutcomes(Headers(HeaderRow(sheet.value), show), DataRows(sheet.value), 2,
                                               reading, show, parse))
  {
    if role != "admin" then Refused(HttpError(403, "Admin only"))
    else if !EndsWith(filename, ".xlsx") && !EndsWith(filename, ".xls") then
      Refused(HttpError(400, "File must be an Excel file (.xlsx or .xls)"))
    else if sheet.None? then
      Refused(HttpError(400, "Could not read Excel file. Please use the provided template."))
    else
      var headers := Headers(HeaderRow(sheet.value), show);
      var missing := MissingFrom(headers);
      if missing != {} then MissingColumns(missing)
      else Completed(ReportOf(RowOutcomes(headers, DataRows(sheet.value), 2, reading, show, parse)))
  }

  /** The required columns the header row lacks. */
  function MissingFrom(headers: seq<string>): (r: set<string>)
    ensures r <= Required
    ensures forall h :: h in Required ==> (h in r <==> h !in headers)
  {
    set h | h in Required && h !in headers
  }

  /** The response body for the rows' outcomes: the created names and records
      and the errors, with their counts. */
  function ReportOf(os: seq<RowOutcome>): (rep: Report)
    ensures rep.records == CreatedRecords(os) && rep.errors == Errors(os)
    ensures rep.created == Names(rep.records)
    ensures rep.createdCount == |rep.records| && rep.errorCount == |rep.errors|
  {
    var records := CreatedRecords(os);
    var errors := Errors(os);
    Report(Names(records), records, errors, |records|, |errors|)
  }

  function HeaderRow(sheet: seq<seq<Cell>>): seq<Cell> {
    if sheet == [] then [Blank] else sheet[0]
  }

  function DataRows(sheet: seq<seq<Cell>>): seq<seq<Cell>> {
    if sheet == [] then [] else sheet[1..]
  }

  /** The upload as intended. */
  function BulkUpload(role: string, filename: string, sheet: Option<seq<seq<Cell>>>,
                      show: real -> string, parse: string -> Option<real>): Upload {
    BulkUploadWith(role, filename, sheet, Intended, show, parse)
  }

  /** Every data row of a completed upload is accounted for exactly once. */
  lemma UploadAccounting(role: string, filename: string, sheet: Option<seq<seq<Cell>>>, reading: Reading,
                         show: real -> string, parse: string -> Option<real>)
    requires BulkUploadWith(role, filename, sheet, reading, show, parse).Completed?
    ensures var rep := BulkUploadWith(role, filename, sheet, reading, show, parse).report;
            var os := RowOutcomes(Headers(HeaderRow(sheet.value), show), DataRows(sheet.value), 2, reading, show, parse);
            rep.createdCount + rep.errorCount + SkippedCount(os) == |DataRows(sheet.value)|
  {
    var os := RowOutcomes(Headers(HeaderRow(sheet.value), show), DataRows(sheet.value), 2, reading, show, parse);
    RowAccounting(os);
  }

  /** A row the code accepts apart from its location: a non-blank name,
      numbers that convert, and a non-blank description. */
  predicate GoodButLocation(m: map<string, Cell>, parse: string -> Option<real>, show: real -> string) {
    !BlankName(m, show)
    && GetFloat(m, "placement_percentage", parse).Some? && GetFloat(m, "rating", parse).Some?
    && "description" in m && m["description"].Text? && Trim(m["description"].s) != []
  }

  /** The defect, as written: an empty location cell is read as the text
      "None", so the row is created with that location. */
  lemma EmptyLocationAccepted(m: map<string, Cell>, n: int, show: real -> string, parse: string -> Option<real>)
    requires "location" in m && m["location"] == Blank && GoodButLocation(m, parse, show)
    ensures ParseRow(m, n, AsWritten, show, parse).Created?
    ensures ParseRow(m, n, AsWritten, show, parse).record.location == "None"
  {
    var t := ReadTexts(m, AsWritten, show);
    EmptyLocationTexts(m, show);
    var placement := GetFloat(m, "placement_percentage", parse).value;
    var rating := GetFloat(m, "rating", parse).value;
    assert ParseRow(m, n, AsWritten, show, parse) == Finish(m, n, t, placement, rating, show);
  }

  lemma EmptyLocationTexts(m: map<string, Cell>, show: real -> string)
    requires "location" in m && m["location"] == Blank && !BlankName(m, show)
    requires "description" in m && m["description"].Text? && Trim(m["description"].s) != []
    ensures var t := ReadTexts(m, AsWritten, show);
            t.location == "None" && t.name != [] && t.description != []
  {
    TextCellRead(m, "location", AsWritten, show);
    TextCellRead(m, "description", AsWritten, show);
    NoneTextIsTrimmed();
  }

  /** How a present text cell or empty cell of a required column reads. */
  lemma TextCellRead(m: map<string, Cell>, k: string, reading: Reading, show: real -> string)
    requires k in m
    ensures m[k].Text? ==> RequiredText(m, k, reading, show) == m[k].s
    ensures m[k] == Blank && reading == AsWritten ==> RequiredText(m, k, reading, show) == "None"
  {
  }

  /** The text of Python's `None` is its own trim. */
  lemma NoneTextIsTrimmed()
    ensures Trim("None") == "None"
  {
    TrimPlain("None");
  }

  /** As intended, the same row is a "Row n: Missing required fields" error. */
  lemma EmptyLocationRejected(m: map<string, Cell>, n: int, show: real -> string, parse: string -> Option<real>)
    requires "location" in m && m["location"] == Blank && GoodButLocation(m, parse, show)
    ensures ParseRow(m, n, Intended, show, parse) == Failed(MissingRequired(n))
  {
    assert Trim(RequiredText(m, "location", Intended, show)) == [];
  }

  /** As intended, a created row never has a location or description that
      came from an empty cell. */
  lemma IntendedRejectsEmptyRequired(m: map<string, Cell>, n: int, show: real -> string, parse: string -> Option<real>)
    requires ("location" in m && m["location"] == Blank) || ("description" in m && m["description"] == Blank)
    ensures !ParseRow(m, n, Intended, show, parse).Created?
  {
    var t := ReadTexts(m, Intended, show);
    if "location" in m && m["location"] == Blank {
      BlankReadsEmpty(m, "location", show);
    } else {
      BlankReadsEmpty(m, "description", show);
    }
    var p := GetFloat(m, "placement_percentage", parse);
    var q := GetFloat(m, "rating", parse);
    ParseWithNeedsTexts(m, n, BlankName(m, show), p, q, t, show);
    assert ParseRow(m, n, Intended, show, parse) == ParseWith(m, n, BlankName(m, show), p, q, t, show);
  }

  /** Without a location or a description, a row is never created. */
  lemma ParseWithNeedsTexts(m: map<string, Cell>, n: int, blank: bool, placement: Option<real>,
                            rating: Option<real>, t: Texts, show: real -> string)
    requires t.location == [] || t.description == []
    ensures !ParseWith(m, n, blank, placement, rating, t, show).Created?
  {
    if !blank && placement.Some? && rating.Some? {
      FinishNeedsTexts(m, n, t, placement.value, rating.value, show);
    }
  }

  /** As intended, an empty cell reads as the empty text. */
  lemma BlankReadsEmpty(m: map<string, Cell>, k: string, show: real -> string)
    requires k in m && m[k] == Blank
    ensures Trim(RequiredText(m, k, Intended, show)) == []
  {
    assert RequiredText(m, k, Intended, show) == [];
    TrimEmpty();
  }

  /** Without a location or a description, a row is an error. */
  lemma FinishNeedsTexts(m: map<string, Cell>, n: int, t: Texts, placement: real, rating: real,
                         show: real -> string)
    requires t.location == [] || t.description == []
    ensures Finish(m, n, t, placement, rating, show) == Failed(MissingRequired(n))
  {
  }
}

=== FILE: detail_page.dfy ===
/** The public university detail page: the "Courses & Fees" tab groups the
    courses by category, and the overview shows a few courses and photos. */
module DetailPage {
  import opened Lists
  import opened Entities

  /** The group a course is listed under: its category, or "General" when the
      category is empty. */
  function GroupKey(c: Course): (r: string)
    ensures r != []
    ensures c.category != [] ==> r == c.category
  {
    if c.category == [] then "General" else c.category
  }

  function KeyIs(k: string): Course -> bool {
    c => GroupKey(c) == k
  }

  /** The accumulator object of the `reduce`: its keys in insertion order and
      the array stored under each. */
  datatype Acc = Acc(order: seq<string>, groups: map<string, seq<Course>>)

  /** `acc[cat] ||= []; acc[cat].push(course)`. */
  function Push(acc: Acc, c: Course): Acc {
    var k := GroupKey(c);
    if k in acc.groups then Acc(acc.order, acc.groups[k := acc.groups[k] + [c]])
    else Acc(acc.order + [k], acc.groups[k := [c]])
  }

  /** The reduction over the course list: the object's keys are exactly its
      insertion order, without repeats. */
  function Grouped(cs: seq<Course>): (r: Acc)
    ensures Distinct(r.order)
    ensures forall k :: k in r.groups <==> k in r.order
  {
    if cs == [] then Acc([], map[])
    else Push(Grouped(cs[..|cs| - 1]), cs[|cs| - 1])
  }

  /** The group keys in order of first appearance. */
  function Keys(cs: seq<Course>): (r: seq<string>)
    ensures Distinct(r)
    ensures forall c :: c in cs ==> GroupKey(c) in r
    ensures forall k :: k in r ==> exists c :: c in cs && GroupKey(c) == k
  {
    if cs == [] then []
    else
      var init := cs[..|cs| - 1];
      assert forall c :: c in cs ==> c in init || c == cs[|cs| - 1];
      AddIfAbsent(Keys(init), GroupKey(cs[|cs| - 1]))
  }

  /** `Object.entries(...)`: the (category, courses) pairs in key order. */
  function Entries(acc: Acc): (r: seq<(string, seq<Course>)>)
    requires forall k :: k in acc.order ==> k in acc.groups
    ensures |r| == |acc.order|
    ensures forall i :: 0 <= i < |r| ==> r[i] == (acc.order[i], acc.groups[acc.order[i]])
  {
    seq(|acc.order|, i requires 0 <= i < |acc.order| => (acc.order[i], acc.groups[acc.order[i]]))
  }

  /** The groups as displayed. */
  function CourseGroups(cs: seq<Course>): seq<(string, seq<Course>)> {
    Entries(Grouped(cs))
  }

  /** The reduction agrees with its reference definition: one group per
      distinct key, in order of first appearance, holding exactly the courses
      with that key in their original order. */
  lemma {:induction false} GroupedSpec(cs: seq<Course>)
    ensures Grouped(cs).order == Keys(cs)
    ensures forall k :: k in Grouped(cs).groups ==> Grouped(cs).groups[k] == Filter(cs, KeyIs(k))
  {
    if cs != [] {
      var init, c := cs[..|cs| - 1], cs[|cs| - 1];
      assert cs == init + [c];
      GroupedSpec(init);
      var acc := Grouped(init);
      assert forall x :: x in init ==> GroupKey(x) in acc.groups;
      forall j | j in Grouped(cs).groups
        ensures Grouped(cs).groups[j] == Filter(cs, KeyIs(j))
      {
        PushKeepsGroups(acc, init, c, j);
      }
    }
  }

  /** One step of the reduction: when every group of `acc` holds exactly the
      courses of `init` with its key, and every key of `init` has a group, so
      does every group after pushing `c`. */
  lemma PushKeepsGroups(acc: Acc, init: seq<Course>, c: Course, j: string)
    requires forall k :: k in acc.groups ==> acc.groups[k] == Filter(init, KeyIs(k))
    requires forall x :: x in init ==> GroupKey(x) in acc.groups
    requires j in Push(acc, c).groups
    ensures Push(acc, c).groups[j] == Filter(init + [c], KeyIs(j))
  {
    var k := GroupKey(c);
    FilterAppend(init, [c], KeyIs(j));
    assert [c][1..] == [];
    if j != k {
      assert Filter([c], KeyIs(j)) == [];
    } else {
      assert Filter([c], KeyIs(j)) == [c];
      if k !in acc.groups {
        FilterNone(init, KeyIs(k));
      }
    }
  }

  /** Every course is listed under its own key and under no other. */
  lemma ExactlyOneGroup(cs: seq<Course>, c: Course)
    requires c in cs
    ensures GroupKey(c) in Grouped(cs).groups && c in Grouped(cs).groups[GroupKey(c)]
    ensures forall k :: k in Grouped(cs).groups && k != GroupKey(c) ==> c !in Grouped(cs).groups[k]
  {
    GroupedSpec(cs);
  }

  /** Within a group the courses keep their original relative order. */
  lemma GroupKeepsOrder(cs: seq<Course>, k: string)
    requires k in Grouped(cs).groups
    ensures IsSubseq(Grouped(cs).groups[k], cs)
  {
    GroupedSpec(cs);
    FilterIsSubseq(cs, KeyIs(k));
  }

  /** The total size of the groups listed in `order`. */
  function TotalSize(order: seq<string>, groups: map<string, seq<Course>>): nat
    requires forall k :: k in order ==> k in groups
  {
    if order == [] then 0
    else TotalSize(order[..|order| - 1], groups) + |groups[order[|order| - 1]]|
  }

  /** The group sizes add up to the number of courses. */
  lemma {:induction false} GroupSizesSum(cs: seq<Course>)
    ensures TotalSize(Grouped(cs).order, Grouped(cs).groups) == |cs|
  {
    if cs != [] {
      var init, c := cs[..|cs| - 1], cs[|cs| - 1];
      GroupSizesSum(init);
      var acc := Grouped(init);
      var k := GroupKey(c);
      if k in acc.groups {
        TotalSizeGrow(acc.order, acc.groups, k, c);
      } else {
        var g := acc.groups[k := [c]];
        TotalSizeFrame(acc.order, acc.groups, g);
        assert (acc.order + [k])[..|acc.order|] == acc.order;
      }
    }
  }

  /** Sizes of groups outside `order` do not count. */
  lemma {:induction false} TotalSizeFrame(order: seq<string>, g1: map<string, seq<Course>>, g2: map<string, seq<Course>>)
    requires forall k :: k in order ==> k in g1 && k in g2 && g1[k] == g2[k]
    ensures TotalSize(order, g1) == TotalSize(order, g2)
  {
    if order != [] {
      TotalSizeFrame(order[..|order| - 1], g1, g2);
    }
  }

  /** Appending one course to a listed group adds one to the total. */
  lemma {:induction false} TotalSizeGrow(order: seq<string>, groups: map<string, seq<Course>>, k: string, c: Course)
    requires Distinct(order) && k in order
    requires forall j :: j in order ==> j in groups
    ensures TotalSize(order, groups[k := groups[k] + [c]]) == TotalSize(order, groups) + 1
  {
    var g := groups[k := groups[k] + [c]];
    var init, last := order[..|order| - 1], order[|order| - 1];
    assert forall j :: j in init ==> j in order;
    if last == k {
      DistinctLast(order);
      TotalSizeFrame(init, groups, g);
    } else {
      assert k in init;
      TotalSizeGrow(init, groups, k, c);
    }
  }

  /** The fee cell: a lakh amount when the fee is positive, else "N/A". */
  function CourseFeeLabel(c: Course): (r: FeeLabel)
    ensures r.Lakh? <==> c.fees > 0.0
    ensures r.Lakh? ==> r.amount == c.fees
  {
    if c.fees > 0.0 then Lakh(c.fees) else NA
  }

  /** The duration chip: the stored duration, or "N/A" when it is empty. */
  function DurationLabel(c: Course): (r: string)
    ensures r != []
    ensures c.duration != [] ==> r == c.duration
  {
    if c.duration == [] then "N/A" else c.duration
  }

  /** The overview's "Popular Courses": the first two courses at most. */
  function PopularCourses(u: University): (r: seq<Course>)
    ensures |r| <= 2 && r <= u.courses
    ensures |u.courses| >= 2 ==> |r| == 2
    ensures |r| == if |u.courses| < 2 then |u.courses| else 2
  {
    Take(u.courses, 2)
  }

  /** The overview's "Gallery Highlights": the first three photos at most. */
  function GalleryHighlights(u: University): (r: seq<string>)
    ensures |r| <= 3 && r <= u.gallery
    ensures |u.gallery| >= 3 ==> |r| == 3
    ensures |r| == if |u.gallery| < 3 then |u.gallery| else 3
  {
    Take(u.gallery, 3)
  }
}

=== FILE: details_editor.dfy ===
/** The extended-details editor of a university: the course list, photo
    gallery, tag and contact editors, the course category picker, and the
    assembly of the save payload that re-derives tags and categories from the
    course list. */
module DetailsEditor {
  import opened Outcomes
  import opened Text
  import opened Lists
  import opened Entities
  import Popover

  /** A course row while it is being edited: the fee is the stored number or
      the text of the number input. */
  datatype CourseDraft = CourseDraft(
    courseName: string,
    description: string,
    duration: string,
    fees: NumberInput,
    category: string)

  /** The editor starts from the stored courses. */
  function DraftOf(c: Course): CourseDraft {
    CourseDraft(c.courseName, c.description, c.duration, Stored(c.fees), c.category)
  }

  /** The row `addCourse` appends. */
  const BlankCourse := CourseDraft("", "", "", Typed(""), "")

  datatype CourseField = NameField | DescriptionField | DurationField | FeesField | CategoryField

  /** `addCourse`: exactly one blank row at the end. */
  function AddCourse(cs: seq<CourseDraft>): (r: seq<CourseDraft>)
    ensures |r| == |cs| + 1 && r[..|cs|] == cs && r[|cs|] == BlankCourse
  {
    cs + [BlankCourse]
  }

  /** One field of a row replaced by the input's text. */
  function SetField(c: CourseDraft, f: CourseField, v: string): CourseDraft {
    match f
    case NameField => c.(courseName := v)
    case DescriptionField => c.(description := v)
    case DurationField => c.(duration := v)
    case FeesField => c.(fees := Typed(v))
    case CategoryField => c.(category := v)
  }

  /** `updateCourse(i, f, v)`: row `i` changes in field `f` only, every other
      row is untouched. */
  function UpdateCourse(cs: seq<CourseDraft>, i: int, f: CourseField, v: string): (r: seq<CourseDraft>)
    requires 0 <= i < |cs|
    ensures |r| == |cs|
    ensures forall j :: 0 <= j < |cs| && j != i ==> r[j] == cs[j]
    ensures f == NameField ==> r[i] == cs[i].(courseName := v)
    ensures f == DescriptionField ==> r[i] == cs[i].(description := v)
    ensures f == DurationField ==> r[i] == cs[i].(duration := v)
    ensures f == FeesField ==> r[i] == cs[i].(fees := Typed(v))
    ensures f == CategoryField ==> r[i] == cs[i].(category := v)
  {
    cs[i := SetField(cs[i], f, v)]
  }

  /** The tag editor's state after submitting the input box: the trimmed text
      is appended when non-blank and new; the box is cleared only when the
      trimmed text is non-blank. */
  function AddTag(tags: seq<string>, input: string): (r: (seq<string>, string))
    ensures Trim(input) == [] ==> r == (tags, input)
    ensures Trim(input) != [] && Trim(input) in tags ==> r == (tags, "")
    ensures Trim(input) != [] && Trim(input) !in tags ==> r == (tags + [Trim(input)], "")
  {
    var v := Trim(input);
    if v == [] then (tags, input)
    else if v in tags then (tags, "")
    else (tags + [v], "")
  }

  /** Adding tags keeps the tag list free of duplicates and never stores a
      blank tag. */
  lemma AddTagKeepsDistinct(tags: seq<string>, input: string)
    requires Distinct(tags)
    ensures Distinct(AddTag(tags, input).0)
    ensures forall t :: t in AddTag(tags, input).0 && t !in tags ==> t == Trim(input) && t != []
  {
  }

  /** `ContactEditor.update(key, value)`: one key set, the others kept. */
  function UpdateContact(contact: map<string, string>, key: string, value: string): (r: map<string, string>)
    ensures r.Keys == contact.Keys + {key} && r[key] == value
    ensures forall k :: k in contact && k != key ==> r[k] == contact[k]
  {
    contact[key := value]
  }

  /** Gallery upload: the URLs of the files that uploaded, appended in order
      (the list is replaced only when at least one upload succeeded). */
  function AddPhotos(gallery: seq<string>, uploaded: seq<string>): (r: seq<string>)
    ensures gallery <= r && r[|gallery|..] == uploaded
  {
    if |uploaded| > 0 then gallery + uploaded else gallery
  }

  /** The course category picker: opening, closing, and the value it reports. */
  datatype PickerEvent = Press(p: Popover.Pointer) | PickNone | Pick(name: string)

  /** The picker's open flag and the value passed to `onChange`, if any:
      "Select a category..." reports "", a name reports itself, and both close
      the panel. */
  function PickerStep(open: bool, e: PickerEvent): (r: (bool, Option<string>))
    ensures e.Press? ==> r == (Popover.OpenAfter(open, e.p), None)
    ensures e.PickNone? ==> r == (false, Some(""))
    ensures e.Pick? ==> r == (false, Some(e.name))
  {
    match e
    case Press(p) => (Popover.OpenAfter(open, p), None)
    case PickNone => (false, Some(""))
    case Pick(name) => (false, Some(name))
  }

  // ---------------------------------------------------------------------
  // Save payload

  /** The payload sent by "Save Extended Details". */
  datatype Payload = Payload(
    courses: seq<Course>,
    gallery: seq<string>,
    tags: seq<string>,
    categories: seq<string>,
    contact: map<string, string>)

  /** The trimmed non-blank categories of some courses, in order. */
  function StoredCategories(cs: seq<Course>): (r: seq<string>)
    ensures forall x :: x in r <==> exists c :: c in cs && Trim(c.category) == x && x != []
  {
    if cs == [] then []
    else
      var cat := Trim(cs[0].category);
      var rest := StoredCategories(cs[1..]);
      assert forall c :: c in cs <==> c == cs[0] || c in cs[1..];
      if cat != [] then [cat] + rest else rest
  }

  /** A fee input counts as filled when it is a non-zero number or text with a
      non-blank character. */
  predicate FeeFilled(x: NumberInput) {
    match x
    case Stored(v) => v != 0.0
    case Typed(t) => Trim(t) != []
  }

  /** A row is dropped when every field is falsy or whitespace-only. */
  predicate IsBlankDraft(c: CourseDraft) {
    Trim(c.courseName) == [] && Trim(c.description) == [] && Trim(c.duration) == []
    && !FeeFilled(c.fees) && Trim(c.category) == []
  }

  predicate Kept(c: CourseDraft) {
    !IsBlankDraft(c)
  }

  /** The stored form of a kept row: trimmed strings, `parseFloat(fees) || 0`. */
  function CleanCourse(c: CourseDraft, parse: string -> Option<real>): Course {
    Course(Trim(c.courseName), Trim(c.description), Trim(c.duration),
           ParseFloatOrZero(c.fees, parse), Trim(c.category))
  }

  function CleanCourses(cs: seq<CourseDraft>, parse: string -> Option<real>): (r: seq<Course>)
    ensures |r| <= |cs|
  {
    if cs == [] then []
    else if Kept(cs[0]) then [CleanCourse(cs[0], parse)] + CleanCourses(cs[1..], parse)
    else CleanCourses(cs[1..], parse)
  }

  /** The entries of an insertion-ordered set that survive deleting every
      entry of `prior`, in the order they were first inserted. */
  function Survivors(initial: seq<string>, prior: seq<string>): (r: seq<string>)
    ensures Distinct(r)
    ensures forall x :: x in r <==> x in initial && x !in prior
    ensures IsSubseq(r, initial) && InFirstOrder(r, initial)
  {
    var d := Dedup(initial);
    FilterDistinct(d, NotIn(prior));
    FilterIsSubseq(d, NotIn(prior));
    SubseqTransitive(Filter(d, NotIn(prior)), d, initial);
    FilterInFirstOrder(d, initial, NotIn(prior));
    Filter(d, NotIn(prior))
  }

  /** `new Set(initial)`, then delete every old course category, then add every
      current course category in course order: the survivors first, then the
      current categories not among them, in order of first appearance. */
  function MergeCategories(initial: seq<string>, prior: seq<string>, current: seq<string>): (r: seq<string>)
    ensures Distinct(r)
    ensures r == Survivors(initial, prior) + Filter(Dedup(current), NotIn(Survivors(initial, prior)))
    ensures forall x :: x in r <==> (x in initial && x !in prior) || x in current
  {
    AddAll(Survivors(initial, prior), current)
  }

  /** `buildPayload`. */
  function BuildPayload(initialCourses: seq<Course>, courses: seq<CourseDraft>, gallery: seq<string>,
                        tags: seq<string>, categories: seq<string>, contact: map<string, string>,
                        parse: string -> Option<real>): (r: Payload)
    ensures r.gallery == gallery && r.contact == contact
  {
    var prior := StoredCategories(initialCourses);
    var kept := CleanCourses(courses, parse);
    var current := StoredCategories(kept);
    Payload(kept, gallery, MergeCategories(tags, prior, current),
            MergeCategories(categories, prior, current), contact)
  }

  /** Every kept row is stored trimmed with its fee coerced, in order, and a
      row is dropped exactly when it is blank. */
  lemma {:induction false} CleanCoursesSpec(cs: seq<CourseDraft>, parse: string -> Option<real>)
    ensures CleanCourses(cs, parse) == MapClean(Filter(cs, Kept), parse)
    ensures |CleanCourses(cs, parse)| == Count(cs, Kept)
  {
    CleanCoursesMatch(cs, parse);
    CountIsFilterLength(cs, Kept);
  }

  lemma {:induction false} CleanCoursesMatch(cs: seq<CourseDraft>, parse: string -> Option<real>)
    ensures CleanCourses(cs, parse) == MapClean(Filter(cs, Kept), parse)
  {
    if cs != [] {
      CleanCoursesMatch(cs[1..], parse);
      var f := Filter(cs[1..], Kept);
      if Kept(cs[0]) {
        calc {
          CleanCourses(cs, parse);
          [CleanCourse(cs[0], parse)] + CleanCourses(cs[1..], parse);
          [CleanCourse(cs[0], parse)] + MapClean(f, parse);
          { MapCons(cs[0], f, Cleaner(parse)); }
          MapClean([cs[0]] + f, parse);
          { assert Filter(cs, Kept) == [cs[0]] + f; }
          MapClean(Filter(cs, Kept), parse);
        }
      } else {
        assert Filter(cs, Kept) == f;
      }
    }
  }

  /** Cleaning one row, with a fixed reading of numbers. */
  function Cleaner(parse: string -> Option<real>): CourseDraft -> Course {
    c => CleanCourse(c, parse)
  }

  /** Every row cleaned, in order. */
  function MapClean(cs: seq<CourseDraft>, parse: string -> Option<real>): (r: seq<Course>)
    ensures |r| == |cs|
    ensures forall k :: 0 <= k < |cs| ==> r[k] == CleanCourse(cs[k], parse)
  {
    Map(cs, Cleaner(parse))
  }

  /** The trimmed non-blank categories of some rows, in order. */
  function DraftCategories(cs: seq<CourseDraft>): (r: seq<string>)
    ensures forall x :: x in r <==> exists c :: c in cs && Trim(c.category) == x && x != []
  {
    if cs == [] then []
    else
      var cat := Trim(cs[0].category);
      var rest := DraftCategories(cs[1..]);
      assert forall c :: c in cs <==> c == cs[0] || c in cs[1..];
      if cat != [] then [cat] + rest else rest
  }

  /** Cleaning a row does not change its trimmed category, so the categories
      of the stored courses are those of the rows they came from. */
  lemma {:induction false} CategoriesOfClean(cs: seq<CourseDraft>, parse: string -> Option<real>)
    ensures StoredCategories(MapClean(cs, parse)) == DraftCategories(cs)
  {
    if cs != [] {
      assert cs == [cs[0]] + cs[1..];
      MapCons(cs[0], cs[1..], Cleaner(parse));
      TrimIdempotent(cs[0].category);
      CategoriesOfClean(cs[1..], parse);
    }
  }

  /** The save-payload rule for `tags` (and, by the same code, for
      `university_categories`):
      - old course categories are removed unless a kept current row re-adds them;
      - every category of a kept current row is present;
      - entries unrelated to the old course categories are never removed;
      - nothing else appears, nothing appears twice, and the surviving
        original entries come first, in their original order, followed by
        the new categories in the order the kept rows first name them. */
  lemma PayloadTagsSpec(initialCourses: seq<Course>, courses: seq<CourseDraft>, gallery: seq<string>,
                        tags: seq<string>, categories: seq<string>, contact: map<string, string>,
                        parse: string -> Option<real>)
    ensures var r := BuildPayload(initialCourses, courses, gallery, tags, categories, contact, parse);
            && Distinct(r.tags) && Distinct(r.categories)
            && var newCats := Dedup(DraftCategories(Filter(courses, Kept)));
            && var tagsKept := Survivors(tags, StoredCategories(initialCourses));
            && var catsKept := Survivors(categories, StoredCategories(initialCourses));
            && r.tags == tagsKept + Filter(newCats, NotIn(tagsKept))
            && r.categories == catsKept + Filter(newCats, NotIn(catsKept))
            && (forall c :: c in courses && Kept(c) && Trim(c.category) != [] ==>
                  Trim(c.category) in r.tags && Trim(c.category) in r.categories)
            && (forall t :: t in tags && t !in StoredCategories(initialCourses) ==> t in r.tags)
            && (forall t :: t in categories && t !in StoredCategories(initialCourses) ==> t in r.categories)
            && (forall t :: t in r.tags ==>
                  (t in tags && t !in StoredCategories(initialCourses)) ||
                  exists c :: c in courses && Kept(c) && Trim(c.category) == t)
            && (forall t :: t in r.categories ==>
                  (t in categories && t !in StoredCategories(initialCourses)) ||
                  exists c :: c in courses && Kept(c) && Trim(c.category) == t)
  {
    CleanCoursesSpec(courses, parse);
    CategoriesOfClean(Filter(courses, Kept), parse);
  }

  /** The stored courses are the non-blank rows, trimmed, in order. */
  lemma PayloadCoursesSpec(initialCourses: seq<Course>, courses: seq<CourseDraft>, gallery: seq<string>,
                           tags: seq<string>, categories: seq<string>, contact: map<string, string>,
                           parse: string -> Option<real>)
    ensures var r := BuildPayload(initialCourses, courses, gallery, tags, categories, contact, parse);
            && |r.courses| == Count(courses, Kept)
            && r.courses == MapClean(Filter(courses, Kept), parse)
  {
    CleanCoursesSpec(courses, parse);
  }

  /** A row whose strings are all whitespace and whose fee is the number 0
      is dropped. */
  lemma ZeroFeeRowDropped(name: string, description: string, duration: string, category: string)
    requires AllSpace(name) && AllSpace(description) && AllSpace(duration) && AllSpace(category)
    ensures IsBlankDraft(CourseDraft(name, description, duration, Stored(0.0), category))
  {
    TrimBlank(name);
    TrimBlank(description);
    TrimBlank(duration);
    TrimBlank(category);
  }

  /** The typed text "0" is not blank, so it keeps its row (with fee 0 when
      parsed). */
  lemma TypedZeroKept(name: string, description: string, duration: string, category: string)
    ensures Kept(CourseDraft(name, description, duration, Typed("0"), category))
  {
    TrimPlain("0");
  }

  /** Re-categorising the only course swaps its category in the tags: with a
      previous course in `before` (say "Engineering"), the current row in
      `after` (say "Medicine") and tags `before`, `other` (say
      "Scholarship"), the payload's tags are `other` then `after`. */
  lemma RecategorisedCourse(previous: Course, row: CourseDraft, other: string,
                            gallery: seq<string>, categories: seq<string>,
                            contact: map<string, string>, parse: string -> Option<real>)
    requires Plain(previous.category) && Plain(row.category)
    requires previous.category != other && other != row.category
    ensures BuildPayload([previous], [row], gallery, [previous.category, other], categories, contact, parse).tags
            == [other, row.category]
  {
    RecategorisedMerge(previous, row, other, parse);
  }


  lemma RecategorisedMerge(previous: Course, row: CourseDraft, other: string, parse: string -> Option<real>)
    requires Plain(previous.category) && Plain(row.category)
    requires previous.category != other && other != row.category
    ensures MergeCategories([previous.category, other], StoredCategories([previous]),
                            StoredCategories(CleanCourses([row], parse))) == [other, row.category]
  {
    OneStoredCategory(previous);
    OneCleanCategory(row, parse);
    MergeAfterMove(previous.category, other, row.category,
                   StoredCategories([previous]), StoredCategories(CleanCourses([row], parse)));
  }

  /** Tags `a`, `b`, with `a` the only stored category before and `x` the
      only one after: `a` is dropped and `x` added. */
  lemma MergeAfterMove(a: string, b: string, x: string, prior: seq<string>, current: seq<string>)
    requires a != b && b != x && prior == [a] && current == [x]
    ensures MergeCategories([a, b], prior, current) == [b, x]
  {
    DropFirst(a, b, prior);
    MergeOne([a, b], prior, current, [b], x);
  }

  lemma MergeOne(initial: seq<string>, prior: seq<string>, current: seq<string>, survivors: seq<string>, x: string)
    requires Survivors(initial, prior) == survivors && current == [x] && x !in survivors
    ensures MergeCategories(initial, prior, current) == survivors + [x]
  {
    AddOne(survivors, x);
  }

  lemma AddOne(s: seq<string>, x: string)
    requires x !in s
    ensures AddAll(s, [x]) == s + [x]
  {
    assert [x][1..] == [];
  }

  lemma OneStoredCategory(c: Course)
    requires Plain(c.category)
    ensures StoredCategories([c]) == [c.category]
  {
    TrimPlain(c.category);
    assert [c][1..] == [];
  }

  lemma OneCleanCategory(d: CourseDraft, parse: string -> Option<real>)
    requires Plain(d.category)
    ensures StoredCategories(CleanCourses([d], parse)) == [d.category]
  {
    TrimPlain(d.category);
    assert Kept(d);
    assert [d][1..] == [];
    assert CleanCourses([d], parse) == [CleanCourse(d, parse)];
    OneStoredCategory(CleanCourse(d, parse));
  }

  lemma DropFirst(a: string, b: string, prior: seq<string>)
    requires a != b && prior == [a]
    ensures Survivors([a, b], prior) == [b]
  {
    DedupPair(a, b);
    FilterPair(a, b, NotIn(prior));
    assert !NotIn(prior)(a) && NotIn(prior)(b);
  }
}

=== FILE: entities.dfy ===
/** The records the application stores and exchanges (universities, courses,
    the university edit form), and the reading of the legacy single
    `university_category` field that both dashboards share. */
module Entities {
  import opened Outcomes

  /** A course as stored by the server: missing strings read as "". */
  datatype Course = Course(
    courseName: string,
    description: string,
    duration: string,
    fees: real,
    category: string)

  /** A fee as displayed: "N/A", or a lakh amount (`₹x.yL`) whose text
      formatting is not modelled. */
  datatype FeeLabel = NA | Lakh(amount: real)

  /** A university listing as fetched.  `categories` is `None` when
      `university_categories` is absent or not an array; `legacyCategory` is ""
      when the legacy `university_category` field is absent or empty; `state`
      is "" when absent or null. */
  datatype University = University(
    id: string,
    name: string,
    location: string,
    state: string,
    categories: Option<seq<string>>,
    legacyCategory: string,
    mainPhoto: string,
    description: string,
    placement: real,
    rating: real,
    courses: seq<Course>,
    gallery: seq<string>,
    tags: seq<string>,
    contact: map<string, string>)

  /** A numeric form field: either the number loaded from the server, or the
      text the user typed into the input. */
  datatype NumberInput = Stored(value: real) | Typed(text: string)

  /** `parseFloat(x)`: `None` stands for `NaN`.  Parsing typed text is done by
      the supplied `parse`, since number syntax is not part of this model. */
  function ParseFloat(x: NumberInput, parse: string -> Option<real>): Option<real> {
    match x
    case Stored(v) => Some(v)
    case Typed(t) => parse(t)
  }

  /** `parseFloat(x) || 0`: NaN (and zero) become 0. */
  function ParseFloatOrZero(x: NumberInput, parse: string -> Option<real>): (r: real)
    ensures ParseFloat(x, parse).None? ==> r == 0.0
    ensures ParseFloat(x, parse).Some? ==> r == ParseFloat(x, parse).value
  {
    ParseFloat(x, parse).GetOr(0.0)
  }

  /** The category list an edit form starts from:
      `Array.isArray(list) ? list : (legacy ? [legacy] : [])`. */
  function FormCategories(u: University): (r: seq<string>)
    ensures u.categories.Some? ==> r == u.categories.value
    ensures u.categories.None? && u.legacyCategory != "" ==> r == [u.legacyCategory]
    ensures u.categories.None? && u.legacyCategory == "" ==> r == []
  {
    match u.categories
    case Some(list) => list
    case None => if u.legacyCategory != "" then [u.legacyCategory] else []
  }

  /** The category chips a table row shows:
      `list?.length > 0 ? list : [legacy]`, nothing at all when both are empty. */
  function CategoryChips(u: University): (r: seq<string>)
    ensures u.categories.Some? && |u.categories.value| > 0 ==> r == u.categories.value
    ensures !(u.categories.Some? && |u.categories.value| > 0) ==>
              r == (if u.legacyCategory != "" then [u.legacyCategory] else [])
  {
    if u.categories.Some? && |u.categories.value| > 0 then u.categories.value
    else if u.legacyCategory != "" then [u.legacyCategory]
    else []
  }

  /** What is displayed and what is edited differ in exactly one situation: an
      empty category list alongside a non-empty legacy value.  The row then
      shows the legacy value, but the edit form starts with no category. */
  lemma ChipsDifferFromForm(u: University)
    ensures CategoryChips(u) != FormCategories(u) <==>
              u.categories == Some([]) && u.legacyCategory != ""
    ensures u.categories == Some([]) && u.legacyCategory != "" ==>
              CategoryChips(u) == [u.legacyCategory] && FormCategories(u) == []
  {
  }

  /** The university edit form shared by the admin and manager consoles. */
  datatype UniversityForm = UniversityForm(
    name: string,
    location: string,
    state: string,
    categories: seq<string>,
    mainPhoto: string,
    description: string,
    placement: NumberInput,
    rating: NumberInput)

  /** The form loaded from a university (admin "Edit", manager load and
      manager "Cancel" all build this same value). */
  function FormOf(u: University): (f: UniversityForm)
    ensures f.name == u.name && f.location == u.location && f.description == u.description
    ensures f.state == u.state && f.mainPhoto == u.mainPhoto
    ensures f.categories == FormCategories(u)
    ensures f.placement == Stored(u.placement) && f.rating == Stored(u.rating)
  {
    UniversityForm(u.name, u.location, u.state, FormCategories(u), u.mainPhoto,
                   u.description, Stored(u.placement), Stored(u.rating))
  }

  /** The blank form of `resetForm`. */
  const EmptyForm := UniversityForm("", "", "", [], "", "", Typed(""), Typed(""))
}

=== FILE: filter_options.dfy ===
/** The filter-option vocabulary the server offers the listing page: the
    sorted distinct locations and the sorted distinct category names. */
module FilterOptions {
  import opened Text
  import opened Lists
  import opened Entities

  /** Python's string order: lexicographic by character code, a proper prefix
      first. */
  predicate Less(a: string, b: string) {
    if a == [] then b != []
    else b != [] && (a[0] < b[0] || (a[0] == b[0] && Less(a[1..], b[1..])))
  }

  lemma {:induction false} LessIrreflexive(a: string)
    ensures !Less(a, a)
  {
    if a != [] {
      LessIrreflexive(a[1..]);
    }
  }

  lemma {:induction false} LessTransitive(a: string, b: string, c: string)
    requires Less(a, b) && Less(b, c)
    ensures Less(a, c)
  {
    if a != [] && a[0] == b[0] && b[0] == c[0] {
      LessTransitive(a[1..], b[1..], c[1..]);
    }
  }

  /** Any two different strings are ordered one way or the other. */
  lemma {:induction false} LessTotal(a: string, b: string)
    requires a != b
    ensures Less(a, b) || Less(b, a)
  {
    if a != [] && b != [] && a[0] == b[0] {
      assert a == [a[0]] + a[1..] && b == [b[0]] + b[1..];
      LessTotal(a[1..], b[1..]);
    }
  }

  lemma {:induction false} LessAsymmetric(a: string, b: string)
    requires Less(a, b)
    ensures !Less(b, a)
  {
    if a != [] && a[0] == b[0] {
      LessAsymmetric(a[1..], b[1..]);
    }
  }

  /** Strictly increasing, hence free of duplicates. */
  predicate StrictlySorted(s: seq<string>) {
    forall i, j :: 0 <= i < j < |s| ==> Less(s[i], s[j])
  }

  /** Adding `x` to a strictly sorted list, keeping it strictly sorted. */
  function Insert(s: seq<string>, x: string): (r: seq<string>)
    requires StrictlySorted(s)
    ensures StrictlySorted(r)
    ensures forall y :: y in r <==> y in s || y == x
  {
    if s == [] then [x]
    else if x == s[0] then s
    else if Less(x, s[0]) then
      assert forall j :: 0 <= j < |s| ==> Less(x, s[j]) by {
        forall j | 0 <= j < |s| ensures Less(x, s[j]) {
          if j > 0 { LessTransitive(x, s[0], s[j]); }
        }
      }
      [x] + s
    else
      var rest := Insert(s[1..], x);
      assert Less(s[0], x) by { LessTotal(x, s[0]); }
      assert forall y :: y in rest ==> Less(s[0], y) by {
        forall y | y in rest ensures Less(s[0], y) {
          if y != x {
            var j :| 0 <= j < |s[1..]| && s[1..][j] == y;
            assert s[j + 1] == y;
          }
        }
      }
      [s[0]] + rest
  }

  /** `sorted(set(xs))`. */
  function SortedSet(xs: seq<string>): (r: seq<string>)
    ensures StrictlySorted(r)
    ensures forall y :: y in r <==> y in xs
  {
    if xs == [] then []
    else
      var init := xs[..|xs| - 1];
      assert forall y :: y in xs <==> y in init || y == xs[|xs| - 1];
      Insert(SortedSet(init), xs[|xs| - 1])
  }

  /** A strictly sorted list is determined by its elements: `SortedSet` is the
      one sorted listing of the set. */
  lemma {:induction false} SortedListingUnique(a: seq<string>, b: seq<string>)
    requires StrictlySorted(a) && StrictlySorted(b)
    requires forall y :: y in a <==> y in b
    ensures a == b
  {
    NoElements(a);
    NoElements(b);
    if a != [] && b != [] {
      HeadsEqual(a, b);
      TailMembers(a);
      TailMembers(b);
      assert forall y :: y in a[1..] <==> y in b[1..];
      SortedTail(a);
      SortedTail(b);
      SortedListingUnique(a[1..], b[1..]);
      assert a == [a[0]] + a[1..] && b == [b[0]] + b[1..];
    }
  }

  /** Two sorted listings of the same elements start alike. */
  lemma HeadsEqual(a: seq<string>, b: seq<string>)
    requires StrictlySorted(a) && StrictlySorted(b) && a != [] && b != []
    requires forall y :: y in a <==> y in b
    ensures a[0] == b[0]
  {
    assert a[0] in b && b[0] in a;
    var i :| 0 <= i < |a| && a[i] == b[0];
    var j :| 0 <= j < |b| && b[j] == a[0];
    if i > 0 && j > 0 {
      LessAsymmetric(a[0], b[0]);
    }
  }

  /** The head of a sorted listing is not repeated in its tail. */
  lemma TailMembers(s: seq<string>)
    requires StrictlySorted(s) && s != []
    ensures forall y :: y in s <==> y == s[0] || y in s[1..]
    ensures s[0] !in s[1..]
  {
    assert s == [s[0]] + s[1..];
    forall i | 0 <= i < |s| - 1 ensures s[1..][i] != s[0] {
      assert Less(s[0], s[i + 1]);
      LessIrreflexive(s[0]);
    }
  }

  lemma SortedTail(s: seq<string>)
    requires StrictlySorted(s) && s != []
    ensures StrictlySorted(s[1..])
  {
    forall i, j | 0 <= i < j < |s| - 1 ensures Less(s[1..][i], s[1..][j]) {
      assert s[1..][i] == s[i + 1] && s[1..][j] == s[j + 1];
    }
  }

  lemma NoElements(s: seq<string>)
    ensures s == [] <==> forall y :: y !in s
  {
    if s != [] {
      assert s[0] in s;
    }
  }

  /** The result limit on both collection reads. */
  const ReadLimit := 1000

  /** The trimmed, non-blank locations of some universities, in order. */
  function LocationValues(us: seq<University>): (r: seq<string>)
    ensures forall x :: x in r <==> exists u :: u in us && Trim(u.location) == x && x != []
  {
    if us == [] then []
    else
      var t := Trim(us[0].location);
      assert forall u :: u in us <==> u == us[0] || u in us[1..];
      (if t != [] then [t] else []) + LocationValues(us[1..])
  }

  /** The trimmed, non-blank entries of a university's category list and its
      legacy category. */
  function UniversityCategoryValues(u: University): (r: seq<string>)
    ensures forall x :: x in r <==>
      (x in Map(ListOrEmpty(u.categories), Trim) || x == Trim(u.legacyCategory)) && x != []
  {
    TrimmedNonBlank(ListOrEmpty(u.categories)) + (if Trim(u.legacyCategory) != [] then [Trim(u.legacyCategory)] else [])
  }

  function ListOrEmpty(o: Outcomes.Option<seq<string>>): seq<string> {
    match o
    case Some(xs) => xs
    case None => []
  }

  function CategoryValues(us: seq<University>): (r: seq<string>)
    ensures forall x :: x in r <==> exists u :: u in us && x in UniversityCategoryValues(u)
  {
    if us == [] then []
    else
      assert forall u :: u in us <==> u == us[0] || u in us[1..];
      UniversityCategoryValues(us[0]) + CategoryValues(us[1..])
  }

  datatype Options = Options(locations: seq<string>, categories: seq<string>)

  /** `get_university_filter_options`, over the stored universities and the
      names in the category collection (each read capped at 1000 documents). */
  function FilterOptionsOf(universities: seq<University>, categoryNames: seq<string>): (r: Options)
    ensures StrictlySorted(r.locations) && StrictlySorted(r.categories)
    ensures forall x :: x in r.locations <==>
      exists u :: u in Take(universities, ReadLimit) && Trim(u.location) == x && x != []
    ensures forall x :: x in r.categories <==>
      x in Take(categoryNames, ReadLimit) ||
      exists u :: u in Take(universities, ReadLimit) && x in UniversityCategoryValues(u)
  {
    var us := Take(universities, ReadLimit);
    Options(SortedSet(LocationValues(us)),
            SortedSet(Take(categoryNames, ReadLimit) + CategoryValues(us)))
  }

  /** Every offered location is trimmed and non-blank. */
  lemma LocationsTrimmed(universities: seq<University>, categoryNames: seq<string>, x: string)
    requires x in FilterOptionsOf(universities, categoryNames).locations
    ensures x != [] && Trim(x) == x
  {
    var u :| u in Take(universities, ReadLimit) && Trim(u.location) == x && x != [];
    TrimIdempotent(u.location);
  }

  /** Category names from the collection are offered as stored, untrimmed,
      while list and legacy values are offered trimmed. */
  lemma StoredNamesVerbatim(universities: seq<University>, categoryNames: seq<string>, name: string)
    requires name in Take(categoryNames, ReadLimit)
    ensures name in FilterOptionsOf(universities, categoryNames).categories
  {
  }
}

=== FILE: form_payload.dfy ===
/** The university edit form as both consoles send it to the server: the form
    fields as typed, with placement and rating converted by `parseFloat`. The
    administrator console turns an unparsable rating into 0; the manager
    console sends it as it is. A `NaN` travels as JSON `null`, which the
    server then drops as an absent field. */
module FormPayload {
  import opened Outcomes
  import opened Entities
  import opened UniversityUpdate

  datatype SavePayload = SavePayload(
    name: string,
    location: string,
    state: string,
    categories: seq<string>,
    mainPhoto: string,
    description: string,
    placement: Option<real>,
    rating: Option<real>)

  /** `rating: parseFloat(rating) || 0` (administrator) or
      `rating: parseFloat(rating)` (manager). */
  datatype RatingRule = ZeroFallback | NoFallback

  /** `{...formData, placement_percentage: parseFloat(...), rating: ...}`. */
  function PayloadOf(f: UniversityForm, rule: RatingRule, parse: string -> Option<real>): (p: SavePayload)
    ensures p.name == f.name && p.location == f.location && p.state == f.state
    ensures p.categories == f.categories && p.mainPhoto == f.mainPhoto && p.description == f.description
    ensures p.placement == ParseFloat(f.placement, parse)
    ensures rule == ZeroFallback ==> p.rating.Some?
    ensures rule == NoFallback ==> p.rating == ParseFloat(f.rating, parse)
  {
    SavePayload(f.name, f.location, f.state, f.categories, f.mainPhoto, f.description,
                ParseFloat(f.placement, parse),
                match rule
                case ZeroFallback => Some(ParseFloatOrZero(f.rating, parse))
                case NoFallback => ParseFloat(f.rating, parse))
  }

  /** The update the server receives for a payload: every field present
      except a number that was `NaN`. */
  function ChangesOf(p: SavePayload): (c: Changes)
    ensures !NoChanges(c)
    ensures c.placement == p.placement && c.rating == p.rating
    ensures c.courses.None? && c.gallery.None? && c.tags.None? && c.contact.None?
  {
    Changes(Some(p.name), Some(p.location), Some(p.state), Some(p.categories), Some(p.mainPhoto),
            None, Some(p.description), None, p.placement, p.rating, None, None)
  }

  /** Saving an edit form exactly as it was loaded leaves a university that
      already has a category list unchanged, in both consoles. */
  lemma UnchangedSaveIsNoOp(u: University, rule: RatingRule, parse: string -> Option<real>)
    requires u.categories.Some?
    ensures Apply(u, ChangesOf(PayloadOf(FormOf(u), rule, parse))) == u
  {
  }

  /** A university with only the legacy single category gains a category list
      on its first save: the legacy value, or nothing. */
  lemma LegacyCategoryMigrates(u: University, rule: RatingRule, parse: string -> Option<real>)
    requires u.categories.None?
    ensures var after := Apply(u, ChangesOf(PayloadOf(FormOf(u), rule, parse)));
            after.categories == Some(if u.legacyCategory != "" then [u.legacyCategory] else [])
            && after.legacyCategory == u.legacyCategory
  {
  }

  /** A rating field that does not parse: the administrator console stores 0,
      the manager console leaves the stored rating as it was. */
  lemma UnparsableRating(u: University, f: UniversityForm, parse: string -> Option<real>)
    requires ParseFloat(f.rating, parse).None?
    ensures Apply(u, ChangesOf(PayloadOf(f, ZeroFallback, parse))).rating == 0.0
    ensures Apply(u, ChangesOf(PayloadOf(f, NoFallback, parse))).rating == u.rating
  {
  }
}

=== FILE: homepage_editor.dfy ===
/** The admin's homepage editor: the hero configuration, the ordered list of
    background images with its edits, the auto-rotating preview, and the
    slide-interval input. */
module HomepageEditor {
  import opened Outcomes
  import opened Text
  import opened Lists

  /** The hero configuration as the editor holds it. */
  datatype Config = Config(
    heroTitle: string,
    heroTitleHighlight: string,
    heroSubtitle: string,
    ctaText: string,
    backgroundImages: seq<string>,
    slideIntervalMs: real,
    siteName: string,
    logoUrl: string,
    heroTitleColor: string,
    heroHighlightColor: string,
    heroSubtitleColor: string,
    showFooter: bool)

  /** The editor's defaults, used for every field the server does not send. */
  const DefaultConfig := Config(
    "Find Your Perfect",
    "College Match",
    "Explore universities across Uttar Pradesh. Compare courses, fees, and facilities to make the right choice for your future.",
    "Search",
    ["https://images.unsplash.com/photo-1680084521806-b408d976e3e7?crop=entropy&cs=srgb&fm=jpg&q=85",
     "https://images.unsplash.com/photo-1562774053-701939374585?crop=entropy&cs=srgb&fm=jpg&q=85",
     "https://images.unsplash.com/photo-1541339907198-e08756dedf3f?crop=entropy&cs=srgb&fm=jpg&q=85",
     "https://images.unsplash.com/photo-1498243691581-b145c3f54a5a?crop=entropy&cs=srgb&fm=jpg&q=85"],
    5000.0,
    "Edu Dham",
    "",
    "#ffffff",
    "#f97316",
    "#cbd5e1",
    false)

  /** The fields present in the server's reply. */
  datatype ConfigPatch = ConfigPatch(
    heroTitle: Option<string>,
    heroTitleHighlight: Option<string>,
    heroSubtitle: Option<string>,
    ctaText: Option<string>,
    backgroundImages: Option<seq<string>>,
    slideIntervalMs: Option<real>,
    siteName: Option<string>,
    logoUrl: Option<string>,
    heroTitleColor: Option<string>,
    heroHighlightColor: Option<string>,
    heroSubtitleColor: Option<string>,
    showFooter: Option<bool>)

  const NoFields := ConfigPatch(None, None, None, None, None, None, None, None, None, None, None, None)

  /** Every field of a configuration, as a reply that sends all of them. */
  function PatchOf(c: Config): ConfigPatch {
    ConfigPatch(Some(c.heroTitle), Some(c.heroTitleHighlight), Some(c.heroSubtitle), Some(c.ctaText),
                Some(c.backgroundImages), Some(c.slideIntervalMs), Some(c.siteName), Some(c.logoUrl),
                Some(c.heroTitleColor), Some(c.heroHighlightColor), Some(c.heroSubtitleColor),
                Some(c.showFooter))
  }

  /** `{ ...DEFAULT_CONFIG, ...data }`. */
  function Merge(d: Config, p: ConfigPatch): Config {
    Config(p.heroTitle.GetOr(d.heroTitle), p.heroTitleHighlight.GetOr(d.heroTitleHighlight),
           p.heroSubtitle.GetOr(d.heroSubtitle), p.ctaText.GetOr(d.ctaText),
           p.backgroundImages.GetOr(d.backgroundImages), p.slideIntervalMs.GetOr(d.slideIntervalMs),
           p.siteName.GetOr(d.siteName), p.logoUrl.GetOr(d.logoUrl),
           p.heroTitleColor.GetOr(d.heroTitleColor), p.heroHighlightColor.GetOr(d.heroHighlightColor),
           p.heroSubtitleColor.GetOr(d.heroSubtitleColor), p.showFooter.GetOr(d.showFooter))
  }

  /** `fetchConfig` from the configuration `current`: on success the
      defaults, overridden by every field the server sent (a reply with no
      fields leaves the defaults and a complete reply is taken as it is); on
      failure `current` stays. The first load starts from the defaults. */
  function LoadedConfig(current: Config, reply: Result<ConfigPatch>): (r: Config)
    ensures reply.Err? ==> r == current
    ensures reply.Ok? && reply.value == NoFields ==> r == DefaultConfig
    ensures forall c :: reply == Ok(PatchOf(c)) ==> r == c
    ensures reply.Ok? && reply.value.backgroundImages.Some? ==> r.backgroundImages == reply.value.backgroundImages.value
    ensures reply.Ok? && reply.value.backgroundImages.None? ==> r.backgroundImages == DefaultConfig.backgroundImages
  {
    match reply
    case Ok(p) => Merge(DefaultConfig, p)
    case Err(_) => current
  }

  // ---------------------------------------------------------------------
  // Background images

  /** The image list, the preview slide, and the "add URL" input box. */
  datatype Editor = Editor(images: seq<string>, preview: int, newUrl: string)

  /** `updateImage(i, url)` for a row's own index: that entry is replaced and
      nothing else moves. */
  function UpdateImage(images: seq<string>, i: int, url: string): (r: seq<string>)
    requires 0 <= i < |images|
    ensures |r| == |images| && r[i] == url
    ensures forall j :: 0 <= j < |images| && j != i ==> r[j] == images[j]
  {
    images[i := url]
  }

  /** `removeImage(i)`: entry `i` goes, and the preview index is clamped to
      the new last index (`-1` once the list is empty). */
  function RemoveImage(e: Editor, i: int): (r: Editor)
    ensures r.images == RemoveAt(e.images, i) && r.newUrl == e.newUrl
    ensures r.preview <= |r.images| - 1 && (r.preview == e.preview || r.preview == |r.images| - 1)
    ensures e.preview <= |r.images| - 1 ==> r.preview == e.preview
  {
    var imgs := RemoveAt(e.images, i);
    Editor(imgs, if e.preview < |imgs| - 1 then e.preview else |imgs| - 1, e.newUrl)
  }

  /** `moveImage(i, dir)`: swap with the neighbour at `i + dir` when that index
      exists, otherwise nothing changes. */
  function MoveImage(images: seq<string>, i: int, dir: int): (r: seq<string>)
    requires 0 <= i < |images|
    ensures multiset(r) == multiset(images) && |r| == |images|
    ensures 0 <= i + dir < |images| ==> r[i] == images[i + dir] && r[i + dir] == images[i]
    ensures 0 <= i + dir < |images| ==> forall k :: 0 <= k < |images| && k != i && k != i + dir ==> r[k] == images[k]
    ensures !(0 <= i + dir < |images|) ==> r == images
  {
    var target := i + dir;
    if target < 0 || target >= |images| then images else Swap(images, i, target)
  }

  /** Moving an image and then moving it back restores the list. */
  lemma MoveBack(images: seq<string>, i: int, dir: int)
    requires 0 <= i < |images|
    ensures 0 <= i + dir < |images| ==> MoveImage(MoveImage(images, i, dir), i + dir, -dir) == images
  {
    if 0 <= i + dir < |images| {
      var once := MoveImage(images, i, dir);
      var twice := MoveImage(once, i + dir, -dir);
      assert forall k :: 0 <= k < |images| ==> twice[k] == images[k];
    }
  }

  /** `addUrl`: the trimmed text is appended and the box cleared when it is
      non-blank; otherwise nothing changes at all. */
  function AddUrl(e: Editor): (r: Editor)
    ensures Trim(e.newUrl) == [] ==> r == e
    ensures Trim(e.newUrl) != [] ==> r == Editor(e.images + [Trim(e.newUrl)], e.preview, "")
  {
    var trimmed := Trim(e.newUrl);
    if trimmed == [] then e else Editor(e.images + [trimmed], e.preview, "")
  }

  /** The rotation timer exists only while there are two images or more. */
  predicate RotationScheduled(images: seq<string>) {
    |images| >= 2
  }

  /** One rotation tick: the next slide, wrapping to the first. */
  function Tick(e: Editor): (r: Editor)
    requires RotationScheduled(e.images)
    ensures r.images == e.images && r.newUrl == e.newUrl
    ensures 0 <= r.preview < |e.images|
    ensures -1 <= e.preview < |e.images| - 1 ==> r.preview == e.preview + 1
    ensures e.preview == |e.images| - 1 ==> r.preview == 0
  {
    e.(preview := (e.preview + 1) % |e.images|)
  }

  /** From a valid slide, `k` ticks advance it by `k` modulo the number of
      images, however many rounds that takes. */
  lemma {:induction false} TicksCycle(e: Editor, k: nat)
    requires RotationScheduled(e.images) && 0 <= e.preview < |e.images|
    ensures TickN(e, k).preview == (e.preview + k) % |e.images|
  {
    var n := |e.images|;
    if k == 0 {
      assert e.preview % n == e.preview by {
        ModUnique(e.preview, n, 0, e.preview);
      }
    } else {
      TicksCycle(e, k - 1);
      var before := TickN(e, k - 1);
      assert before.images == e.images;
      assert before.preview == (e.preview + k - 1) % n;
      assert TickN(e, k).preview == (before.preview + 1) % n;
      ModStep(e.preview + k - 1, n);
    }
  }

  lemma ModStep(a: int, n: int)
    requires n > 0 && a >= 0
    ensures (a % n + 1) % n == (a + 1) % n
  {
    var q, r := a / n, a % n;
    assert a == q * n + r;
    if r + 1 < n {
      ModUnique(a + 1, n, q, r + 1);
      ModUnique(r + 1, n, 0, r + 1);
    } else {
      assert a + 1 == (q + 1) * n;
      ModUnique(a + 1, n, q + 1, 0);
      ModUnique(n, n, 1, 0);
    }
  }

  /** The remainder is the unique `r` in `[0, n)` with `x == q * n + r`. */
  lemma ModUnique(x: int, n: int, q: int, r: int)
    requires n > 0 && 0 <= r < n && x == q * n + r
    ensures x % n == r
  {
    var q', r' := x / n, x % n;
    var d := q - q';
    assert d * n == q * n - q' * n;
    assert d * n == r' - r;
    if d > 0 {
      MulAtLeast(d, n);
    } else if d < 0 {
      MulAtLeast(-d, n);
    }
  }

  lemma MulAtLeast(d: int, n: int)
    requires d >= 1 && n > 0
    ensures d * n >= n
  {
    assert d * n == n + (d - 1) * n;
  }

  /** `k` ticks in a row. */
  function TickN(e: Editor, k: nat): (r: Editor)
    requires RotationScheduled(e.images)
    ensures r.images == e.images && r.newUrl == e.newUrl
    ensures k > 0 ==> 0 <= r.preview < |e.images|
  {
    if k == 0 then e else Tick(TickN(e, k - 1))
  }

  /** The slide shown in the preview: the current slide, or the first image
      when the current index has no (non-empty) image. */
  function CurrentPreview(e: Editor): (r: Option<string>)
    ensures r.None? <==> |e.images| == 0
    ensures 0 <= e.preview < |e.images| && e.images[e.preview] != [] ==> r == Some(e.images[e.preview])
  {
    if 0 <= e.preview < |e.images| && e.images[e.preview] != [] then Some(e.images[e.preview])
    else if |e.images| > 0 then Some(e.images[0])
    else None
  }

  datatype ImageEdit =
    | UpdateAt(i: int, url: string)
    | RemoveAtIndex(i: int)
    | MoveAt(i: int, dir: int)
    | TypeUrl(text: string)
    | SubmitUrl
    | TimerTick
    | SelectSlide(i: int)
    | Load(reply: Result<ConfigPatch>)

  /** The editor after one edit; row-level edits carry the row's own index,
      and a tick only happens while the timer is scheduled. */
  function Apply(e: Editor, a: ImageEdit): (r: Editor)
    ensures !(a.TypeUrl? || a.SubmitUrl?) ==> r.newUrl == e.newUrl
    ensures !(a.SelectSlide? || a.TimerTick? || a.RemoveAtIndex?) ==> r.preview == e.preview
    ensures a.TypeUrl? || a.SelectSlide? || a.TimerTick? ==> r.images == e.images
    ensures a.MoveAt? ==> multiset(r.images) == multiset(e.images)
    ensures a.SubmitUrl? ==> r.images == e.images || (r.images == e.images + [Trim(e.newUrl)] && Trim(e.newUrl) != [])
  {
    match a
    case UpdateAt(i, url) => if 0 <= i < |e.images| then e.(images := UpdateImage(e.images, i, url)) else e
    case RemoveAtIndex(i) => RemoveImage(e, i)
    case MoveAt(i, dir) => if 0 <= i < |e.images| then e.(images := MoveImage(e.images, i, dir)) else e
    case TypeUrl(text) => e.(newUrl := text)
    case SubmitUrl => AddUrl(e)
    case TimerTick => if RotationScheduled(e.images) then Tick(e) else e
    case SelectSlide(i) => if 0 <= i < |e.images| then e.(preview := i) else e
    case Load(reply) => e.(images := LoadedConfig(DefaultConfig.(backgroundImages := e.images), reply).backgroundImages)
  }

  /** The preview index is at least -1, and it points past the list only
      while the list is empty and the index is 0 or -1. */
  predicate PreviewInRange(e: Editor) {
    -1 <= e.preview && (e.preview < |e.images| || e.preview <= 0)
  }

  /** Every edit keeps the preview index in range, apart from a successful
      load: that replaces the list and leaves the index where the rotation
      over the previous list put it. No edit loses an image except a
      removal, a replacement or a successful load. */
  lemma ApplyKeepsPreviewInRange(e: Editor, a: ImageEdit)
    requires PreviewInRange(e)
    ensures !(a.Load? && a.reply.Ok?) ==> PreviewInRange(Apply(e, a))
    ensures -1 <= Apply(e, a).preview
    ensures a.SelectSlide? && 0 <= a.i < |e.images| && e.images[a.i] != [] ==>
              CurrentPreview(Apply(e, a)) == Some(e.images[a.i])
    ensures !a.RemoveAtIndex? && !a.UpdateAt? && !(a.Load? && a.reply.Ok?) ==>
              multiset(e.images) <= multiset(Apply(e, a).images)
  {
  }

  /** The Reset button reloads: a failed load keeps the edited list, and a
      successful one puts the stored list (or the defaults) in its place. */
  lemma ReloadOutcome(e: Editor, reply: Result<ConfigPatch>)
    ensures reply.Err? ==> Apply(e, Load(reply)) == e
    ensures reply.Ok? && reply.value.backgroundImages.Some? ==>
              Apply(e, Load(reply)).images == reply.value.backgroundImages.value
    ensures reply.Ok? && reply.value.backgroundImages.None? ==>
              Apply(e, Load(reply)).images == DefaultConfig.backgroundImages
    ensures Apply(e, Load(reply)).preview == e.preview && Apply(e, Load(reply)).newUrl == e.newUrl
  {
  }

  /** While the default four images rotate and the stored list has one image,
      the load leaves the index past the end of the list; the preview then
      falls back to the first image until a dot is clicked or the list
      changes. */
  lemma LoadLeavesPreviewPast(x: string)
    requires x != []
    ensures var rotated := TickN(Editor(DefaultConfig.backgroundImages, 0, ""), 3);
            var loaded := Apply(rotated, Load(Ok(NoFields.(backgroundImages := Some([x])))));
            loaded.images == [x] && loaded.preview == 3 && !PreviewInRange(loaded)
            && CurrentPreview(loaded) == Some(x)
  {
    var e := Editor(DefaultConfig.backgroundImages, 0, "");
    TicksCycle(e, 3);
  }

  /** In range, the preview shows an image whenever there is one. */
  lemma PreviewShowsImage(e: Editor)
    requires PreviewInRange(e) && |e.images| > 0
    ensures CurrentPreview(e).Some?
    ensures e.preview >= 0 && e.images[e.preview] != [] ==> CurrentPreview(e) == Some(e.images[e.preview])
  {
  }

  /** The stored interval for a typed number of seconds (`NaN` input is not
      modelled): never below two seconds. */
  function SlideIntervalMs(seconds: real): (r: real)
    ensures r >= 2000.0
    ensures r == seconds * 1000.0 <==> seconds >= 2.0
    ensures seconds < 2.0 ==> r == 2000.0
  {
    if 2000.0 < seconds * 1000.0 then seconds * 1000.0 else 2000.0
  }

  /** The input shows `interval / 1000`; re-entering the shown value stores the
      same interval. */
  lemma SlideIntervalRoundTrip(seconds: real)
    ensures SlideIntervalMs(SlideIntervalMs(seconds) / 1000.0) == SlideIntervalMs(seconds)
  {
  }
}

=== FILE: listing_search.dfy ===
/** The home page's in-memory listing filter: a free-text query, a location
    filter and a category filter applied in turn to the fetched universities,
    plus the "active filters" flag, the minimum-fee label and the parameters of
    the explicit server search. */
module ListingSearch {
  import opened Text
  import opened Lists
  import opened Entities
  import Outcomes

  /** The two select filters; "" and "all" both mean "no filter". */
  datatype Filters = Filters(location: string, category: string)

  /** A filter value that the home page ignores. */
  predicate Inactive(v: string) {
    v == "" || v == "all"
  }

  /** A course matches when its name, description or category contains the
      already lower-cased query. */
  predicate CourseMatches(c: Course, q: string) {
    Contains(Lower(c.courseName), q) || Contains(Lower(c.description), q) || Contains(Lower(c.category), q)
  }

  predicate AnyTagMatches(tags: seq<string>, q: string) {
    tags != [] && (Contains(Lower(tags[0]), q) || AnyTagMatches(tags[1..], q))
  }

  predicate AnyCourseMatches(courses: seq<Course>, q: string) {
    courses != [] && (CourseMatches(courses[0], q) || AnyCourseMatches(courses[1..], q))
  }

  /** The text predicate of the live search, evaluated field by field with
      short-circuiting.  The query is lower-cased but NOT trimmed. */
  predicate MatchesQuery(u: University, query: string) {
    var q := Lower(query);
    Contains(Lower(u.name), q)
    || Contains(Lower(u.location), q)
    || AnyTagMatches(u.tags, q)
    || Contains(Lower(u.description), q)
    || AnyCourseMatches(u.courses, q)
  }

  /** Every text the live search looks at, in the order it looks. */
  function CourseFields(courses: seq<Course>): seq<string> {
    if courses == [] then []
    else [courses[0].courseName, courses[0].description, courses[0].category] + CourseFields(courses[1..])
  }

  function SearchFields(u: University): seq<string> {
    [u.name, u.location] + u.tags + [u.description] + CourseFields(u.courses)
  }

  /** Some text of `fs` contains the lower-cased query `q`, ignoring case. */
  predicate SomeHit(fs: seq<string>, q: string) {
    exists f :: f in fs && Contains(Lower(f), q)
  }

  lemma SomeHitAppend(a: seq<string>, b: seq<string>, q: string)
    ensures SomeHit(a + b, q) <==> SomeHit(a, q) || SomeHit(b, q)
  {
    if SomeHit(a + b, q) {
      var f :| f in a + b && Contains(Lower(f), q);
      assert f in a || f in b;
    }
    if SomeHit(a, q) {
      var f :| f in a && Contains(Lower(f), q);
      assert f in a + b;
    }
    if SomeHit(b, q) {
      var f :| f in b && Contains(Lower(f), q);
      assert f in a + b;
    }
  }

  lemma SomeHitOne(f: string, q: string)
    ensures SomeHit([f], q) <==> Contains(Lower(f), q)
  {
    assert f in [f];
  }

  lemma SomeHitThree(a: string, b: string, c: string, q: string)
    ensures SomeHit([a, b, c], q) <==> Contains(Lower(a), q) || Contains(Lower(b), q) || Contains(Lower(c), q)
  {
    SomeHitOne(a, q);
    SomeHitOne(b, q);
    SomeHitOne(c, q);
    assert [a, b, c] == [a] + [b] + [c];
    SomeHitAppend([a], [b], q);
    SomeHitAppend([a] + [b], [c], q);
  }

  /** The recursive tag search is "some tag contains the query". */
  lemma {:induction false} AnyTagMatchesIff(tags: seq<string>, q: string)
    ensures AnyTagMatches(tags, q) <==> SomeHit(tags, q)
  {
    if tags != [] {
      AnyTagMatchesIff(tags[1..], q);
      SomeHitOne(tags[0], q);
      assert tags == [tags[0]] + tags[1..];
      SomeHitAppend([tags[0]], tags[1..], q);
    }
  }

  /** The recursive course search is "some course text contains the query". */
  lemma {:induction false} AnyCourseMatchesIff(courses: seq<Course>, q: string)
    ensures AnyCourseMatches(courses, q) <==> SomeHit(CourseFields(courses), q)
  {
    if courses != [] {
      AnyCourseMatchesIff(courses[1..], q);
      var c := courses[0];
      SomeHitThree(c.courseName, c.description, c.category, q);
      SomeHitAppend([c.courseName, c.description, c.category], CourseFields(courses[1..]), q);
    }
  }

  /** The field-by-field search is exactly "some searched text contains the
      query, ignoring case". */
  lemma MatchesQueryIffSomeField(u: University, query: string)
    ensures MatchesQuery(u, query) <==> exists f :: f in SearchFields(u) && ContainsIgnoreCase(f, query)
  {
    var q := Lower(query);
    AnyTagMatchesIff(u.tags, q);
    AnyCourseMatchesIff(u.courses, q);
    var cf := CourseFields(u.courses);
    SomeHitOne(u.name, q);
    SomeHitOne(u.location, q);
    SomeHitOne(u.description, q);
    SomeHitAppend([u.name], [u.location], q);
    assert [u.name, u.location] == [u.name] + [u.location];
    SomeHitAppend([u.name, u.location], u.tags, q);
    SomeHitAppend([u.name, u.location] + u.tags, [u.description], q);
    SomeHitAppend([u.name, u.location] + u.tags + [u.description], cf, q);
    assert MatchesQuery(u, query) <==> SomeHit(SearchFields(u), q);
  }

  /** Text step: skipped when the trimmed query is blank. */
  function TextStep(us: seq<University>, query: string): seq<University> {
    if Trim(query) == [] then us else Filter(us, u => MatchesQuery(u, query))
  }

  predicate LocationMatches(u: University, location: string) {
    ContainsIgnoreCase(u.location, location)
  }

  function LocationStep(us: seq<University>, location: string): seq<University> {
    if Inactive(location) then us else Filter(us, u => LocationMatches(u, location))
  }

  predicate InList(list: seq<string>, cat: string) {
    list != [] && (Lower(list[0]) == cat || InList(list[1..], cat))
  }

  /** Exact (case-insensitive) membership in the category list, or a
      case-insensitive substring of the legacy field. */
  predicate CategoryMatches(u: University, category: string) {
    var cat := Lower(category);
    (u.categories.Some? && InList(u.categories.value, cat)) || Contains(Lower(u.legacyCategory), cat)
  }

  function CategoryStep(us: seq<University>, category: string): seq<University> {
    if Inactive(category) then us else Filter(us, u => CategoryMatches(u, category))
  }


  predicate TextOk(u: University, query: string) {
    Trim(query) == [] || MatchesQuery(u, query)
  }

  predicate LocationOk(u: University, location: string) {
    Inactive(location) || LocationMatches(u, location)
  }

  predicate CategoryOk(u: University, category: string) {
    Inactive(category) || CategoryMatches(u, category)
  }

  /** Whether one university passes all three steps. */
  predicate Passes(u: University, query: string, f: Filters) {
    TextOk(u, query) && LocationOk(u, f.location) && CategoryOk(u, f.category)
  }

  function TextOkPred(query: string): University -> bool {
    u => TextOk(u, query)
  }

  function LocationOkPred(location: string): University -> bool {
    u => LocationOk(u, location)
  }

  function CategoryOkPred(category: string): University -> bool {
    u => CategoryOk(u, category)
  }

  function TextLocationPred(query: string, location: string): University -> bool {
    u => TextOk(u, query) && LocationOk(u, location)
  }

  function PassesPred(query: string, f: Filters): University -> bool {
    u => Passes(u, query, f)
  }

  lemma TextStepIsFilter(us: seq<University>, query: string)
    ensures TextStep(us, query) == Filter(us, TextOkPred(query))
  {
    if Trim(query) == [] {
      FilterAll(us, TextOkPred(query));
    } else {
      FilterExt(us, u => MatchesQuery(u, query), TextOkPred(query));
    }
  }

  lemma LocationStepIsFilter(us: seq<University>, location: string)
    ensures LocationStep(us, location) == Filter(us, LocationOkPred(location))
  {
    if Inactive(location) {
      FilterAll(us, LocationOkPred(location));
    } else {
      FilterExt(us, u => LocationMatches(u, location), LocationOkPred(location));
    }
  }

  lemma CategoryStepIsFilter(us: seq<University>, category: string)
    ensures CategoryStep(us, category) == Filter(us, CategoryOkPred(category))
  {
    if Inactive(category) {
      FilterAll(us, CategoryOkPred(category));
    } else {
      FilterExt(us, u => CategoryMatches(u, category), CategoryOkPred(category));
    }
  }

  /** The `filteredUniversities` memo: text, then location, then category.
      The three steps compose by AND, so its result is an order-preserving
      subsequence of the fetched list that holds exactly the universities
      passing every active step. */
  function Filtered(us: seq<University>, query: string, f: Filters): (r: seq<University>)
    ensures r == Filter(us, PassesPred(query, f))
    ensures IsSubseq(r, us)
    ensures forall u :: u in r <==> u in us && Passes(u, query, f)
  {
    StepsCompose(us, query, f);
    FilterIsSubseq(us, PassesPred(query, f));
    CategoryStep(LocationStep(TextStep(us, query), f.location), f.category)
  }

  lemma StepsCompose(us: seq<University>, query: string, f: Filters)
    ensures CategoryStep(LocationStep(TextStep(us, query), f.location), f.category) == Filter(us, PassesPred(query, f))
  {
    var s1 := TextStep(us, query);
    var s2 := LocationStep(s1, f.location);
    assert s2 == Filter(us, TextLocationPred(query, f.location)) by {
      TextStepIsFilter(us, query);
      LocationStepIsFilter(s1, f.location);
      FilterTwice(us, TextOkPred(query), LocationOkPred(f.location), TextLocationPred(query, f.location));
    }
    CategoryStepIsFilter(s2, f.category);
    FilterTwice(us, TextLocationPred(query, f.location), CategoryOkPred(f.category), PassesPred(query, f));
  }

  /** The guard trims the query but the match does not: surrounding spaces
      are part of the searched text, so " mba" misses a university named "MBA". */
  lemma UntrimmedQueryExample()
    ensures Trim(" mba") != []
    ensures Filtered([MbaCollege()], " mba", Filters("", "")) == []
  {
    TrimMba();
    MbaCollegeMisses();
    assert TextStep([MbaCollege()], " mba") == [];
  }

  /** A university whose only searched texts are "MBA" and "Agra". */
  function MbaCollege(): University {
    University("1", "MBA", "Agra", "", Outcomes.None, "", "", "", 0.0, 0.0, [], [], [], map[])
  }

  lemma TrimMba()
    ensures Trim(" mba") == "mba"
  {
    var m := "mba";
    assert !IsSpace(m[0]) && !IsSpace(m[2]);
    assert " mba"[1..] == m;
    assert TrimStart(m) == m;
    assert TrimStart(" mba") == m;
    assert TrimEnd(m) == m;
  }

  lemma MbaCollegeMisses()
    ensures !MatchesQuery(MbaCollege(), " mba")
  {
    var q := Lower(" mba");
    assert |q| == 4;
    var l := Lower("Agra");
    assert l[0] == 'a' && q[0] == ' ';
    MissesWith(MbaCollege(), " mba", q, Lower("MBA"), l);
  }

  /** A university with no tags, no courses and no description misses a
      query longer than its name and as long as, but different from, its
      location. */
  lemma MissesWith(u: University, query: string, q: string, name: string, location: string)
    requires Lower(query) == q && Lower(u.name) == name && Lower(u.location) == location
    requires u.tags == [] && u.courses == [] && u.description == []
    requires |name| < |q| && |location| == |q| && location != q
    ensures !MatchesQuery(u, query)
  {
    NotContainsLonger(name, q);
    NotContainsAt(location, q);
    NotContainsLonger(Lower([]), q);
  }

  lemma NotContainsLonger(s: string, sub: string)
    requires |s| < |sub|
    ensures !Contains(s, sub)
  {
    ContainsAt(s, sub);
  }

  lemma NotContainsAt(s: string, sub: string)
    requires |s| == |sub| && s != sub
    ensures !Contains(s, sub)
  {
    ContainsAt(s, sub);
    assert s[0..|sub|] == s;
  }

  /** `hasActiveFilters`: some filter is set to a value other than "", "all"
      and "0", or the trimmed query is non-blank. */
  predicate HasActiveFilters(f: Filters, query: string) {
    (exists v :: v in [f.location, f.category] && v != "" && v != "all" && v != "0")
    || Trim(query) != []
  }

  /** `clearAllFilters`: both filters and the query back to "". */
  function ClearAllFilters(): (r: (Filters, string))
    ensures !HasActiveFilters(r.0, r.1)
  {
    (Filters("", ""), "")
  }

  /** Without an active filter the memo returns the whole fetched list, except
      for the one value the flag ignores but the location and category filters
      do not: "0" hides the banner while still filtering. */
  lemma InactiveShowsAll(us: seq<University>, f: Filters, query: string)
    requires !HasActiveFilters(f, query)
    requires f.location != "0" && f.category != "0"
    ensures Filtered(us, query, f) == us
  {
    assert f.location in [f.location, f.category];
    assert f.category in [f.location, f.category];
    FilterAll(us, PassesPred(query, f));
  }

  /** The smallest strictly positive fee, if any. */
  function MinPositiveFee(courses: seq<Course>): (r: Outcomes.Option<real>)
    ensures r.None? <==> forall c :: c in courses ==> c.fees <= 0.0
    ensures r.Some? ==> r.value > 0.0 && exists c :: c in courses && c.fees == r.value
    ensures r.Some? ==> forall c :: c in courses && c.fees > 0.0 ==> r.value <= c.fees
  {
    if courses == [] then Outcomes.None
    else
      var rest := MinPositiveFee(courses[1..]);
      var f := courses[0].fees;
      if f <= 0.0 then rest
      else if rest.None? || f < rest.value then Outcomes.Some(f)
      else rest
  }

  /** `getMinFee`: "N/A" for no courses or no positive fee, else the minimum
      of the strictly positive fees. */
  function MinFee(courses: seq<Course>): (r: FeeLabel)
    ensures r.NA? <==> forall c :: c in courses ==> c.fees <= 0.0
    ensures r.Lakh? ==> r.amount > 0.0 && exists c :: c in courses && c.fees == r.amount
    ensures r.Lakh? ==> forall c :: c in courses && c.fees > 0.0 ==> r.amount <= c.fees
  {
    if courses == [] then NA
    else match MinPositiveFee(courses)
      case None => NA
      case Some(m) => Lakh(m)
  }

  /** Fees 0, 150000 and 90000 give the 90000 (0.9 lakh) label. */
  lemma MinFeeExample()
    ensures MinFee([Course("A", "", "", 0.0, ""), Course("B", "", "", 150000.0, ""),
                    Course("C", "", "", 90000.0, "")]) == Lakh(90000.0)
  {
  }

  /** The query parameters of the explicit server search: each truthy filter,
      plus `search` when the raw query is non-empty. */
  function CleanFilters(f: Filters, query: string): (r: map<string, string>)
    ensures r.Keys <= {"location", "category", "search"}
    ensures "location" in r <==> f.location != ""
    ensures "category" in r <==> f.category != ""
    ensures "search" in r <==> query != ""
    ensures "location" in r ==> r["location"] == f.location
    ensures "category" in r ==> r["category"] == f.category
    ensures "search" in r ==> r["search"] == query
  {
    var withLocation := if f.location != "" then map["location" := f.location] else map[];
    var withCategory := if f.category != "" then withLocation["category" := f.category] else withLocation;
    if query != "" then withCategory["search" := query] else withCategory
  }

  /** A query parameter as the request carries it, `""` when absent. */
  function ParamOr(m: map<string, string>, k: string): string {
    if k in m then m[k] else ""
  }

  /** The filters and search text a parameter map stands for. */
  function ReadFilters(m: map<string, string>): (Filters, string) {
    (Filters(ParamOr(m, "location"), ParamOr(m, "category")), ParamOr(m, "search"))
  }

  /** Dropping the empty filters loses nothing: the parameters sent read back
      as the filters and the query they came from. */
  lemma CleanFiltersRoundTrip(f: Filters, query: string)
    ensures ReadFilters(CleanFilters(f, query)) == (f, query)
  {
  }
}

=== FILE: lists.dfy ===
/** Generic sequence operations behind the application's list edits:
    `Array.prototype.filter`, index removal, adjacent swaps, and the
    insertion-ordered `Set` that JavaScript code builds with `new Set(...)`. */
module Lists {

  /** `s.filter(p)`: the elements satisfying `p`, in their original order. */
  function Filter<T(!new)>(s: seq<T>, p: T -> bool): (r: seq<T>)
    ensures |r| <= |s|
    ensures forall x :: x in r <==> x in s && p(x)
    ensures forall k :: 0 <= k < |r| ==> p(r[k])
  {
    if s == [] then []
    else (if p(s[0]) then [s[0]] else []) + Filter(s[1..], p)
  }

  /** `s.map(f)`. */
  function Map<T, U>(s: seq<T>, f: T -> U): (r: seq<U>)
    ensures |r| == |s| && forall i :: 0 <= i < |s| ==> r[i] == f(s[i])
  {
    seq(|s|, i requires 0 <= i < |s| => f(s[i]))
  }

  /** Mapping over one element in front of a sequence. */
  lemma MapCons<T, U>(x: T, s: seq<T>, f: T -> U)
    ensures Map([x] + s, f) == [f(x)] + Map(s, f)
  {
    var l := Map([x] + s, f);
    var r := [f(x)] + Map(s, f);
    forall i | 0 <= i < |l|
      ensures l[i] == r[i]
    {
      if i > 0 {
        assert ([x] + s)[i] == s[i - 1];
      }
    }
  }

  /** The values of a map are the images of the elements. */
  lemma MapMembers<T, U>(s: seq<T>, f: T -> U)
    ensures forall x :: x in s ==> f(x) in Map(s, f)
    ensures forall y :: y in Map(s, f) ==> exists x :: x in s && f(x) == y
  {
    var r := Map(s, f);
    forall x | x in s ensures f(x) in r {
      var i :| 0 <= i < |s| && s[i] == x;
      assert r[i] == f(x);
    }
    forall y | y in r ensures exists x :: x in s && f(x) == y {
      var i :| 0 <= i < |r| && r[i] == y;
      assert s[i] in s;
    }
  }

  /** `a` is `b` with some elements left out, the rest kept in order. */
  predicate IsSubseq<T(==,!new)>(a: seq<T>, b: seq<T>)
    decreases |b|
  {
    a == [] || (b != [] && ((a[0] == b[0] && IsSubseq(a[1..], b[1..])) || IsSubseq(a, b[1..])))
  }

  /** A filter never reorders: its result is a subsequence of its input. */
  lemma {:induction false} FilterIsSubseq<T(!new)>(s: seq<T>, p: T -> bool)
    ensures IsSubseq(Filter(s, p), s)
  {
    if s != [] {
      FilterIsSubseq(s[1..], p);
      var r := Filter(s, p);
      if p(s[0]) {
        assert r[0] == s[0] && r[1..] == Filter(s[1..], p);
      } else {
        assert r == Filter(s[1..], p);
      }
    }
  }

  /** Subsequences compose: filtering a subsequence gives a subsequence. */
  lemma {:induction false} SubseqTransitive<T(!new)>(a: seq<T>, b: seq<T>, c: seq<T>)
    requires IsSubseq(a, b) && IsSubseq(b, c)
    ensures IsSubseq(a, c)
    decreases |c|
  {
    if a != [] {
      assert c != [];
      if b[0] == c[0] && IsSubseq(b[1..], c[1..]) {
        if a[0] == b[0] && IsSubseq(a[1..], b[1..]) {
          SubseqTransitive(a[1..], b[1..], c[1..]);
        } else {
          SubseqTransitive(a, b[1..], c[1..]);
        }
      } else {
        SubseqTransitive(a, b, c[1..]);
      }
    }
  }

  /** A filter that every element passes changes nothing. */
  lemma {:induction false} FilterAll<T(!new)>(s: seq<T>, p: T -> bool)
    ensures (forall x :: x in s ==> p(x)) ==> Filter(s, p) == s
  {
    if s != [] {
      assert forall x :: x in s[1..] ==> x in s;
      FilterAll(s[1..], p);
      assert s == [s[0]] + s[1..];
    }
  }

  /** A filter that no element passes leaves nothing. */
  lemma {:induction false} FilterNone<T(!new)>(s: seq<T>, p: T -> bool)
    ensures (forall x :: x in s ==> !p(x)) ==> Filter(s, p) == []
  {
    if s != [] && forall x :: x in s ==> !p(x) {
      FilterNone(s[1..], p);
    }
  }

  /** Filters by pointwise-equal predicates agree. */
  lemma {:induction false} FilterExt<T(!new)>(s: seq<T>, p: T -> bool, q: T -> bool)
    requires forall x :: p(x) == q(x)
    ensures Filter(s, p) == Filter(s, q)
  {
    if s != [] {
      FilterExt(s[1..], p, q);
    }
  }

  /** Filtering distributes over concatenation. */
  lemma {:induction false} FilterAppend<T(!new)>(s: seq<T>, t: seq<T>, p: T -> bool)
    ensures Filter(s + t, p) == Filter(s, p) + Filter(t, p)
  {
    if s != [] {
      assert (s + t)[0] == s[0];
      assert (s + t)[1..] == s[1..] + t;
      FilterAppend(s[1..], t, p);
    } else {
      assert s + t == t;
    }
  }

  /** Two filters in a row are one filter by the conjunction. */
  lemma {:induction false} FilterTwice<T(!new)>(s: seq<T>, p: T -> bool, q: T -> bool, pq: T -> bool)
    requires forall x :: pq(x) == (p(x) && q(x))
    ensures Filter(Filter(s, p), q) == Filter(s, pq)
  {
    if s != [] {
      FilterTwice(s[1..], p, q, pq);
      var fp := Filter(s, p);
      assert pq(s[0]) == (p(s[0]) && q(s[0]));
      if p(s[0]) {
        assert fp == [s[0]] + Filter(s[1..], p);
        assert fp[1..] == Filter(s[1..], p);
        assert Filter(fp, q) == (if q(s[0]) then [s[0]] else []) + Filter(fp[1..], q);
      } else {
        assert fp == Filter(s[1..], p);
      }
    }
  }

  /** The number of elements satisfying `p`. */
  /** A filter keeps every occurrence of an element it accepts and none of
      one it rejects. */
  lemma {:induction false} FilterMultiset<T(!new)>(s: seq<T>, p: T -> bool)
    ensures forall x :: multiset(Filter(s, p))[x] == if p(x) then multiset(s)[x] else 0
  {
    if s != [] {
      FilterMultiset(s[1..], p);
      assert s == [s[0]] + s[1..];
      var head := if p(s[0]) then [s[0]] else [];
      assert Filter(s, p) == head + Filter(s[1..], p);
      assert multiset(Filter(s, p)) == multiset(head) + multiset(Filter(s[1..], p));
      assert multiset(s) == multiset([s[0]]) + multiset(s[1..]);
    }
  }

  function Count<T(!new)>(s: seq<T>, p: T -> bool): nat {
    if s == [] then 0 else (if p(s[0]) then 1 else 0) + Count(s[1..], p)
  }

  lemma {:induction false} CountIsFilterLength<T(!new)>(s: seq<T>, p: T -> bool)
    ensures Count(s, p) == |Filter(s, p)|
  {
    if s != [] {
      CountIsFilterLength(s[1..], p);
    }
  }

  /** `s.filter((_, j) => j !== i)`: drop index `i`; an index out of range drops nothing. */
  function RemoveAt<T(!new)>(s: seq<T>, i: int): (r: seq<T>)
    ensures 0 <= i < |s| ==> |r| == |s| - 1
    ensures 0 <= i < |s| ==> forall j :: 0 <= j < i ==> r[j] == s[j]
    ensures 0 <= i < |s| ==> forall j :: i <= j < |r| ==> r[j] == s[j + 1]
    ensures !(0 <= i < |s|) ==> r == s
  {
    if 0 <= i < |s| then s[..i] + s[i + 1..] else s
  }

  /** `[s[i], s[j]] = [s[j], s[i]]`. */
  function Swap<T(!new)>(s: seq<T>, i: int, j: int): (r: seq<T>)
    requires 0 <= i < |s| && 0 <= j < |s|
    ensures |r| == |s| && r[i] == s[j] && r[j] == s[i]
    ensures forall k :: 0 <= k < |s| && k != i && k != j ==> r[k] == s[k]
    ensures multiset(r) == multiset(s)
  {
    s[i := s[j]][j := s[i]]
  }

  /** The first `n` elements, or all of them: `to_list(n)`, `slice(0, n)`. */
  function Take<T(!new)>(s: seq<T>, n: nat): (r: seq<T>)
    ensures |r| == if |s| < n then |s| else n
    ensures r == s[..|r|]
  {
    if |s| <= n then s else s[..n]
  }

  /** No element occurs twice. */
  predicate Distinct<T(==,!new)>(s: seq<T>) {
    forall i, j :: 0 <= i < j < |s| ==> s[i] != s[j]
  }

  /** The last element of a duplicate-free list does not occur before it. */
  lemma DistinctLast<T(!new)>(s: seq<T>)
    requires Distinct(s) && s != []
    ensures s[|s| - 1] !in s[..|s| - 1]
  {
    var init := s[..|s| - 1];
    forall i | 0 <= i < |init| ensures init[i] != s[|s| - 1] {
      assert init[i] == s[i];
    }
  }

  /** `set.delete(x)` on an insertion-ordered set (also `s.filter(c => c !== x)`). */
  function RemoveAll<T(==,!new)>(s: seq<T>, x: T): (r: seq<T>)
    ensures x !in r
    ensures forall y :: y != x ==> (y in r <==> y in s)
    ensures Distinct(s) ==> Distinct(r)
    ensures IsSubseq(r, s)
    ensures |r| == |s| - multiset(s)[x]
  {
    FilterIsSubseq(s, y => y != x);
    FilterDistinct(s, y => y != x);
    FilterOutCount(s, x);
    Filter(s, y => y != x)
  }

  /** Filtering out `x` removes exactly its occurrences. */
  lemma {:induction false} FilterOutCount<T(!new)>(s: seq<T>, x: T)
    ensures |Filter(s, y => y != x)| == |s| - multiset(s)[x]
  {
    if s != [] {
      FilterOutCount(s[1..], x);
      assert s == [s[0]] + s[1..];
      assert multiset(s) == multiset([s[0]]) + multiset(s[1..]);
    }
  }

  /** Removing an element that was appended to a list without it gives the
      list back. */
  lemma RemoveAllAppended<T(!new)>(s: seq<T>, x: T)
    requires x !in s
    ensures RemoveAll(s + [x], x) == s
  {
    var p := y => y != x;
    FilterAppend(s, [x], p);
    FilterAll(s, p);
    assert [x][1..] == [];
  }

  lemma {:induction false} FilterDistinct<T(!new)>(s: seq<T>, p: T -> bool)
    ensures Distinct(s) ==> Distinct(Filter(s, p))
  {
    if s != [] && Distinct(s) {
      assert Distinct(s[1..]);
      FilterDistinct(s[1..], p);
      assert s[0] !in s[1..];
    }
  }

  /** `set.add(x)` on an insertion-ordered set: appended only when absent. */
  function AddIfAbsent<T(==,!new)>(s: seq<T>, x: T): (r: seq<T>)
    ensures x in r
    ensures forall y :: y in r <==> y in s || y == x
    ensures Distinct(s) ==> Distinct(r)
    ensures s <= r
  {
    if x in s then s else s + [x]
  }

  /** The position of the first `x` in `s`, or `|s|` when there is none. */
  function IndexOf<T(==,!new)>(s: seq<T>, x: T): (r: nat)
    ensures r <= |s|
    ensures r < |s| <==> x in s
    ensures r < |s| ==> s[r] == x
    ensures x !in s[..r]
  {
    if s == [] then 0
    else if s[0] == x then 0
    else
      var r := 1 + IndexOf(s[1..], x);
      assert s[..r] == [s[0]] + s[1..][..r - 1];
      r
  }

  /** Appending leaves the first position of an element already present. */
  lemma {:induction false} IndexOfAppend<T(!new)>(s: seq<T>, t: seq<T>, x: T)
    ensures x in s ==> IndexOf(s + t, x) == IndexOf(s, x)
    ensures x !in s ==> IndexOf(s + t, x) == |s| + IndexOf(t, x)
  {
    if s != [] {
      assert (s + t)[0] == s[0] && (s + t)[1..] == s[1..] + t;
      IndexOfAppend(s[1..], t, x);
    } else {
      assert s + t == t;
    }
  }

  /** The elements of `r` come in the order of their first occurrences in `s`. */
  predicate InFirstOrder<T(==,!new)>(r: seq<T>, s: seq<T>) {
    forall i, j :: 0 <= i < j < |r| ==> IndexOf(s, r[i]) < IndexOf(s, r[j])
  }

  /** A subsequence grows by a common last element, and survives one
      appended to the longer sequence alone. */
  lemma {:induction false} SubseqSnoc<T(!new)>(a: seq<T>, b: seq<T>, x: T)
    requires IsSubseq(a, b)
    ensures IsSubseq(a, b + [x]) && IsSubseq(a + [x], b + [x])
    decreases |b|
  {
    var bx := b + [x];
    if b == [] {
      assert a == [] && bx == [x] && bx[1..] == [];
      assert ([] + [x])[1..] == [];
    } else {
      assert bx[0] == b[0] && bx[1..] == b[1..] + [x];
      if a == [] {
        SubseqSnoc(a, b[1..], x);
      } else if a[0] == b[0] && IsSubseq(a[1..], b[1..]) {
        SubseqSnoc(a[1..], b[1..], x);
        assert (a + [x])[0] == a[0] && (a + [x])[1..] == a[1..] + [x];
      } else {
        SubseqSnoc(a, b[1..], x);
      }
    }
  }

  /** `Array.from(new Set(s))`: the distinct elements in order of first occurrence. */
  function Dedup<T(==,!new)>(s: seq<T>): (r: seq<T>)
    ensures Distinct(r)
    ensures forall x :: x in r <==> x in s
    ensures IsSubseq(r, s)
    ensures InFirstOrder(r, s)
  {
    if s == [] then []
    else
      var init := s[..|s| - 1];
      assert s == init + [s[|s| - 1]];
      DedupStep(init, s[|s| - 1], Dedup(init));
      AddIfAbsent(Dedup(init), s[|s| - 1])
  }

  /** Adding the next element keeps the order of first occurrences. */
  lemma DedupStep<T(!new)>(init: seq<T>, x: T, d: seq<T>)
    requires forall y :: y in d <==> y in init
    requires IsSubseq(d, init) && InFirstOrder(d, init)
    ensures IsSubseq(AddIfAbsent(d, x), init + [x]) && InFirstOrder(AddIfAbsent(d, x), init + [x])
  {
    var s := init + [x];
    var r := AddIfAbsent(d, x);
    SubseqSnoc(d, init, x);
    forall y | y in init ensures IndexOf(s, y) == IndexOf(init, y) {
      IndexOfAppend(init, [x], y);
    }
    if x !in init {
      IndexOfAppend(init, [x], x);
      assert r == d + [x];
      forall i, j | 0 <= i < j < |r| ensures IndexOf(s, r[i]) < IndexOf(s, r[j]) {
        assert r[i] == d[i] && r[i] in init;
      }
    } else {
      assert r == d;
    }
  }

  /** Filtering keeps the order of first occurrences. */
  lemma {:induction false} FilterInFirstOrder<T(!new)>(d: seq<T>, s: seq<T>, p: T -> bool)
    requires InFirstOrder(d, s)
    ensures InFirstOrder(Filter(d, p), s)
  {
    if d != [] {
      var tail := d[1..];
      InFirstOrderTail(d, s);
      FilterInFirstOrder(tail, s, p);
      var f := Filter(tail, p);
      if p(d[0]) {
        assert Filter(d, p) == [d[0]] + f;
        InFirstOrderCons(d[0], f, s);
      } else {
        assert Filter(d, p) == f;
      }
    }
  }

  /** Below the head of an ordered sequence: the rest is ordered, and every
      element of it first occurs after the head does. */
  lemma InFirstOrderTail<T(!new)>(d: seq<T>, s: seq<T>)
    requires d != [] && InFirstOrder(d, s)
    ensures InFirstOrder(d[1..], s)
    ensures forall y :: y in d[1..] ==> IndexOf(s, d[0]) < IndexOf(s, y)
  {
    var tail := d[1..];
    forall i, j | 0 <= i < j < |tail| ensures IndexOf(s, tail[i]) < IndexOf(s, tail[j]) {
      assert tail[i] == d[i + 1] && tail[j] == d[j + 1];
    }
    forall y | y in tail ensures IndexOf(s, d[0]) < IndexOf(s, y) {
      var k :| 0 <= k < |tail| && tail[k] == y;
      assert d[k + 1] == y;
    }
  }

  lemma InFirstOrderCons<T(!new)>(x: T, f: seq<T>, s: seq<T>)
    requires InFirstOrder(f, s)
    requires forall y :: y in f ==> IndexOf(s, x) < IndexOf(s, y)
    ensures InFirstOrder([x] + f, s)
  {
    var r := [x] + f;
    forall i, j | 0 <= i < j < |r| ensures IndexOf(s, r[i]) < IndexOf(s, r[j]) {
      assert r[j] == f[j - 1];
      if i > 0 {
        assert r[i] == f[i - 1];
      }
    }
  }

  /** The test of a `filter(x => !s.includes(x))`. */
  function NotIn<T(==,!new)>(s: seq<T>): T -> bool {
    (x: T) => x !in s
  }

  /** Adding every element of `xs` in turn, as a `forEach(x => set.add(x))`
      loop does: `s`, then the elements of `xs` not in it, in order of first
      occurrence. */
  function AddAll<T(==,!new)>(s: seq<T>, xs: seq<T>): (r: seq<T>)
    ensures r == s + Filter(Dedup(xs), NotIn(s))
    ensures forall y :: y in r <==> y in s || y in xs
    ensures Distinct(s) ==> Distinct(r)
    ensures s <= r
  {
    if xs == [] then s
    else
      var ys := xs[..|xs| - 1];
      var x := xs[|xs| - 1];
      assert xs == ys + [x];
      assert Dedup(xs) == AddIfAbsent(Dedup(ys), x);
      AddAllStep(s, Dedup(ys), x, AddAll(s, ys));
      AddIfAbsent(AddAll(s, ys), x)
  }

  /** Adding one element to both sides keeps `a` equal to `s` followed by
      the elements of `d` outside `s`. */
  lemma AddAllStep<T(!new)>(s: seq<T>, d: seq<T>, x: T, a: seq<T>)
    requires a == s + Filter(d, NotIn(s))
    ensures AddIfAbsent(a, x) == s + Filter(AddIfAbsent(d, x), NotIn(s))
  {
    var p := NotIn(s);
    if x in d {
      assert x in a by {
        if x !in s {
          assert p(x) && x in Filter(d, p);
        }
      }
    } else {
      FilterAppend(d, [x], p);
      assert [x][1..] == [];
      if x !in s {
        assert x !in a;
        assert s + (Filter(d, p) + [x]) == a + [x];
      }
    }
  }

  /** The set of two different elements lists both, in order. */
  lemma DedupPair<T(!new)>(a: T, b: T)
    requires a != b
    ensures Dedup([a, b]) == [a, b]
  {
    assert [a, b][..1] == [a];
    assert [a][..0] == [];
    assert Dedup([a]) == [a];
  }

  lemma FilterPair<T(!new)>(x: T, y: T, p: T -> bool)
    ensures Filter([x, y], p) == (if p(x) then [x] else []) + (if p(y) then [y] else [])
  {
    assert [x, y][1..] == [y];
    assert [y][1..] == [];
  }
}

=== FILE: manager_dashboard.dfy ===
/** The manager console: loading the manager's own university, the screen it
    shows while and after loading, editing and cancelling, the update request
    and the application counters. */
module ManagerDashboard {
  import opened Outcomes
  import opened Lists
  import opened Entities
  import opened FormPayload

  /** The page state. `fetching` records that the university request is in
      flight, so that a reply can arrive. */
  datatype Page = Page(
    loading: bool,
    university: Option<University>,
    form: UniversityForm,
    editMode: bool,
    fetching: bool)

  /** The first render: loading, nothing fetched yet. */
  const Initial := Page(true, None, EmptyForm, false, false)

  /** What the page renders. */
  datatype Screen = Spinner | NoUniversity | Dashboard(u: University)

  function View(p: Page): (s: Screen)
    ensures s == Spinner <==> p.loading
    ensures s == NoUniversity <==> !p.loading && p.university.None?
    ensures s.Dashboard? ==> Some(s.u) == p.university
  {
    if p.loading then Spinner
    else match p.university
      case None => NoUniversity
      case Some(u) => Dashboard(u)
  }

  /** `if (user?.university_id)`. */
  predicate HasAssignment(universityId: Option<string>) {
    universityId.Some? && universityId.value != []
  }

  /** The effect on mount as written: the university is requested only for a
      manager with an assigned university, and nothing else clears `loading`. */
  function MountAsWritten(p: Page, universityId: Option<string>): (r: Page)
    ensures HasAssignment(universityId) ==> r == p.(fetching := true)
    ensures !HasAssignment(universityId) ==> r == p
  {
    if HasAssignment(universityId) then p.(fetching := true) else p
  }

  /** The effect on mount as intended: without an assigned university the
      page stops loading at once. */
  function Mount(p: Page, universityId: Option<string>): (r: Page)
    ensures HasAssignment(universityId) ==> r == p.(fetching := true)
    ensures !HasAssignment(universityId) ==> r == p.(loading := false)
  {
    if HasAssignment(universityId) then p.(fetching := true) else p.(loading := false)
  }

  /** The events after mount. A reply only arrives for a request in flight. */
  datatype Event =
    | FetchReply(reply: ApiReply<University>)
    | StartEditing
    | EditForm(form: UniversityForm)
    | CancelEdit

  /** `fetchUniversity`'s outcome: the university and its form on success, a
      toast on failure; `loading` is cleared either way. */
  function OnReply(p: Page, reply: ApiReply<University>): (r: Page)
    ensures !p.fetching ==> r == p
    ensures p.fetching ==> !r.loading && !r.fetching && r.editMode == p.editMode
    ensures p.fetching && reply.Delivered? ==> r.university == Some(reply.data) && r.form == FormOf(reply.data)
    ensures p.fetching && reply.Rejected? ==> r.university == p.university && r.form == p.form
  {
    if !p.fetching then p
    else match reply
      case Delivered(u) => p.(loading := false, fetching := false, university := Some(u), form := FormOf(u))
      case Rejected(_) => p.(loading := false, fetching := false)
  }

  /** "Cancel" restores the form from the loaded university (the button is
      only rendered once a university is shown). */
  function Cancel(p: Page): (r: Page)
    ensures p.university.Some? ==> r.form == FormOf(p.university.value) && !r.editMode
    ensures r.university == p.university && r.loading == p.loading && r.fetching == p.fetching
  {
    match p.university
    case Some(u) => p.(editMode := false, form := FormOf(u))
    case None => p
  }

  function Step(p: Page, e: Event): (r: Page)
    ensures !e.FetchReply? ==> r.loading == p.loading && r.fetching == p.fetching && r.university == p.university
  {
    match e
    case FetchReply(reply) => OnReply(p, reply)
    case StartEditing => p.(editMode := true)
    case EditForm(f) => p.(form := f)
    case CancelEdit => Cancel(p)
  }

  function Run(p: Page, es: seq<Event>): Page
    decreases |es|
  {
    if es == [] then p else Run(Step(p, es[0]), es[1..])
  }

  /** As written, a manager without an assigned university sees the loading
      spinner forever, whatever happens afterwards. */
  lemma SpinnerForever(universityId: Option<string>, es: seq<Event>)
    requires !HasAssignment(universityId)
    ensures View(Run(MountAsWritten(Initial, universityId), es)) == Spinner
  {
    SpinnerStays(Initial, es);
  }

  /** A loading page with no request in flight stays loading. */
  lemma {:induction false} SpinnerStays(p: Page, es: seq<Event>)
    requires p.loading && !p.fetching
    ensures Run(p, es).loading && !Run(p, es).fetching
    decreases |es|
  {
    if es != [] {
      SpinnerStays(Step(p, es[0]), es[1..]);
    }
  }

  /** As intended, the same manager is told that no university is assigned,
      and stays on that screen. */
  lemma NoAssignmentShown(universityId: Option<string>, es: seq<Event>)
    requires !HasAssignment(universityId)
    ensures View(Run(Mount(Initial, universityId), es)) == NoUniversity
  {
    NoUniversityStays(Mount(Initial, universityId), es);
  }

  lemma {:induction false} NoUniversityStays(p: Page, es: seq<Event>)
    requires !p.loading && !p.fetching && p.university.None?
    ensures var q := Run(p, es); !q.loading && !q.fetching && q.university.None?
    decreases |es|
  {
    if es != [] {
      NoUniversityStays(Step(p, es[0]), es[1..]);
    }
  }

  /** With an assignment, the reply decides the screen: the dashboard of the
      fetched university, or "No university assigned" after a failure. */
  lemma ReplyDecidesScreen(universityId: Option<string>, reply: ApiReply<University>)
    requires HasAssignment(universityId)
    ensures var p := OnReply(Mount(Initial, universityId), reply);
            View(p) == (if reply.Delivered? then Dashboard(reply.data) else NoUniversity)
  {
  }

  /** Whatever was typed, "Cancel" brings back the form of the loaded
      university, as long as no new reply came in meanwhile. */
  lemma {:induction false} CancelRestores(p: Page, es: seq<Event>, u: University)
    requires p.university == Some(u)
    requires forall i :: 0 <= i < |es| ==> !es[i].FetchReply?
    ensures Run(p, es + [CancelEdit]).form == FormOf(u)
    ensures Run(p, es + [CancelEdit]).university == Some(u)
    decreases |es|
  {
    if es == [] {
      assert es + [CancelEdit] == [CancelEdit];
    } else {
      assert (es + [CancelEdit])[1..] == es[1..] + [CancelEdit];
      CancelRestores(Step(p, es[0]), es[1..], u);
    }
  }

  /** The chips the dashboard shows differ from the categories the restored
      form edits only for an empty list beside a legacy value. */
  lemma ChipsVersusForm(p: Page)
    requires p.university.Some?
    ensures var u := p.university.value;
            CategoryChips(u) != Cancel(p).form.categories <==> u.categories == Some([]) && u.legacyCategory != ""
  {
    ChipsDifferFromForm(p.university.value);
  }

  /** `handleUpdateUniversity`: the manager's own university with both numbers
      passed through `parseFloat` and no fallback. */
  function SaveRequest(p: Page, universityId: string, parse: string -> Option<real>): (r: (string, SavePayload))
    ensures r.0 == universityId
    ensures r.1.placement == ParseFloat(p.form.placement, parse) && r.1.rating == ParseFloat(p.form.rating, parse)
    ensures r.1.categories == p.form.categories
  {
    (universityId, PayloadOf(p.form, NoFallback, parse))
  }

  /** An application as the manager's list shows it. */
  datatype Application = Application(id: string, status: string)

  function IsPendingPred(): Application -> bool {
    (a: Application) => a.status == "pending"
  }

  /** The "Pending" counter. */
  function PendingCount(apps: seq<Application>): (n: nat)
    ensures n <= |apps|
    ensures n == |Filter(apps, IsPendingPred())|
  {
    CountIsFilterLength(apps, IsPendingPred());
    Count(apps, IsPendingPred())
  }

  /** Adding an application raises the counter exactly when it is pending. */
  lemma PendingCountAppend(apps: seq<Application>, a: Application)
    ensures PendingCount(apps + [a]) == PendingCount(apps) + (if a.status == "pending" then 1 else 0)
  {
    FilterAppend(apps, [a], IsPendingPred());
    assert [a][1..] == [];
  }
}

=== FILE: multi_select.dfy ===
/** The category multi-select: a controlled list of picked categories with
    chips, a toggle per option, "Select all", "Clear all", and a panel that
    opens from the trigger and closes on an outside press. */
module MultiSelect {
  import opened Lists
  import Popover

  /** What the parent holds (`selected`) and the widget's own `open` flag. */
  datatype Widget = Widget(selected: seq<string>, open: bool)

  datatype Action =
    | Press(p: Popover.Pointer)  // a mousedown or a click on the trigger box
    | ToggleOption(cat: string)  // click on an option row in the panel
    | RemoveChip(cat: string)    // click on a chip's "x" inside the trigger box
    | SelectAll                  // "Select all" in the panel
    | ClearAll                   // "Clear all" in the panel

  /** `toggle(cat)`: a picked option is removed (every occurrence), any other
      is appended at the end. */
  function Toggle(selected: seq<string>, cat: string): (r: seq<string>)
    ensures cat in selected ==> cat !in r && IsSubseq(r, selected)
    ensures cat in selected ==> forall c :: c != cat ==> (c in r <==> c in selected)
    ensures cat !in selected ==> r == selected + [cat]
  {
    if cat in selected then RemoveAll(selected, cat) else selected + [cat]
  }

  /** Toggling an option that was not picked, twice, restores the selection. */
  lemma ToggleTwice(selected: seq<string>, cat: string)
    requires cat !in selected
    ensures Toggle(Toggle(selected, cat), cat) == selected
  {
    RemoveAllAppended(selected, cat);
  }

  /** Toggling keeps a duplicate-free selection duplicate-free. */
  lemma ToggleKeepsDistinct(selected: seq<string>, cat: string)
    requires Distinct(selected)
    ensures Distinct(Toggle(selected, cat))
  {
  }

  /** The widget after one action. The chip's "x" stops propagation, so its
      click never reaches the trigger box; the panel is not inside the
      trigger, so its clicks do not flip `open` either. */
  function Step(w: Widget, options: seq<string>, a: Action): (r: Widget)
    ensures a.Press? ==> r == w.(open := Popover.OpenAfter(w.open, a.p))
    ensures !a.Press? ==> r.open == w.open
    ensures a.ToggleOption? ==> r.selected == Toggle(w.selected, a.cat)
    ensures a.RemoveChip? ==> a.cat !in r.selected && IsSubseq(r.selected, w.selected)
    ensures a.RemoveChip? ==> forall c :: c != a.cat ==> (c in r.selected <==> c in w.selected)
    ensures a.SelectAll? ==> r.selected == options
    ensures a.ClearAll? ==> r.selected == []
  {
    match a
    case Press(p) => w.(open := Popover.OpenAfter(w.open, p))
    case ToggleOption(cat) => w.(selected := Toggle(w.selected, cat))
    case RemoveChip(cat) => w.(selected := RemoveAll(w.selected, cat))
    case SelectAll => w.(selected := options)
    case ClearAll => w.(selected := [])
  }

  /** Removing a chip agrees with toggling its (picked) option, except that
      the panel's state is untouched either way. */
  lemma RemoveChipIsToggle(w: Widget, options: seq<string>, cat: string)
    requires cat in w.selected
    ensures Step(w, options, RemoveChip(cat)) == Step(w, options, ToggleOption(cat))
  {
  }

  /** "Select all" keeps only the options: earlier picks outside the option
      list are discarded, and every option is picked. */
  lemma SelectAllDiscards(w: Widget, options: seq<string>, cat: string)
    ensures cat in Step(w, options, SelectAll).selected <==> cat in options
  {
  }
}

=== FILE: otp_reset.dfy ===
/** Password reset by one-time code on the server: generating the six-digit
    code, storing it with a ten-minute expiry (one code per email), and the
    ordered checks of verification. The clock is a parameter in whole seconds,
    and the random draw behind a code is a parameter too. */
module OtpReset {
  import opened Outcomes
  import opened Lists
  import opened Accounts

  const CodeLength: nat := 6
  /** `timedelta(minutes=10)`, in seconds. */
  const Lifetime: int := 600
  const CodeRange: nat := 1000000

  predicate IsDigit(c: char) {
    '0' <= c <= '9'
  }

  predicate AllDigits(s: string) {
    forall i :: 0 <= i < |s| ==> IsDigit(s[i])
  }

  function Pow10(k: nat): (r: nat)
    ensures r >= 1
  {
    if k == 0 then 1 else 10 * Pow10(k - 1)
  }

  function DigitChar(d: int): (c: char)
    requires 0 <= d < 10
    ensures IsDigit(c)
  {
    ('0' as int + d) as char
  }

  /** The last `k` decimal digits of `n`, zero-padded. */
  function Digits(n: nat, k: nat): (r: string)
    ensures |r| == k && AllDigits(r)
  {
    if k == 0 then [] else Digits(n / 10, k - 1) + [DigitChar(n % 10)]
  }

  /** The number a string of decimal digits denotes. */
  function ValueOf(s: string): nat
    requires AllDigits(s)
  {
    if s == [] then 0 else ValueOf(s[..|s| - 1]) * 10 + (s[|s| - 1] as int - '0' as int)
  }

  lemma {:induction false} ValueOfBound(s: string)
    requires AllDigits(s)
    ensures ValueOf(s) < Pow10(|s|)
  {
    if s != [] {
      ValueOfBound(s[..|s| - 1]);
    }
  }

  /** Reading the digits of a number back gives the number. */
  lemma {:induction false} ValueOfDigits(n: nat, k: nat)
    requires n < Pow10(k)
    ensures ValueOf(Digits(n, k)) == n
  {
    if k > 0 {
      ValueOfDigits(n / 10, k - 1);
      var d := Digits(n, k);
      assert d[..|d| - 1] == Digits(n / 10, k - 1);
    }
  }

  /** Writing out the value of a digit string gives the string back. */
  lemma {:induction false} DigitsOfValue(s: string)
    requires AllDigits(s)
    ensures Digits(ValueOf(s), |s|) == s
  {
    if s != [] {
      var init := s[..|s| - 1];
      DigitsOfValue(init);
      var v := ValueOf(s);
      var d := s[|s| - 1] as int - '0' as int;
      assert v == ValueOf(init) * 10 + d;
      assert v / 10 == ValueOf(init) && v % 10 == d;
      assert s == init + [s[|s| - 1]];
    }
  }

  /** `generate_otp`: six decimal digits. `draw` stands for the random
      choices; its value below one million is written out in full. */
  function GenerateOtp(draw: nat): (r: string)
    ensures |r| == CodeLength && AllDigits(r)
    ensures ValueOf(r) == draw % CodeRange
  {
    ValueOfDigits(draw % CodeRange, CodeLength);
    Digits(draw % CodeRange, CodeLength)
  }

  /** Every six-digit code can be generated. */
  lemma EveryCodePossible(code: string)
    requires |code| == CodeLength && AllDigits(code)
    ensures GenerateOtp(ValueOf(code)) == code
  {
    ValueOfBound(code);
    assert Pow10(CodeLength) == CodeRange;
    assert ValueOf(code) % CodeRange == ValueOf(code);
    DigitsOfValue(code);
  }

  /** A stored code; `expires` is in seconds on the same clock as `now`. */
  datatype OtpRecord = OtpRecord(email: string, code: string, expires: int)

  function ForEmail(email: string): OtpRecord -> bool {
    (o: OtpRecord) => o.email == email
  }

  function NotForEmail(email: string): OtpRecord -> bool {
    (o: OtpRecord) => o.email != email
  }

  /** `find_one({"email": email})` on the code store: the first record for the email. */
  function FirstFor(otps: seq<OtpRecord>, email: string): (r: Option<OtpRecord>)
    ensures r.None? <==> forall i :: 0 <= i < |otps| ==> otps[i].email != email
    ensures r.Some? ==> r.value in otps && r.value.email == email
    ensures r.Some? ==> exists i :: 0 <= i < |otps| && otps[i] == r.value &&
                                  forall j :: 0 <= j < i ==> otps[j].email != email
  {
    if otps == [] then None
    else if otps[0].email == email then Some(otps[0])
    else
      var r := FirstFor(otps[1..], email);
      if r.Some? then FirstShift(otps, email, r.value); r else r
  }

  /** A record first for its email after a head of another email is also
      first in the whole list. */
  lemma FirstShift(otps: seq<OtpRecord>, email: string, v: OtpRecord)
    requires otps != [] && otps[0].email != email
    requires exists i :: 0 <= i < |otps[1..]| && otps[1..][i] == v &&
                         forall j :: 0 <= j < i ==> otps[1..][j].email != email
    ensures exists i :: 0 <= i < |otps| && otps[i] == v && forall j :: 0 <= j < i ==> otps[j].email != email
  {
    var i :| 0 <= i < |otps[1..]| && otps[1..][i] == v &&
             forall j :: 0 <= j < i ==> otps[1..][j].email != email;
    assert otps[i + 1] == v;
    forall j | 0 <= j < i + 1 ensures otps[j].email != email {
      if j > 0 {
        assert otps[j] == otps[1..][j - 1];
      }
    }
  }

  /** Records of other emails in front do not change which record is found. */
  lemma {:induction false} FirstForSkips(a: seq<OtpRecord>, b: seq<OtpRecord>, email: string)
    requires forall i :: 0 <= i < |a| ==> a[i].email != email
    ensures FirstFor(a + b, email) == FirstFor(b, email)
  {
    if a != [] {
      assert (a + b)[0] == a[0];
      assert (a + b)[1..] == a[1..] + b;
      FirstForSkips(a[1..], b, email);
    } else {
      assert a + b == b;
    }
  }

  /** `delete_many({"email": email})`. */
  function DeleteFor(otps: seq<OtpRecord>, email: string): (r: seq<OtpRecord>)
    ensures forall o :: o in r <==> o in otps && o.email != email
    ensures FirstFor(r, email).None?
  {
    var r := Filter(otps, NotForEmail(email));
    assert forall i :: 0 <= i < |r| ==> r[i].email != email by {
      forall i | 0 <= i < |r| ensures r[i].email != email {
        assert NotForEmail(email)(r[i]);
      }
    }
    r
  }

  const UserNotFound := HttpError(404, "User not found")
  const OtpNotFound := HttpError(404, "OTP not found")
  const OtpExpired := HttpError(400, "OTP expired")
  const InvalidOtp := HttpError(400, "Invalid OTP")

  /** `request_otp`: an unknown email is refused; otherwise the email's old
      codes are replaced by one new code that expires ten minutes from now. */
  function RequestOtp(users: seq<UserAccount>, otps: seq<OtpRecord>, email: string,
                      now: int, draw: nat): (r: Result<(seq<OtpRecord>, string)>)
    ensures r.Err? <==> !HasEmail(users, email)
    ensures r.Err? ==> r.error == UserNotFound
    ensures r.Ok? ==> |r.value.1| == CodeLength && AllDigits(r.value.1)
    ensures r.Ok? ==> Filter(r.value.0, ForEmail(email)) == [OtpRecord(email, r.value.1, now + Lifetime)]
    ensures r.Ok? ==> Filter(r.value.0, NotForEmail(email)) == Filter(otps, NotForEmail(email))
  {
    if !HasEmail(users, email) then Err(UserNotFound)
    else
      var code := GenerateOtp(draw);
      var issued := OtpRecord(email, code, now + Lifetime);
      var kept := DeleteFor(otps, email);
      StoreAfterRequest(otps, email, issued);
      Ok((kept + [issued], code))
  }

  /** The store after a request holds the new code as the email's only record,
      and every other email's records as they were. */
  lemma StoreAfterRequest(otps: seq<OtpRecord>, email: string, issued: OtpRecord)
    requires issued.email == email
    ensures Filter(DeleteFor(otps, email) + [issued], ForEmail(email)) == [issued]
    ensures Filter(DeleteFor(otps, email) + [issued], NotForEmail(email)) == Filter(otps, NotForEmail(email))
  {
    var kept := DeleteFor(otps, email);
    FilterAppend(kept, [issued], ForEmail(email));
    FilterAppend(kept, [issued], NotForEmail(email));
    FilterNone(kept, ForEmail(email));
    FilterTwice(otps, NotForEmail(email), NotForEmail(email), NotForEmail(email));
    assert [issued][1..] == [];
  }

  /** `update_one({"email": email}, {"$set": {"password_hash": h}})`: the
      first account with the email gets the new hash; none matching is not an
      error. */
  function SetPassword(users: seq<UserAccount>, email: string, hash: string): (r: seq<UserAccount>)
    ensures |r| == |users|
    ensures forall i :: 0 <= i < |users| ==>
              (r[i] == users[i] || (users[i].email == email && r[i] == users[i].(passwordHash := hash)))
    ensures !HasEmail(users, email) ==> r == users
  {
    if users == [] then []
    else if users[0].email == email then [users[0].(passwordHash := hash)] + users[1..]
    else
      assert !HasEmail(users, email) ==> !HasEmail(users[1..], email);
      [users[0]] + SetPassword(users[1..], email, hash)
  }

  /** When the email has an account, the first such account takes the new hash
      and no other account changes. */
  lemma {:induction false} SetPasswordHits(users: seq<UserAccount>, email: string, hash: string, i: int)
    requires 0 <= i < |users| && users[i].email == email
    requires forall j :: 0 <= j < i ==> users[j].email != email
    ensures SetPassword(users, email, hash)[i] == users[i].(passwordHash := hash)
    ensures forall j :: 0 <= j < |users| && j != i ==> SetPassword(users, email, hash)[j] == users[j]
  {
    if i > 0 {
      var tail := users[1..];
      assert tail[i - 1] == users[i];
      forall j | 0 <= j < i - 1 ensures tail[j].email != email {
        assert tail[j] == users[j + 1];
      }
      SetPasswordHits(tail, email, hash, i - 1);
      SetPasswordStep(users, email, hash);
    }
  }

  lemma SetPasswordStep(users: seq<UserAccount>, email: string, hash: string)
    requires users != [] && users[0].email != email
    ensures forall j :: 1 <= j < |users| ==>
              SetPassword(users, email, hash)[j] == SetPassword(users[1..], email, hash)[j - 1]
    ensures SetPassword(users, email, hash)[0] == users[0]
  {
    assert SetPassword(users, email, hash) == [users[0]] + SetPassword(users[1..], email, hash);
  }

  /** `verify_otp`: a missing code, then an expired one, then a wrong one is
      refused; otherwise the password is set and the email's codes are deleted. */
  function VerifyOtp(users: seq<UserAccount>, otps: seq<OtpRecord>, email: string, code: string,
                     newHash: string, now: int): (r: Result<(seq<UserAccount>, seq<OtpRecord>)>)
    ensures FirstFor(otps, email).None? ==> r == Err(OtpNotFound)
    ensures FirstFor(otps, email).Some? && FirstFor(otps, email).value.expires < now ==> r == Err(OtpExpired)
    ensures (FirstFor(otps, email).Some? && FirstFor(otps, email).value.expires >= now
              && FirstFor(otps, email).value.code != code) ==> r == Err(InvalidOtp)
    ensures r.Ok? <==> (FirstFor(otps, email).Some? && FirstFor(otps, email).value.expires >= now
              && FirstFor(otps, email).value.code == code)
    ensures r.Ok? ==> r.value.0 == SetPassword(users, email, newHash)
    ensures r.Ok? ==> r.value.1 == DeleteFor(otps, email)
  {
    match FirstFor(otps, email)
    case None => Err(OtpNotFound)
    case Some(rec) =>
      if rec.expires < now then Err(OtpExpired)
      else if rec.code != code then Err(InvalidOtp)
      else Ok((SetPassword(users, email, newHash), DeleteFor(otps, email)))
  }

  /** The record a request leaves is the one verification finds. */
  lemma FoundAfterRequest(users: seq<UserAccount>, otps: seq<OtpRecord>, email: string, now: int, draw: nat)
    requires RequestOtp(users, otps, email, now, draw).Ok?
    ensures var (store, code) := RequestOtp(users, otps, email, now, draw).value;
            FirstFor(store, email) == Some(OtpRecord(email, code, now + Lifetime))
  {
    var code := GenerateOtp(draw);
    var kept := DeleteFor(otps, email);
    assert FirstFor(kept, email).None?;
    FirstForSkips(kept, [OtpRecord(email, code, now + Lifetime)], email);
  }

  /** The code a request returns resets the password any time up to its expiry,
      and leaves no code behind for the email. */
  lemma RequestThenVerify(users: seq<UserAccount>, otps: seq<OtpRecord>, email: string, now: int, draw: nat,
                          newHash: string, later: int)
    requires RequestOtp(users, otps, email, now, draw).Ok?
    requires later <= now + Lifetime
    ensures var (store, code) := RequestOtp(users, otps, email, now, draw).value;
            var v := VerifyOtp(users, store, email, code, newHash, later);
            v.Ok? && FirstFor(v.value.1, email).None?
  {
    FoundAfterRequest(users, otps, email, now, draw);
  }

  /** Once ten minutes have passed, any code is refused as expired. */
  lemma ExpiredAfterLifetime(users: seq<UserAccount>, otps: seq<OtpRecord>, email: string, now: int, draw: nat,
                             guess: string, newHash: string, later: int)
    requires RequestOtp(users, otps, email, now, draw).Ok?
    requires later > now + Lifetime
    ensures var store := RequestOtp(users, otps, email, now, draw).value.0;
            VerifyOtp(users, store, email, guess, newHash, later) == Err(OtpExpired)
  {
    FoundAfterRequest(users, otps, email, now, draw);
  }

  /** Before expiry, any other code is refused as invalid. */
  lemma WrongCodeRefused(users: seq<UserAccount>, otps: seq<OtpRecord>, email: string, now: int, draw: nat,
                         guess: string, newHash: string, later: int)
    requires RequestOtp(users, otps, email, now, draw).Ok?
    requires later <= now + Lifetime && guess != RequestOtp(users, otps, email, now, draw).value.1
    ensures var store := RequestOtp(users, otps, email, now, draw).value.0;
            VerifyOtp(users, store, email, guess, newHash, later) == Err(InvalidOtp)
  {
    FoundAfterRequest(users, otps, email, now, draw);
  }

  /** A code works once: verifying again after a success finds no code. */
  lemma OneTimeUse(users: seq<UserAccount>, otps: seq<OtpRecord>, email: string, code: string,
                   newHash: string, now: int, code2: string, newHash2: string, later: int)
    requires VerifyOtp(users, otps, email, code, newHash, now).Ok?
    ensures var (users2, otps2) := VerifyOtp(users, otps, email, code, newHash, now).value;
            VerifyOtp(users2, otps2, email, code2, newHash2, later) == Err(OtpNotFound)
  {
  }
}

=== FILE: outcomes.dfy ===
/** Failure-carrying values shared by every module of the model: an optional
    value (JavaScript `null`/`undefined`, Python `None`) and the outcome of an
    HTTP endpoint (a value, or a status code with its `detail` message). */
module Outcomes {

  datatype Option<+T> = None | Some(value: T) {
    /** The value, or `default` when there is none (`x ?? default`). */
    function GetOr(default: T): T {
      match this
      case Some(v) => v
      case None => default
    }
  }

  /** An HTTP error as raised by `HTTPException(status_code, detail)`. */
  datatype HttpError = HttpError(status: int, detail: string)

  datatype Result<+R> = Ok(value: R) | Err(error: HttpError) {
    predicate IsFailure() { Err? }

    function PropagateFailure<U>(): Result<U>
      requires Err?
    {
      Err(error)
    }

    function Extract(): R
      requires Ok?
    {
      value
    }
  }

  /** The status code of a result: 200 for success. */
  function StatusOf<R>(r: Result<R>): int {
    match r
    case Ok(_) => 200
    case Err(e) => e.status
  }

  /** What a page sees of an API call: the response data, or a failure whose
      `error.response?.data?.detail` may be missing (a network error). */
  datatype ApiReply<+T> = Delivered(data: T) | Rejected(detail: Option<string>)

  /** `detail || fallback`: the server's message when there is a non-empty
      one, else the page's own text. */
  function MessageOf(detail: Option<string>, fallback: string): (r: string)
    ensures detail.Some? && detail.value != [] ==> r == detail.value
    ensures !(detail.Some? && detail.value != []) ==> r == fallback
  {
    if detail.Some? && detail.value != [] then detail.value else fallback
  }
}

=== FILE: popover.dfy ===
/** The open/closed state of the application's hand-written dropdowns
    (category multi-select, course category picker): a document-level
    mousedown listener closes the panel when the press lands outside the
    widget, and the trigger toggles it. */
module Popover {

  datatype Pointer =
    | TriggerClick      // click on the trigger box: `setOpen(o => !o)`
    | InsideMouseDown   // mousedown inside the widget's container
    | OutsideMouseDown  // mousedown anywhere else in the document

  function OpenAfter(open: bool, p: Pointer): (r: bool)
    ensures p == OutsideMouseDown ==> !r
    ensures p == InsideMouseDown ==> r == open
    ensures p == TriggerClick ==> r != open
  {
    match p
    case TriggerClick => !open
    case InsideMouseDown => open
    case OutsideMouseDown => false
  }

  /** Two trigger clicks restore the original state. */
  lemma TriggerTwice(open: bool)
    ensures OpenAfter(OpenAfter(open, TriggerClick), TriggerClick) == open
  {
  }
}

=== FILE: reset_password.dfy ===
/** The two-step password reset page: ask for a code by email, then send the
    code with the new password. The one-and-a-half-second delay before the
    move to the login page is not modelled: the page records that it will go
    there. */
module ResetPassword {
  import opened Outcomes

  datatype Stage = AskCode | EnterCode

  datatype Toast = NoToast | Success(text: string) | Failure(text: string)

  /** The calls the page makes: `requestOTP(email)` and
      `verifyOTP(email, otp, newPassword)`. */
  datatype Request =
    | RequestCode(email: string)
    | VerifyCode(email: string, otp: string, newPassword: string)

  /** The page's state, with the requests it has sent so far, oldest first. */
  datatype Page = Page(
    stage: Stage,
    email: string,
    otp: string,
    newPassword: string,
    loading: bool,
    masterEmail: string,
    toast: Toast,
    goingToLogin: bool,
    sent: seq<Request>)

  const Initial := Page(AskCode, "", "", "", false, "", NoToast, false, [])

  /** The events of the page. Replies only arrive for a submitted form. */
  datatype Event =
    | TypeEmail(email: string)
    | SubmitRequest
    | RequestReply(sent: ApiReply<string>)
    | TypeOtp(otp: string)
    | TypeNewPassword(newPassword: string)
    | SubmitCode
    | VerifyReply(verdict: ApiReply<()>)
    | ChangeEmail

  const OtpMaxLength := 6

  /** What the code field holds after typing `x`: its `maxLength` keeps the
      first six characters. */
  function ClipOtp(x: string): (r: string)
    ensures |r| <= OtpMaxLength
    ensures |x| <= OtpMaxLength ==> r == x
    ensures r == x[..|r|]
  {
    if |x| <= OtpMaxLength then x else x[..OtpMaxLength]
  }

  /** The first form submits: a browser holds back a form with a blank
      required field, and the button is disabled while a request is in
      flight. */
  function OnSubmitRequest(p: Page): (r: Page)
    requires p.stage == AskCode
    ensures p.email != [] && !p.loading ==> r.loading && r.sent == p.sent + [RequestCode(p.email)]
    ensures p.email == [] || p.loading ==> r == p
    ensures r.stage == p.stage && r.email == p.email && r.otp == p.otp && r.newPassword == p.newPassword
  {
    if p.email != [] && !p.loading then p.(loading := true, sent := p.sent + [RequestCode(p.email)]) else p
  }

  /** The code form submits: the address, code and new password as they
      stand; held back while a required field is blank or a request is in
      flight. */
  function OnSubmitCode(p: Page): (r: Page)
    requires p.stage == EnterCode
    ensures p.otp != [] && p.newPassword != [] && !p.loading ==>
              r.loading && r.sent == p.sent + [VerifyCode(p.email, p.otp, p.newPassword)]
    ensures p.otp == [] || p.newPassword == [] || p.loading ==> r == p
    ensures r.stage == p.stage && r.email == p.email && r.otp == p.otp && r.newPassword == p.newPassword
  {
    if p.otp != [] && p.newPassword != [] && !p.loading then
      p.(loading := true, sent := p.sent + [VerifyCode(p.email, p.otp, p.newPassword)])
    else p
  }

  /** `handleRequestOTP` after the request: the code form with the master
      address on success, an error toast on failure; `loading` is cleared
      either way. */
  function OnRequestReply(p: Page, reply: ApiReply<string>): (r: Page)
    ensures !r.loading && r.email == p.email && r.goingToLogin == p.goingToLogin && r.sent == p.sent
    ensures reply.Delivered? ==> r.stage == EnterCode && r.masterEmail == reply.data
    ensures reply.Rejected? ==> r.stage == p.stage && r.toast == Failure(MessageOf(reply.detail, "Failed to send OTP"))
  {
    match reply
    case Delivered(master) => p.(loading := false, stage := EnterCode, masterEmail := master, toast := Success("OTP sent to " + master))
    case Rejected(detail) => p.(loading := false, toast := Failure(MessageOf(detail, "Failed to send OTP")))
  }

  /** `handleVerifyOTP` after the request: the move to the login page on
      success, an error toast on failure; `loading` is cleared either way. */
  function OnVerifyReply(p: Page, reply: ApiReply<()>): (r: Page)
    ensures !r.loading && r.stage == p.stage && r.email == p.email && r.sent == p.sent
    ensures reply.Delivered? ==> r.goingToLogin
    ensures reply.Rejected? ==>
              r.goingToLogin == p.goingToLogin && r.toast == Failure(MessageOf(reply.detail, "Failed to reset password"))
  {
    match reply
    case Delivered(_) => p.(loading := false, goingToLogin := true, toast := Success("Password reset successful!"))
    case Rejected(detail) => p.(loading := false, toast := Failure(MessageOf(detail, "Failed to reset password")))
  }

  /** The request awaiting its reply: the last one sent, while loading. */
  predicate Awaiting(p: Page, code: bool) {
    p.loading && p.sent != [] && p.sent[|p.sent| - 1].VerifyCode? == !code
  }

  /** One event. Each form exists only at its own stage, and a reply arrives
      only for the request in flight, whatever form is shown by then: "Change
      Email" stays clickable while a verification is in flight. */
  function Step(p: Page, e: Event): (r: Page)
    ensures p.sent <= r.sent && |r.sent| <= |p.sent| + 1
    ensures |r.sent| == |p.sent| + 1 ==> (e.SubmitRequest? || e.SubmitCode?) && r.loading
    ensures !(e.RequestReply? || e.VerifyReply? || e.ChangeEmail?) ==> r.stage == p.stage
    ensures e.ChangeEmail? ==> r.email == p.email && (p.stage == EnterCode ==> r.stage == AskCode)
  {
    match e
    case TypeEmail(x) => if p.stage == AskCode then p.(email := x) else p
    case SubmitRequest => if p.stage == AskCode then OnSubmitRequest(p) else p
    case RequestReply(reply) => if Awaiting(p, true) then OnRequestReply(p, reply) else p
    case TypeOtp(x) => if p.stage == EnterCode then p.(otp := ClipOtp(x)) else p
    case TypeNewPassword(x) => if p.stage == EnterCode then p.(newPassword := x) else p
    case SubmitCode => if p.stage == EnterCode then OnSubmitCode(p) else p
    case VerifyReply(reply) => if Awaiting(p, false) then OnVerifyReply(p, reply) else p
    case ChangeEmail => if p.stage == EnterCode then p.(stage := AskCode) else p
  }

  function Run(p: Page, es: seq<Event>): Page
    decreases |es|
  {
    if es == [] then p else Run(Step(p, es[0]), es[1..])
  }

  /** Some request for a code succeeded. */
  predicate CodeSent(es: seq<Event>) {
    exists i :: 0 <= i < |es| && es[i].RequestReply? && es[i].sent.Delivered?
  }

  /** Some code was accepted. */
  predicate CodeAccepted(es: seq<Event>) {
    exists i :: 0 <= i < |es| && es[i].VerifyReply? && es[i].verdict.Delivered?
  }

  /** From the first form with no verification in flight (the initial page,
      say), the page reaches the code form, and the move to the login page,
      only after a code was sent; the move to the login page only after a
      code was accepted. */
  lemma {:induction false} StagesInOrder(p: Page, es: seq<Event>)
    requires p.stage == AskCode && !p.goingToLogin && !Awaiting(p, false)
    ensures Run(p, es).stage == EnterCode ==> CodeSent(es)
    ensures Run(p, es).goingToLogin ==> CodeSent(es) && CodeAccepted(es)
    decreases |es|
  {
    if es != [] {
      var q := Step(p, es[0]);
      var rest := es[1..];
      if q.stage == AskCode && !q.goingToLogin && !Awaiting(q, false) {
        StagesInOrder(q, rest);
        ShiftWitness(es);
      } else {
        assert es[0].RequestReply? && es[0].sent.Delivered?;
        AfterSentAccepted(q, rest);
        ShiftAccepted(es);
      }
    }
  }

  /** From the page as it opens, the same order holds for every run. */
  lemma StagesInOrderFromStart(es: seq<Event>)
    ensures Run(Initial, es).stage == EnterCode ==> CodeSent(es)
    ensures Run(Initial, es).goingToLogin ==> CodeSent(es) && CodeAccepted(es)
  {
    StagesInOrder(Initial, es);
  }

  /** Once a code was sent, going to the login page needs an accepted code. */
  lemma {:induction false} AfterSentAccepted(p: Page, es: seq<Event>)
    requires !p.goingToLogin
    ensures Run(p, es).goingToLogin ==> CodeAccepted(es)
    decreases |es|
  {
    if es != [] {
      var q := Step(p, es[0]);
      if q.goingToLogin {
        assert es[0].VerifyReply? && es[0].verdict.Delivered?;
      } else {
        AfterSentAccepted(q, es[1..]);
        ShiftAccepted(es);
      }
    }
  }

  lemma ShiftWitness(es: seq<Event>)
    requires es != []
    ensures CodeSent(es[1..]) ==> CodeSent(es)
    ensures CodeAccepted(es[1..]) ==> CodeAccepted(es)
  {
    if CodeSent(es[1..]) {
      var i :| 0 <= i < |es[1..]| && es[1..][i].RequestReply? && es[1..][i].sent.Delivered?;
      assert es[i + 1] == es[1..][i];
    }
    ShiftAccepted(es);
  }

  lemma ShiftAccepted(es: seq<Event>)
    requires es != []
    ensures CodeAccepted(es[1..]) ==> CodeAccepted(es)
  {
    if CodeAccepted(es[1..]) {
      var i :| 0 <= i < |es[1..]| && es[1..][i].VerifyReply? && es[1..][i].verdict.Delivered?;
      assert es[i + 1] == es[1..][i];
    }
  }

  /** A verification reply is handled on either form: after "Change Email"
      during the request, the page still stops loading and, on success,
      still heads to the login page. */
  lemma VerifyReplyAnyStage(p: Page, reply: ApiReply<()>)
    requires p.loading && p.sent != [] && p.sent[|p.sent| - 1].VerifyCode?
    ensures var q := Step(p, VerifyReply(reply));
            !q.loading && q.stage == p.stage && (reply.Delivered? ==> q.goingToLogin)
  {
  }

  /** Whatever the outcome, a request leaves the page idle again. */
  lemma RepliesEndLoading(p: Page, r1: ApiReply<string>, r2: ApiReply<()>)
    ensures !OnRequestReply(p, r1).loading && !OnVerifyReply(p, r2).loading
  {
  }

  /** "Change Email" goes back to the first form with the address, the code
      and the new password kept, and sends nothing. */
  lemma ChangeEmailKeepsAddress(p: Page)
    requires p.stage == EnterCode
    ensures var q := Step(p, ChangeEmail);
            q.stage == AskCode && q.email == p.email && q.otp == p.otp && q.newPassword == p.newPassword
            && q.sent == p.sent
  {
  }

  /** On the code form, typing a code and a new password and submitting
      sends the address with what was typed, the code held to six
      characters. */
  lemma VerifySendsTyped(p: Page, code: string, password: string)
    requires p.stage == EnterCode && !p.loading
    requires code != [] && password != []
    ensures Run(p, [TypeOtp(code), TypeNewPassword(password), SubmitCode]).sent ==
              p.sent + [VerifyCode(p.email, ClipOtp(code), password)]
  {
    var es := [TypeOtp(code), TypeNewPassword(password), SubmitCode];
    var q1 := Step(p, TypeOtp(code));
    var q2 := Step(q1, TypeNewPassword(password));
    assert ClipOtp(code) != [] by {
      assert |ClipOtp(code)| > 0;
    }
    assert es[1..] == [TypeNewPassword(password), SubmitCode] && es[1..][1..] == [SubmitCode];
    assert Run(p, es) == Run(q2, [SubmitCode]);
  }

  /** A code request carries an address; a verification carries a code of at
      most six characters and a new password. The address of a verification
      is not held to this: the first form stays editable while its request is
      in flight, so it may be cleared before the code form opens. */
  predicate Complete(rq: Request) {
    match rq
    case RequestCode(email) => email != []
    case VerifyCode(_, otp, newPassword) => otp != [] && |otp| <= OtpMaxLength && newPassword != []
  }

  predicate AllComplete(rs: seq<Request>) {
    forall i :: 0 <= i < |rs| ==> Complete(rs[i])
  }

  /** Every request the page sends is complete, from any page whose earlier
      requests were and whose code fits the field. */
  lemma {:induction false} RequestsComplete(p: Page, es: seq<Event>)
    requires AllComplete(p.sent) && |p.otp| <= OtpMaxLength
    ensures AllComplete(Run(p, es).sent)
    decreases |es|
  {
    if es != [] {
      var q := Step(p, es[0]);
      assert AllComplete(q.sent) by {
        forall i | 0 <= i < |q.sent| ensures Complete(q.sent[i]) {
          if i < |p.sent| {
            assert q.sent[i] == p.sent[i];
          }
        }
      }
      RequestsComplete(q, es[1..]);
    }
  }
}

=== FILE: routing.dfy ===
/** Where a user ends up: the guard around the two consoles, the landing
    route after signing in, and the home page's dashboard link. */
module Routing {
  import opened Outcomes
  import opened AuthSession
  import opened Text

  /** What a guarded route renders. */
  datatype Outcome = Spinner | Redirect(path: string) | Render

  /** `PrivateRoute`: spinner while the session loads, the login page without
      a user, the home page for a role that is not allowed, else the page. */
  function Guard(loading: bool, user: Option<SessionUser>, allowedRoles: Option<seq<string>>): (r: Outcome)
    ensures loading <==> r == Spinner
    ensures !loading && user.None? ==> r == Redirect("/login")
    ensures r == Render <==> !loading && user.Some? && (allowedRoles.Some? ==> user.value.role in allowedRoles.value)
    ensures r == Redirect("/") <==>
              !loading && user.Some? && allowedRoles.Some? && user.value.role !in allowedRoles.value
  {
    if loading then Spinner
    else if user.None? then Redirect("/login")
    else if allowedRoles.Some? && user.value.role !in allowedRoles.value then Redirect("/")
    else Render
  }

  /** `p` is the route `base` or a path under it. */
  predicate Within(p: string, base: string) {
    p == base || base + "/" <= p
  }

  /** The administrator console route and every path under `/admin/`,
      matched regardless of case as the router's patterns are by default. */
  predicate UnderAdmin(path: string) {
    Within(Lower(path), "/admin")
  }

  /** The manager console route and every path under `/manager/`, in any case. */
  predicate UnderManager(path: string) {
    Within(Lower(path), "/manager")
  }

  /** The roles a path admits: the consoles' subtrees are guarded, every
      other route is public. */
  function AllowedFor(path: string): Option<seq<string>> {
    if UnderAdmin(path) then Some(["admin"])
    else if UnderManager(path) then Some(["manager"])
    else None
  }

  predicate Guarded(path: string) {
    UnderAdmin(path) || UnderManager(path)
  }

  /** What the user sees at `path`: the guarded consoles, or a public page. */
  function Visit(path: string, loading: bool, user: Option<SessionUser>): (r: Outcome)
    ensures !Guarded(path) ==> r == Render
    ensures r == Spinner <==> Guarded(path) && loading
    ensures r == Redirect("/login") <==> Guarded(path) && !loading && user.None?
    ensures r.Redirect? ==> r.path == "/" || r.path == "/login"
    ensures UnderAdmin(path) && r == Render ==> user.Some? && user.value.role == "admin"
    ensures UnderManager(path) && r == Render ==> user.Some? && user.value.role == "manager"
  {
    SubtreesApart(path);
    if Guarded(path) then Guard(loading, user, AllowedFor(path)) else Render
  }

  /** The two subtrees are apart: no path lies under both consoles. */
  lemma SubtreesApart(path: string)
    ensures !(UnderAdmin(path) && UnderManager(path))
  {
    WithinApart(Lower(path));
  }

  /** Paths within `/admin` have 'a' second, those within `/manager` 'm'. */
  lemma WithinApart(p: string)
    ensures !(Within(p, "/admin") && Within(p, "/manager"))
  {
    WithinSecond(p, "/admin");
    WithinSecond(p, "/manager");
  }

  /** A path within `base` shares its second character. */
  lemma WithinSecond(p: string, base: string)
    requires |base| >= 2
    ensures Within(p, base) ==> |p| >= 2 && p[1] == base[1]
  {
    if base + "/" <= p {
      assert p[1] == (base + "/")[1];
    }
  }

  /** Anywhere under the administrator console only an administrator sees
      the page, and anywhere under the manager console only a manager; any
      other signed-in user is sent to the home page. */
  lemma ConsolesByRole(user: SessionUser, path: string)
    ensures UnderAdmin(path) ==>
              (Visit(path, false, Some(user)) == Render <==> user.role == "admin") &&
              (user.role != "admin" ==> Visit(path, false, Some(user)) == Redirect("/"))
    ensures UnderManager(path) ==>
              (Visit(path, false, Some(user)) == Render <==> user.role == "manager") &&
              (user.role != "manager" ==> Visit(path, false, Some(user)) == Redirect("/"))
  {
    SubtreesApart(path);
  }

  /** A student who opens the users page of the administrator console,
      spelled in any case, is sent to the home page. */
  lemma StudentOffUsersPage(user: SessionUser, path: string)
    requires user.role == "student"
    requires Lower(path) == "/admin/users"
    ensures Visit(path, false, Some(user)) == Redirect("/")
  {
    assert ("/admin" + "/") <= Lower(path);
    assert user.role != "admin" by {
      assert user.role[0] != "admin"[0];
    }
    ConsolesByRole(user, path);
  }

  /** The console guards ignore case: a path and its lower case fall under
      the same console. */
  lemma ConsoleMatchIgnoresCase(path: string)
    ensures UnderAdmin(path) == UnderAdmin(Lower(path))
    ensures UnderManager(path) == UnderManager(Lower(path))
  {
    LowerIdempotent(path);
  }

  /** The landing route for a role, after signing in or when already signed in. */
  function LandingFor(role: string): (path: string)
    ensures role == "admin" <==> path == "/admin"
    ensures role == "manager" <==> path == "/manager"
    ensures role != "admin" && role != "manager" <==> path == "/"
  {
    if role == "admin" then "/admin" else if role == "manager" then "/manager" else "/"
  }

  /** Every user lands on a page they may see. */
  lemma LandingIsAllowed(user: SessionUser)
    ensures Visit(LandingFor(user.role), false, Some(user)) == Render
  {
    var path := LandingFor(user.role);
    LowerOfLowercase(path);
    SubtreesApart(path);
    if user.role != "admin" && user.role != "manager" {
      assert |Lower(path)| == 1;
    }
  }

  /** The login page's state: the request in flight, where it navigated, and
      the error shown. */
  datatype LoginPage = LoginPage(loading: bool, navigatedTo: Option<string>, error: Option<string>)

  /** `handleSubmit` starts: the button shows it is busy. */
  function SubmitStarted(p: LoginPage): (r: LoginPage)
    ensures r.loading && r.navigatedTo == p.navigatedTo && r.error == p.error
  {
    p.(loading := true)
  }

  /** `handleSubmit` ends: a success navigates to the landing route, a failure
      shows the message and stays; `loading` is cleared either way. */
  function SubmitEnded(p: LoginPage, result: LoginResult): (r: LoginPage)
    ensures !r.loading
    ensures result.LoginSuccess? ==> r.navigatedTo == Some(LandingFor(result.user.role)) && r.error == p.error
    ensures result.LoginFailure? ==> r.navigatedTo == p.navigatedTo && r.error == Some(result.message)
  {
    match result
    case LoginSuccess(u) => p.(loading := false, navigatedTo := Some(LandingFor(u.role)))
    case LoginFailure(m) => p.(loading := false, error := Some(m))
  }

  /** The redirect for a user who opens the login page already signed in. */
  function AlreadySignedIn(user: Option<SessionUser>): (r: Option<string>)
    ensures user.None? ==> r.None?
    ensures user.Some? ==> r == Some(LandingFor(user.value.role))
  {
    match user
    case None => None
    case Some(u) => Some(LandingFor(u.role))
  }

  /** Signing in, and opening the login page while signed in, lead to the
      same place. */
  lemma SameLandingBothWays(p: LoginPage, s: Session, t: string, u: SessionUser)
    ensures var (after, result) := Login(s, Delivered((t, u)));
            SubmitEnded(SubmitStarted(p), result).navigatedTo == AlreadySignedIn(after.user)
  {
  }

  /** The home page's "Dashboard" link: the administrator console for an
      administrator, the manager console for anyone else. */
  function DashboardLink(user: SessionUser): (path: string)
    ensures user.role == "admin" ==> path == "/admin"
    ensures user.role != "admin" ==> path == "/manager"
  {
    if user.role == "admin" then "/admin" else "/manager"
  }

  /** The link works for administrators and managers; any other signed-in
      user who follows it is sent back to the home page by the guard. */
  lemma DashboardLinkOutcome(user: SessionUser)
    ensures user.role == "admin" || user.role == "manager" ==>
              Visit(DashboardLink(user), false, Some(user)) == Render
    ensures user.role != "admin" && user.role != "manager" ==>
              Visit(DashboardLink(user), false, Some(user)) == Redirect("/")
  {
    LandingIsAllowed(user);
    ConsolesByRole(user, DashboardLink(user));
  }
}

=== FILE: text.dfy ===
/** String helpers with the semantics the application relies on:
    `trim()`/`strip()`, `toLowerCase()`/`lower()`, `includes`/case-insensitive
    substring search, and `split(',')`.  Whitespace and case folding are
    restricted to ASCII. */
module Text {
  import opened Lists

  /** The ASCII whitespace that both `String.prototype.trim` and `str.strip`
      remove; the separators U+001C to U+001F, which only `str.strip`
      removes, are not modelled. */
  predicate IsSpace(c: char) {
    c == ' ' || c == '\t' || c == '\n' || c == '\r' || c == '\U{000B}' || c == '\U{000C}'
  }

  predicate AllSpace(s: string) {
    forall i :: 0 <= i < |s| ==> IsSpace(s[i])
  }

  /** `s` with its leading whitespace removed. */
  function TrimStart(s: string): (r: string)
    ensures |r| <= |s| && r == s[|s| - |r|..]
    ensures forall i :: 0 <= i < |s| - |r| ==> IsSpace(s[i])
    ensures r == [] || !IsSpace(r[0])
  {
    if |s| > 0 && IsSpace(s[0]) then TrimStart(s[1..]) else s
  }

  /** `s` with its trailing whitespace removed. */
  function TrimEnd(s: string): (r: string)
    ensures |r| <= |s| && r == s[..|r|]
    ensures forall i :: |r| <= i < |s| ==> IsSpace(s[i])
    ensures r == [] || !IsSpace(r[|r| - 1])
  {
    if |s| > 0 && IsSpace(s[|s| - 1]) then TrimEnd(s[..|s| - 1]) else s
  }

  /** `s.trim()` in JavaScript, `s.strip()` in Python: the input with only
      its leading and trailing whitespace removed. */
  function Trim(s: string): (r: string)
    ensures |r| <= |s|
    ensures r == [] || (!IsSpace(r[0]) && !IsSpace(r[|r| - 1]))
    ensures exists a, b :: 0 <= a <= b <= |s| && r == s[a..b] && AllSpace(s[..a]) && AllSpace(s[b..])
  {
    TrimBetweenSpaces(s);
    TrimEnd(TrimStart(s))
  }

  /** The trimmed text is a slice of the input between two runs of
      whitespace. */
  lemma {:induction false} TrimBetweenSpaces(s: string)
    ensures exists a, b :: 0 <= a <= b <= |s| && TrimEnd(TrimStart(s)) == s[a..b] && AllSpace(s[..a]) && AllSpace(s[b..])
  {
    var t := TrimStart(s);
    var r := TrimEnd(t);
    var a := |s| - |t|;
    var b := a + |r|;
    assert r == s[a..b];
    SpaceRun(s, 0, a);
    SpaceRun(s, b, |s|) by {
      forall i | b <= i < |s| ensures IsSpace(s[i]) {
        assert s[i] == t[i - a];
      }
    }
    assert 0 <= a <= b <= |s| && r == s[a..b] && AllSpace(s[..a]) && AllSpace(s[b..]);
  }

  lemma SpaceRun(s: string, lo: int, hi: int)
    requires 0 <= lo <= hi <= |s|
    requires forall i :: lo <= i < hi ==> IsSpace(s[i])
    ensures AllSpace(s[lo..hi])
    ensures lo == 0 ==> AllSpace(s[..hi])
    ensures hi == |s| ==> AllSpace(s[lo..])
  {
    assert forall i :: 0 <= i < hi - lo ==> s[lo..hi][i] == s[lo + i];
    assert hi == |s| ==> s[lo..] == s[lo..hi];
    assert lo == 0 ==> s[..hi] == s[lo..hi];
  }

  lemma TrimEmpty()
    ensures Trim([]) == []
  {
  }

  /** Trimming removes nothing but whitespace: the result is blank exactly
      when the input was all whitespace. */
  lemma TrimBlank(s: string)
    ensures Trim(s) == [] <==> AllSpace(s)
  {
    var t := TrimStart(s);
    if Trim(s) == [] {
      TrimEndBlank(t);
    } else {
      assert !IsSpace(Trim(s)[0]);
    }
  }

  lemma TrimEndBlank(t: string)
    requires TrimEnd(t) == []
    ensures AllSpace(t)
  {
  }

  /** Trimming is idempotent. */
  lemma TrimIdempotent(s: string)
    ensures Trim(Trim(s)) == Trim(s)
  {
    var r := Trim(s);
    if r != [] {
      assert TrimStart(r) == r;
      assert TrimEnd(r) == r;
    }
  }

  /** A string with no whitespace at either end is its own trim. */
  lemma TrimPlain(s: string)
    requires Plain(s)
    ensures Trim(s) == s
  {
    assert TrimStart(s) == s;
    assert TrimEnd(s) == s;
  }

  function LowerChar(c: char): char {
    if 'A' <= c <= 'Z' then (c as int + 32) as char else c
  }

  /** `toLowerCase()` / `lower()`, ASCII letters only. */
  function Lower(s: string): (r: string)
    ensures |r| == |s|
    ensures forall i :: 0 <= i < |s| ==> r[i] == LowerChar(s[i])
  {
    if s == [] then [] else [LowerChar(s[0])] + Lower(s[1..])
  }

  /** A string with no upper-case ASCII letter is its own lower case. */
  lemma LowerOfLowercase(s: string)
    requires forall i :: 0 <= i < |s| ==> !('A' <= s[i] <= 'Z')
    ensures Lower(s) == s
  {
  }

  /** Lower-casing twice changes nothing more. */
  lemma LowerIdempotent(s: string)
    ensures Lower(Lower(s)) == Lower(s)
  {
    var l := Lower(s);
    forall i | 0 <= i < |l| ensures Lower(l)[i] == l[i] {
      assert l[i] == LowerChar(s[i]);
    }
  }

  predicate IsPrefix(p: string, s: string) {
    |p| <= |s| && s[..|p|] == p
  }

  /** `sub` occurs in `s` starting at position `i`. */
  predicate OccursAt(s: string, sub: string, i: int) {
    0 <= i <= |s| - |sub| && s[i..i + |sub|] == sub
  }

  /** `s.includes(sub)`: `sub` occurs contiguously somewhere in `s`. */
  predicate Contains(s: string, sub: string)
    decreases |s|
  {
    IsPrefix(sub, s) || (|s| > 0 && Contains(s[1..], sub))
  }

  /** The recursive search agrees with the positional definition of a substring. */
  lemma {:induction false} ContainsAt(s: string, sub: string)
    ensures Contains(s, sub) <==> exists i :: OccursAt(s, sub, i)
    decreases |s|
  {
    if IsPrefix(sub, s) {
      assert OccursAt(s, sub, 0);
    } else if |s| > 0 {
      ContainsAt(s[1..], sub);
      if Contains(s[1..], sub) {
        var i :| OccursAt(s[1..], sub, i);
        assert s[1..][i..i + |sub|] == s[i + 1..i + 1 + |sub|];
        assert OccursAt(s, sub, i + 1);
      } else if exists i :: OccursAt(s, sub, i) {
        var i :| OccursAt(s, sub, i);
        assert i != 0;
        assert s[1..][i - 1..i - 1 + |sub|] == s[i..i + |sub|];
        assert OccursAt(s[1..], sub, i - 1);
      }
    }
  }

  /** Every string contains itself and the empty string. */
  lemma ContainsSelf(s: string)
    ensures Contains(s, s) && Contains(s, [])
  {
    assert IsPrefix(s, s) && IsPrefix([], s);
  }

  /** Case-insensitive substring search: `hay.toLowerCase().includes(needle.toLowerCase())`,
      and also the meaning of a MongoDB `$regex` with option `i` on a literal pattern. */
  predicate ContainsIgnoreCase(hay: string, needle: string) {
    Contains(Lower(hay), Lower(needle))
  }

  /** Python's `s.split(sep)`: the pieces between separators, always at least one. */
  function Split(s: string, sep: char): (r: seq<string>)
    ensures |r| >= 1
    ensures forall k :: 0 <= k < |r| ==> sep !in r[k]
  {
    if s == [] then [[]]
    else
      var rest := Split(s[1..], sep);
      if s[0] == sep then [[]] + rest
      else [[s[0]] + rest[0]] + rest[1..]
  }

  /** `sep.join(pieces)`. */
  function Join(pieces: seq<string>, sep: char): string
    requires |pieces| >= 1
  {
    if |pieces| == 1 then pieces[0] else pieces[0] + [sep] + Join(pieces[1..], sep)
  }

  /** Splitting loses nothing: joining the pieces back gives the input. */
  lemma {:induction false} SplitJoin(s: string, sep: char)
    ensures Join(Split(s, sep), sep) == s
  {
    if s != [] {
      var rest := Split(s[1..], sep);
      SplitJoin(s[1..], sep);
      if s[0] == sep {
        assert Split(s, sep)[1..] == rest;
      } else {
        var r := Split(s, sep);
        if |rest| == 1 {
          assert r == [[s[0]] + rest[0]];
        } else {
          assert r[1..] == rest[1..];
          assert Join(rest, sep) == rest[0] + [sep] + Join(rest[1..], sep);
        }
      }
    }
  }

  /** A string without the separator is one piece. */
  lemma {:induction false} SplitNoSeparator(a: string, sep: char)
    requires sep !in a
    ensures Split(a, sep) == [a]
  {
    if a != [] {
      SplitNoSeparator(a[1..], sep);
      assert a == [a[0]] + a[1..];
    }
  }

  /** A separator after a separator-free prefix closes the first piece. */
  lemma {:induction false} SplitAfterPiece(a: string, t: string, sep: char)
    requires sep !in a
    ensures Split(a + [sep] + t, sep) == [a] + Split(t, sep)
  {
    var s := a + [sep] + t;
    if a == [] {
      assert s == [sep] + t && s[1..] == t;
    } else {
      assert s[0] == a[0] && s[1..] == a[1..] + [sep] + t;
      SplitAfterPiece(a[1..], t, sep);
      assert a == [a[0]] + a[1..];
    }
  }

  /** Joining separator-free pieces and splitting again gives the pieces. */
  lemma {:induction false} JoinSplit(pieces: seq<string>, sep: char)
    requires |pieces| >= 1
    requires forall k :: 0 <= k < |pieces| ==> sep !in pieces[k]
    ensures Split(Join(pieces, sep), sep) == pieces
  {
    if |pieces| == 1 {
      SplitNoSeparator(pieces[0], sep);
    } else {
      JoinSplit(pieces[1..], sep);
      SplitAfterPiece(pieces[0], Join(pieces[1..], sep), sep);
      assert pieces == [pieces[0]] + pieces[1..];
    }
  }

  /** Non-empty, with no whitespace at either end: its own trim. */
  predicate Plain(s: string) {
    s != [] && !IsSpace(s[0]) && !IsSpace(s[|s| - 1])
  }

  function NonBlank(): string -> bool {
    (s: string) => s != []
  }

  /** A non-blank trim is plain. */
  lemma TrimIsPlain(s: string)
    requires Trim(s) != []
    ensures Plain(Trim(s))
  {
  }

  /** Dropping the blank entries keeps the others in order, each as often
      as it occurs. */
  lemma NonBlankFilter(ts: seq<string>)
    ensures IsSubseq(Filter(ts, NonBlank()), ts)
    ensures forall x :: multiset(Filter(ts, NonBlank()))[x] == if x == [] then 0 else multiset(ts)[x]
  {
    FilterIsSubseq(ts, NonBlank());
    FilterMultiset(ts, NonBlank());
    assert forall x: string :: NonBlank()(x) == (x != []);
  }

  /** `[x.strip() for x in xs if x.strip()]`. */
  function TrimmedNonBlank(xs: seq<string>): (r: seq<string>)
    ensures forall k :: 0 <= k < |r| ==> Plain(r[k])
    ensures forall x :: x in r <==> x in Map(xs, Trim) && x != []
    ensures IsSubseq(r, Map(xs, Trim))
    ensures forall x :: multiset(r)[x] == if x == [] then 0 else multiset(Map(xs, Trim))[x]
  {
    NonBlankFilter(Map(xs, Trim));
    TrimmedArePlain(xs);
    Filter(Map(xs, Trim), NonBlank())
  }

  lemma TrimmedArePlain(xs: seq<string>)
    ensures forall x :: x in Map(xs, Trim) && x != [] ==> Plain(x)
  {
    var ts := Map(xs, Trim);
    forall x | x in ts && x != [] ensures Plain(x) {
      var i :| 0 <= i < |ts| && ts[i] == x;
      TrimIsPlain(xs[i]);
    }
  }

  /** Entries that are already trimmed and non-blank all survive, in order. */
  lemma TrimmedNonBlankOfPlain(xs: seq<string>)
    requires forall k :: 0 <= k < |xs| ==> Plain(xs[k])
    ensures TrimmedNonBlank(xs) == xs
  {
    forall k | 0 <= k < |xs| ensures Trim(xs[k]) == xs[k] {
      TrimPlain(xs[k]);
    }
    assert Map(xs, Trim) == xs;
    FilterAll(xs, NonBlank());
  }
}

=== FILE: university_query.dfy ===
/** The server's university listing query: each query parameter becomes a
    clause of a database filter. A case-insensitive `$regex` is modelled as a
    case-insensitive substring test (the parameter is not escaped, so regular
    expression metacharacters are outside the model). */
module UniversityQuery {
  import opened Outcomes
  import opened Text
  import opened Lists
  import opened Entities

  /** The query parameters; a string parameter takes part only when it is
      present and non-empty, a number when it is present (0 included). */
  datatype Params = Params(
    search: Option<string>,
    location: Option<string>,
    state: Option<string>,
    courseType: Option<string>,
    category: Option<string>,
    minRating: Option<real>,
    minPlacement: Option<real>)

  predicate Given(o: Option<string>) {
    o.Some? && o.value != []
  }

  /** `{'$regex': pattern, '$options': 'i'}` on one string field. */
  predicate Regex(field: string, pattern: string) {
    ContainsIgnoreCase(field, pattern)
  }

  predicate SomeRegex(fields: seq<string>, pattern: string) {
    exists i :: 0 <= i < |fields| && Regex(fields[i], pattern)
  }

  function CourseNames(cs: seq<Course>): (r: seq<string>)
    ensures |r| == |cs| && forall i :: 0 <= i < |cs| ==> r[i] == cs[i].courseName
  {
    seq(|cs|, i requires 0 <= i < |cs| => cs[i].courseName)
  }

  function CourseCategories(cs: seq<Course>): (r: seq<string>)
    ensures |r| == |cs| && forall i :: 0 <= i < |cs| ==> r[i] == cs[i].category
  {
    seq(|cs|, i requires 0 <= i < |cs| => cs[i].category)
  }

  function CategoryList(u: University): seq<string> {
    match u.categories
    case Some(xs) => xs
    case None => []
  }

  /** The eight alternatives of the `search` clause. */
  predicate SearchMatches(u: University, s: string) {
    Regex(u.name, s) || SomeRegex(u.tags, s) || Regex(u.location, s) || Regex(u.state, s)
    || SomeRegex(CourseNames(u.courses), s) || SomeRegex(CourseCategories(u.courses), s)
    || Regex(u.description, s) || SomeRegex(CategoryList(u), s)
  }

  /** The two alternatives of the `category` clause: an exact element of the
      category list, or a case-insensitive match in the legacy field. */
  predicate CategoryMatches(u: University, c: string) {
    c in CategoryList(u) || Regex(u.legacyCategory, c)
  }

  /** The clauses other than `$or`. */
  predicate OtherClauses(u: University, p: Params) {
    (Given(p.location) ==> Regex(u.location, p.location.value))
    && (Given(p.state) ==> Regex(u.state, p.state.value))
    && (Given(p.courseType) ==> SomeRegex(CourseNames(u.courses), p.courseType.value))
    && (p.minRating.Some? ==> u.rating >= p.minRating.value)
    && (p.minPlacement.Some? ==> u.placement >= p.minPlacement.value)
  }

  /** As written: the category alternatives are appended to the search `$or`,
      so a document passes that part when it matches EITHER. */
  predicate MatchesAsWritten(u: University, p: Params) {
    var alternatives :=
      (if Given(p.search) then [SearchMatches(u, p.search.value)] else []) +
      (if Given(p.category) then [CategoryMatches(u, p.category.value)] else []);
    (alternatives == [] || true in alternatives) && OtherClauses(u, p)
  }

  /** As intended: search and category each narrow the result. */
  predicate Matches(u: University, p: Params) {
    (Given(p.search) ==> SearchMatches(u, p.search.value))
    && (Given(p.category) ==> CategoryMatches(u, p.category.value))
    && OtherClauses(u, p)
  }

  function MatchesPred(p: Params): University -> bool {
    u => Matches(u, p)
  }

  function MatchesAsWrittenPred(p: Params): University -> bool {
    u => MatchesAsWritten(u, p)
  }

  const ResultLimit := 1000

  /** `get_universities` without the average-fee filter, as intended. */
  function GetUniversities(stored: seq<University>, p: Params): (r: seq<University>)
    ensures |r| <= ResultLimit
    ensures IsSubseq(r, stored)
    ensures forall u :: u in r ==> u in stored && Matches(u, p)
    ensures |Filter(stored, MatchesPred(p))| <= ResultLimit ==>
              forall u :: u in stored && Matches(u, p) ==> u in r
  {
    var all := Filter(stored, MatchesPred(p));
    FilterIsSubseq(stored, MatchesPred(p));
    TakeIsSubseq(all, ResultLimit);
    SubseqTransitive(Take(all, ResultLimit), all, stored);
    Take(all, ResultLimit)
  }

  /** `get_universities` without the average-fee filter, as written. */
  function GetUniversitiesAsWritten(stored: seq<University>, p: Params): (r: seq<University>)
    ensures |r| <= ResultLimit
    ensures IsSubseq(r, stored)
    ensures forall u :: u in r ==> u in stored && MatchesAsWritten(u, p)
    ensures |Filter(stored, MatchesAsWrittenPred(p))| <= ResultLimit ==>
              forall u :: u in stored && MatchesAsWritten(u, p) ==> u in r
  {
    var all := Filter(stored, MatchesAsWrittenPred(p));
    FilterIsSubseq(stored, MatchesAsWrittenPred(p));
    TakeIsSubseq(all, ResultLimit);
    SubseqTransitive(Take(all, ResultLimit), all, stored);
    Take(all, ResultLimit)
  }

  lemma {:induction false} TakeIsSubseq(s: seq<University>, n: nat)
    ensures IsSubseq(Take(s, n), s)
    decreases |s|
  {
    if n > 0 && s != [] {
      var t := Take(s, n);
      assert t[0] == s[0];
      assert t[1..] == Take(s[1..], n - 1);
      TakeIsSubseq(s[1..], n - 1);
    } else if s != [] {
      assert Take(s, n) == [];
    }
  }

  /** Without both a search and a category the two readings agree. */
  lemma AgreeUnlessBoth(u: University, p: Params)
    requires !(Given(p.search) && Given(p.category))
    ensures MatchesAsWritten(u, p) <==> Matches(u, p)
  {
  }

  /** With both given, the written query passes a university matching the
      search but not the category, which the intended query rejects. */
  lemma SearchOrCategory(u: University, p: Params)
    requires Given(p.search) && Given(p.category) && OtherClauses(u, p)
    requires SearchMatches(u, p.search.value) && !CategoryMatches(u, p.category.value)
    ensures MatchesAsWritten(u, p) && !Matches(u, p)
  {
  }

  /** The written query with both given is the disjunction. */
  lemma AsWrittenIsDisjunction(u: University, p: Params)
    requires Given(p.search) && Given(p.category)
    ensures MatchesAsWritten(u, p) <==>
      (SearchMatches(u, p.search.value) || CategoryMatches(u, p.category.value)) && OtherClauses(u, p)
  {
    var alternatives := [SearchMatches(u, p.search.value), CategoryMatches(u, p.category.value)];
    assert true in alternatives <==> alternatives[0] || alternatives[1];
  }
}

=== FILE: university_update.dfy ===
/** The server's university update: who may update which university, the
    dropping of fields sent as `null`, and the partial update of the stored
    record. */
module UniversityUpdate {
  import opened Outcomes
  import opened Entities

  /** The decoded token of the caller. */
  datatype Claims = Claims(role: string, universityId: Option<string>)

  /** The update request: every field is optional and `None` when sent as
      `null` or left out. */
  datatype Changes = Changes(
    name: Option<string>,
    location: Option<string>,
    state: Option<string>,
    categories: Option<seq<string>>,
    mainPhoto: Option<string>,
    gallery: Option<seq<string>>,
    description: Option<string>,
    courses: Option<seq<Course>>,
    placement: Option<real>,
    rating: Option<real>,
    tags: Option<seq<string>>,
    contact: Option<map<string, string>>)

  /** Every field is `None`: `update_data`, the fields that are not `None`,
      is empty. */
  predicate NoChanges(c: Changes) {
    c.name.None? && c.location.None? && c.state.None? && c.categories.None? && c.mainPhoto.None?
    && c.gallery.None? && c.description.None? && c.courses.None? && c.placement.None?
    && c.rating.None? && c.tags.None? && c.contact.None?
  }

  /** `{"$set": update_data}`: the sent fields replace the stored ones. */
  function Apply(u: University, c: Changes): (r: University)
    ensures r.id == u.id && r.legacyCategory == u.legacyCategory
    ensures r.name == c.name.GetOr(u.name) && r.location == c.location.GetOr(u.location)
    ensures r.state == c.state.GetOr(u.state) && r.mainPhoto == c.mainPhoto.GetOr(u.mainPhoto)
    ensures r.description == c.description.GetOr(u.description)
    ensures r.categories == (if c.categories.Some? then c.categories else u.categories)
    ensures r.gallery == c.gallery.GetOr(u.gallery) && r.courses == c.courses.GetOr(u.courses)
    ensures r.placement == c.placement.GetOr(u.placement) && r.rating == c.rating.GetOr(u.rating)
    ensures r.tags == c.tags.GetOr(u.tags) && r.contact == c.contact.GetOr(u.contact)
  {
    u.(name := c.name.GetOr(u.name), location := c.location.GetOr(u.location),
       state := c.state.GetOr(u.state),
       categories := if c.categories.Some? then c.categories else u.categories,
       mainPhoto := c.mainPhoto.GetOr(u.mainPhoto), gallery := c.gallery.GetOr(u.gallery),
       description := c.description.GetOr(u.description), courses := c.courses.GetOr(u.courses),
       placement := c.placement.GetOr(u.placement), rating := c.rating.GetOr(u.rating),
       tags := c.tags.GetOr(u.tags), contact := c.contact.GetOr(u.contact))
  }

  /** Applying the same update twice is applying it once. */
  lemma ApplyIdempotent(u: University, c: Changes)
    ensures Apply(Apply(u, c), c) == Apply(u, c)
  {
  }

  /** An update without fields would change nothing. */
  lemma ApplyNothing(u: University, c: Changes)
    requires NoChanges(c)
    ensures Apply(u, c) == u
  {
  }

  /** The index of the first stored university with `id`. */
  function IndexOf(stored: seq<University>, id: string): (r: Option<nat>)
    ensures r.None? <==> forall i :: 0 <= i < |stored| ==> stored[i].id != id
    ensures r.Some? ==> r.value < |stored| && stored[r.value].id == id
    ensures r.Some? ==> forall j :: 0 <= j < r.value ==> stored[j].id != id
  {
    if stored == [] then None
    else if stored[0].id == id then Some(0)
    else
      match IndexOf(stored[1..], id)
      case None => None
      case Some(k) => Some(k + 1)
  }

  const NotOwnUniversity := HttpError(403, "You can only update your own university")
  const Unauthorized := HttpError(403, "Unauthorized")
  const NoData := HttpError(400, "No data to update")
  const NotFound := HttpError(404, "University not found")

  /** `update_university`: the checks in source order, then the update of the
      first matching record, which is returned. */
  function UpdateUniversity(user: Claims, id: string, c: Changes, stored: seq<University>)
    : (r: Result<(seq<University>, University)>)
    ensures user.role == "manager" && user.universityId != Some(id) ==> r == Err(NotOwnUniversity)
    ensures user.role != "manager" && user.role != "admin" ==> r == Err(Unauthorized)
    ensures ((user.role == "admin" || (user.role == "manager" && user.universityId == Some(id)))
              && NoChanges(c)) ==> r == Err(NoData)
    ensures r == Err(NotFound) <==>
              (user.role == "admin" || (user.role == "manager" && user.universityId == Some(id)))
              && !NoChanges(c) && IndexOf(stored, id).None?
    ensures r.Ok? ==> IndexOf(stored, id).Some?
    ensures r.Ok? ==> var i := IndexOf(stored, id).value;
              r.value.0 == stored[i := Apply(stored[i], c)] && r.value.1 == Apply(stored[i], c)
  {
    if user.role == "manager" && user.universityId != Some(id) then Err(NotOwnUniversity)
    else if user.role != "admin" && user.role != "manager" then Err(Unauthorized)
    else if NoChanges(c) then Err(NoData)
    else
      match IndexOf(stored, id)
      case None => Err(NotFound)
      case Some(i) => Ok((stored[i := Apply(stored[i], c)], Apply(stored[i], c)))
  }

  /** Only an administrator, or the manager of that very university, gets an
      update through. */
  lemma UpdateAuthorised(user: Claims, id: string, c: Changes, stored: seq<University>)
    requires UpdateUniversity(user, id, c, stored).Ok?
    ensures user.role == "admin" || (user.role == "manager" && user.universityId == Some(id))
    ensures !NoChanges(c)
  {
  }

  /** A successful update touches one record: the store keeps its length and
      every other record, and the updated record keeps its id, so reading it
      back by id returns what the update answered. */
  lemma UpdateTouchesOne(user: Claims, id: string, c: Changes, stored: seq<University>)
    requires UpdateUniversity(user, id, c, stored).Ok?
    ensures var (after, u) := UpdateUniversity(user, id, c, stored).value;
            |after| == |stored|
            && (forall j :: 0 <= j < |stored| && stored[j].id != id ==> after[j] == stored[j])
            && IndexOf(after, id) == IndexOf(stored, id)
            && after[IndexOf(after, id).value] == u
  {
    var i := IndexOf(stored, id).value;
    var after := UpdateUniversity(user, id, c, stored).value.0;
    IndexOfFrame(stored, after, id, i);
  }

  /** Two stores that agree on which records carry `id` before index `i`, and
      both carry it at `i`, find it at the same place. */
  lemma {:induction false} IndexOfFrame(a: seq<University>, b: seq<University>, id: string, i: nat)
    requires |a| == |b| && i < |a| && a[i].id == id && b[i].id == id
    requires forall j :: 0 <= j < i ==> a[j].id != id && b[j].id != id
    ensures IndexOf(a, id) == IndexOf(b, id) == Some(i)
  {
    if i > 0 {
      assert a[1..][i - 1] == a[i] && b[1..][i - 1] == b[i];
      forall j | 0 <= j < i - 1 ensures a[1..][j].id != id && b[1..][j].id != id {
        assert a[1..][j] == a[j + 1] && b[1..][j] == b[j + 1];
      }
      IndexOfFrame(a[1..], b[1..], id, i - 1);
    }
  }
}
